=== FILE: README.md ===
# Raven: a Dafny model of the delegate, verify and monetize pipeline

Raven takes a GitHub issue URL and runs it through three steps:

- **delegate**: ask a network of miners for candidate patches;
- **verify**: refuse patches that a static gate rejects, and run the rest against a test suite in a locked-down Docker container;
- **monetize**: choose the patch most passing miners agree on, and lock its code behind an x402 payment invoice.

Two chat front ends, one for Telegram and one for Discord, start a run when a message carries an issue link.

This project models that decision logic in Dafny and proves what it promises. Python's parser, the Docker daemon, HTTP, the LLM SDKs, the uuid generator, `random.sample` and the clock are not modelled. Their results arrive as parameters, so every property holds whatever they return.

Modules, one per source component:

- `Validation`: the static patch gate (`validate_patch_code`), an ordered cascade of rejection rules. The syntax tree arrives in the order `ast.walk` visits it.
- `Normalize`, `Consensus`, `Report`: `_normalize_code`, the plurality vote with its first-seen tie-break, and the consensus report with its stable descending sort.
- `Coordinator`: `solve_issue` as a function from the network's stream and the collaborators' outcomes to the typed item stream the generator yields. It also records the side effects: what was sandboxed, what passed, what was locked.
- `X402`: the invoice store as a map-based state machine: create, verify (demo or gateway), retrieve.
- `Sandbox`: `run_verification` as control flow over the outcomes of the Docker calls. The result records the calls that were made, in order.
- `CodeBlocks`: the two markdown patterns every `_extract_code` searches for, as leftmost `re.search` matches with a declarative description of a match.
- `LlmProvider`: the factory, the provider constructors, the price tiers and `create_all`.
- `CortensorLive`: the live router client. It covers completion parsing, server-sent-event (SSE) line handling, session resolution, miner labels, and the shape of the events stream.
- `Production`: the LLM-backed network. It covers provider detection, miner selection, the provider cache, both request paths and the network status.
- `Chat`, `TelegramBot`, `DiscordBot`: issue-link matching, truncation of the run at its first "error" or "complete", Telegram's throttle, and what each bot sends.
- Shared helpers:
  - `Wrappers`: `Option` and `Result`.
  - `Strings`: Python's `strip`, `splitlines`, `join` and `lower`. Whitespace and line boundaries follow Python's own tables; `lower` is ASCII only.
  - `Json`: decoded JSON values and their truthiness.
  - `Patches`: candidates and network stream items.

Messages that carry emoji are modelled as structured values, such as `Blocked(minerId, reason)`. `Coordinator.NoteText`, `Coordinator.UpdateText` and `Coordinator.ProblemText` render each of them word for word, emoji included, as the chat shows it. The chat replies, the validation reasons and the gateway link are kept as text too; only the consensus report's multi-line layout and the log lines stay structured.

Behaviour of the code worth knowing:

- **A stream that raises.** If the network's stream raises part-way, `solve_issue` does not carry on with the candidates already received. The exception reaches the outer handler, and the run ends with the single "Unexpected error" item (`Coordinator.EscapedErrorIsFinal`).
- **Invoice ids can collide.** Outside production mode an invoice id is an 8-character uuid prefix, and a colliding id silently overwrites the stored invoice (`X402.CollisionRelocks`).
- **Any non-demo mode asks the gateway.** Only the exact mode "production" draws a full uuid, but every mode other than "demo" queries the gateway.
- **The bots stop early.** Both bots stop reading the run at its first "error" item. That includes the per-candidate "Error testing" item, which the coordinator itself does not treat as terminal. A run in which one candidate's validation raised therefore never shows its completion in a chat (`Chat.FirstErrorHidesCompletion`).

## Model

| member | source | states |
|---|---|---|
| Validation.TopLevel | agent/validation.py:85 | the module an import is judged on is the part of the name before the first dot |
| Validation.FirstForbiddenAlias | agent/validation.py:83-87 | an `import a, b` is refused for its first alias whose top-level module is forbidden, and passes when none is |
| Validation.WalkFrom | agent/validation.py:79-102 | the walk reports the first node in walk order that is a forbidden import or call. "Missing function" is reported only when no such node exists, and "OK" only when a FunctionDef with the required name was seen |
| Validation.ValidatePatchCode | agent/validation.py:48-102 | the rules fire in order: empty, too large (strictly longer than the ceiling), syntax error, first forbidden node, missing function. The result is ok iff no rule fires and some FunctionDef anywhere has the required name |
| Validation.NeutralInsertion | agent/validation.py:79-100 | a node that is neither a forbidden import or call nor the required FunctionDef can be inserted anywhere in any walk without changing the verdict |
| Validation.AttributeCallsPass | agent/validation.py:94-97 | a call through an attribute such as `builtins.eval(...)`, inserted anywhere in any walk and under any options, leaves the verdict unchanged: the call rule looks only at bare names |
| Validation.RelativeImportPasses | agent/validation.py:89-92 | `from . import x` reads as module "". The default set does not hold "", so under any module set without "" inserting it anywhere leaves the verdict unchanged; a set that holds "" refuses it |
| Validation.ImportJudgedByTopLevel | agent/validation.py:83-87 | `import os.path` is refused as `os`, while `import osx` is not refused |
| Validation.CustomModulesReplaceDefaults | agent/validation.py:74-75 | a supplied module set replaces the default set instead of extending it |
| Validation.FirstOffenceWins | agent/validation.py:79-100 | in any walk, for a patch that passes the empty and size checks, the first forbidden node decides the verdict: an earlier forbidden call outranks any later forbidden import and vice versa, and either outranks a missing function |
| Normalize.Normalize | agent/coordinator.py:125-126 | the canonical form has no leading or trailing whitespace and no line with trailing whitespace |
| Normalize.NormalIsFixed | agent/coordinator.py:125-126 | a text already in canonical form is left unchanged |
| Normalize.NormalizeIdempotent | agent/coordinator.py:125-126 | normalizing twice gives the same result as normalizing once |
| Consensus.Members | agent/coordinator.py:130-137 | a bucket holds exactly the candidates whose key is the bucket's key |
| Consensus.FirstIndex | agent/coordinator.py:130-137 | the position where a key is first seen |
| Consensus.Order | agent/coordinator.py:130-137 | the bucket keys are listed without repetition, in first-seen order (dict insertion order) |
| Consensus.Bucketize | agent/coordinator.py:130-137 | the first loop maps every key to its bucket, and its insertion order is first-seen order |
| Consensus.PickBest | agent/coordinator.py:139-146 | the second loop keeps a key whose bucket is as large as any and strictly larger than every bucket seen before it |
| Consensus.SelectConsensusWinner | agent/coordinator.py:129-148 | the winner is a passing candidate. It opens a largest bucket, and every bucket first seen before it is strictly smaller (the tie-break at line 144 is strict) |
| Consensus.WinnerUnique | agent/coordinator.py:139-148 | the winner's description picks out exactly one position |
| Consensus.BestBucketLeads | agent/coordinator.py:139-148 | the bucket the loop keeps starts with the winner |
| Report.Entries | agent/coordinator.py:152-155 | one report entry per distinct key, in first-seen order, with its vote count and the ids of the miners whose patches share that key, in arrival order |
| Report.Rank | agent/coordinator.py:160 | the ranking is a rearrangement of the entries with vote counts non-increasing and ties in first-seen order |
| Report.RankIsStableSort | agent/coordinator.py:160 | any ranked rearrangement of the entries equals the ranking, so the stable descending sort is unique |
| Report.Preview | agent/coordinator.py:161-162 | a row's preview is a prefix of the bucket's stripped first line, without line breaks, and exactly 80 characters long unless that line is shorter, when it is the whole line |
| Report.ReportBy | agent/coordinator.py:151-164 | the report states the passing count and the distinct-key count, and numbers its rows from 1 in ranked order |
| Report.TopRowIsWinner | agent/coordinator.py:139-162 | the report's top row is the winner's bucket, so selection and report agree |
| Report.BucketsPartition | agent/coordinator.py:130-137 | every passing candidate is in exactly one bucket: the bucket of its own key |
| Report.VotesAddUp | agent/coordinator.py:158-162 | the vote counts of all rows add up to the passing count |
| Coordinator.Relay | agent/coordinator.py:39-52 | every network item is re-yielded as an event, and a candidate is announced with its miner id |
| Coordinator.Validate | agent/coordinator.py:78 | blank code is refused without reaching the parser. A parser exception surfaces as an error, and otherwise the gate's verdict is returned |
| Coordinator.Judge | agent/coordinator.py:73-94 | a candidate raises, is refused by validation, or is run in the sandbox, exactly as validation decides |
| Coordinator.Reaction | agent/coordinator.py:80-94 | an iteration yields an error exactly when validation raised, and never a terminal item |
| Coordinator.Verify | agent/coordinator.py:69-94 | one item per candidate. The sandboxed positions are exactly those validation cleared, and the passing list holds exactly the candidates whose tests succeeded, in arrival order |
| Coordinator.VerifyLogsInOrder | agent/coordinator.py:73-93 | the verification logs hold one line per candidate whose validation did not raise, in arrival order: "blocked" with the reason for a refused one, the sandbox verdict for a tested one |
| Coordinator.VerifyCountsRefusals | agent/coordinator.py:71-81 | `validation_blocked` is the number of candidates validation refused |
| Coordinator.LogsFollowLoggedPositions | agent/coordinator.py:73-93 | after any number of iterations, the `k`-th log line is that of the `k`-th candidate whose validation did not raise |
| Coordinator.Start | agent/coordinator.py:32-52 | every run opens with "Analyzing" and "Delegating" and yields nothing terminal before the checks |
| Coordinator.Triage | agent/coordinator.py:31-98 | a run either stops on a settled stream with nothing locked, or reaches consensus with a non-empty passing list |
| Coordinator.Finish | agent/coordinator.py:101-119 | the winner's code is locked exactly once, "Winner Found" comes next, and "complete" is the last item. Its bundle names the winner and the invoice, and its logs are the verification logs followed by the consensus report with the count of blocked patches |
| Coordinator.SolveIssue | agent/coordinator.py:30-122 | with candidates bucketed by normalized code, a run stops where the triage stops it, and otherwise finishes with the winner that is unique under the consensus rule |
| Coordinator.SolveBy | agent/coordinator.py:30-122 | a run stops where the triage stops it, and otherwise finishes with the consensus winner of the passing list |
| Coordinator.RunsSettle | agent/coordinator.py:30-122 | every run ends on exactly one terminal item, and nothing is locked unless it completes |
| Coordinator.EscapedErrorIsFinal | agent/coordinator.py:121-122 | an exception escaping the network's stream becomes the single final error, with nothing validated, run or locked |
| Coordinator.NoCandidatesOneError | agent/coordinator.py:54-56 | no candidates gives exactly one "No solutions" error and no other activity |
| Coordinator.NoConsensusWithoutPassing | agent/coordinator.py:96-98 | consensus is reached iff some candidate passes; otherwise the run ends on "No consensus" with no lock |
| Coordinator.ErrorsDoNotStopTheLoop | agent/coordinator.py:78-94 | a refused candidate never reaches the sandbox, and a raising one yields an error item at its position while the loop goes on |
| X402.NewMerchant | agent/x402.py:11-20 | the store starts empty, the gateway and mode come from the environment, and the mode defaults to "demo" and is lower-cased |
| X402.InvoiceId | agent/x402.py:28 | the id is the full uuid in production and its 8-character prefix otherwise |
| X402.CreateLockedContent | agent/x402.py:22-42 | the invoice is stored unpaid with its content and price, overwriting any entry under the same id, and the call answers "402 Payment Required" with the link |
| X402.VerifyPayment | agent/x402.py:44-74 | an unknown id gives None and changes nothing. Demo mode marks the invoice paid; otherwise it becomes paid iff the gateway reports it paid, and a gateway failure leaves it as it was |
| X402.RetrieveContent | agent/x402.py:76-83 | the content is returned iff the invoice exists and is paid; otherwise the call fails with the locked message |
| X402.VerifyIsMonotone | agent/x402.py:44-74 | verification never unpays, drops or alters another invoice |
| X402.VerifiedUnlocks | agent/x402.py:22-83 | after a successful verification, retrieval returns exactly the locked content |
| X402.FreshLockIsLocked | agent/x402.py:31-36 | a new invoice refuses retrieval until it is verified |
| X402.DemoApprovesAll | agent/x402.py:55-57 | in demo mode every known invoice is approved and unlocked, whatever the gateway says |
| X402.CollisionRelocks | agent/x402.py:28-36 | a new lock whose short id matches an existing invoice relocks it, and the earlier buyer loses access |
| Sandbox.RunCreated | agent/sandbox.py:44-62 | once the container exists, the solution is injected first, and this part never removes or creates a container |
| Sandbox.RunVerification | agent/sandbox.py:25-68 | a failed creation returns its error and removes nothing. Otherwise the container is force-removed as the last call on every path, and never earlier |
| Sandbox.SuccessIffExitZero | agent/sandbox.py:58-60 | success iff every call returned and the StatusCode is present and 0 |
| Sandbox.TimeoutKills | agent/sandbox.py:49-56 | a wait that raises attempts a kill, whatever the kill's outcome, and reports the timeout |
| Sandbox.SolutionBeforeTests | agent/sandbox.py:33-50 | the container is created with the configured limits, then solution.py and then test_suite.py are injected, before any wait |
| CodeBlocks.FindFenced | agent/cortensor_live.py:27 | the leftmost fenced block with a closer after it, cut at the first closer |
| CodeBlocks.FindInline | agent/cortensor_live.py:30 | the leftmost inline backtick span |
| CodeBlocks.ExtractLive | agent/cortensor_live.py:23-33 | blank text gives "", and every result is stripped |
| CodeBlocks.ExtractChat | agent/llm_provider.py:137-151 | with no block the reply comes back unchanged, and otherwise the block's stripped content |
| CodeBlocks.ExtractOllama | agent/llm_provider.py:372-380 | only a fenced block counts, and otherwise the reply comes back unchanged |
| CodeBlocks.FencedFirst | agent/cortensor_live.py:27-28 | the first fenced block decides every extraction |
| CodeBlocks.InlineSecond | agent/cortensor_live.py:30-31 | without a fenced block, the first inline span decides the live and chat extractions, while Ollama keeps the text |
| CodeBlocks.NoBlock | agent/cortensor_live.py:33 | with neither pattern, the live extraction strips the text and the provider extractions keep it |
| LlmProvider.NewProvider | agent/llm_provider.py:61-83 | a constructor succeeds iff its key is set (Ollama: its server answers), and it raises the constructor's message otherwise |
| LlmProvider.Create | agent/llm_provider.py:543-566 | names match without regard to case, "grok" and "xai" both pick Grok, and an unknown name raises "Unknown provider" |
| LlmProvider.KindOfIff | agent/llm_provider.py:554-566 | a name picks a kind exactly when its lower case is that kind's name, or "xai" for Grok |
| LlmProvider.NameRoundTrip | agent/llm_provider.py:554-566 | every kind is reached by its own name |
| LlmProvider.KindOfIgnoresCase | agent/llm_provider.py:554 | lower-casing a name does not change the kind it picks |
| LlmProvider.ExtractFor | agent/llm_provider.py:436 | DeepSeek, Grok and Claude extract as OpenAI does, and Ollama only knows fenced blocks |
| LlmProvider.ExtractionsAgreeOnFences | agent/llm_provider.py:372-380 | the providers differ only on a reply with an inline span and no fenced block |
| LlmProvider.NoBlockKeepsText | agent/llm_provider.py:149-151 | without any block every provider returns the reply unchanged, whitespace included |
| LlmProvider.TierOf | agent/llm_provider.py:153-178 | an OpenAI model is turbo exactly when its name holds "gpt-4-turbo", gpt-4 exactly when it holds "gpt-4" but not that, and gpt-3.5 exactly when it lacks "gpt-4". A Claude model is opus exactly when it holds "opus", sonnet exactly when it holds "sonnet" but not "opus", and haiku otherwise. A provider is unpriced exactly when it is neither |
| LlmProvider.TurboIsTestedFirst | agent/llm_provider.py:159-162 | a "gpt-4-turbo" model also contains "gpt-4", and only the order of the tests makes it turbo |
| LlmProvider.CallCost | agent/llm_provider.py:153-169 | the cost is the prompt and completion tokens times the tier's rates, and 0 for the unpriced providers |
| LlmProvider.CostIsMonotone | agent/llm_provider.py:153-169 | an empty call costs nothing, more tokens never cost less, and on a priced tier any extra token costs more |
| LlmProvider.PerThousandPricesBalancedCalls | agent/llm_provider.py:153-178 | the per-thousand figure prices a call with as many prompt as completion tokens exactly when the call is empty or the tier is neither turbo nor haiku; for those two it underprices |
| LlmProvider.PerThousandIsMeanRate | agent/llm_provider.py:171-178 | the per-thousand figure is the mean of the input and output rates for every priced tier except turbo and haiku |
| LlmProvider.CreateAll | agent/llm_provider.py:569-609 | each entry is present iff its key is set, and Ollama's iff its server answers |
| LlmProvider.CreateAllAgreesWithFactory | agent/llm_provider.py:569-609 | every provider `create_all` holds is the one the factory builds from its kind's name and model |
| CortensorLive.ParseCompletionContent | agent/cortensor_live.py:174-191 | a non-empty `choices` list decides alone; otherwise `result`, then `content`, then `text`; a string reply is its own content |
| CortensorLive.ChoicesDecideAlone | agent/cortensor_live.py:177-182 | with a non-empty `choices` list, no other key of the reply is ever read |
| CortensorLive.ContentText | agent/cortensor_live.py:331 | the content is stripped text, and "" for a falsy value |
| CortensorLive.SseLine | agent/cortensor_live.py:88-118 | a chunk comes only from a `data:` line, `[DONE]` is recognised exactly, an undecodable payload passes verbatim, and a decoded one passes as the text it carries when that text is truthy and is skipped otherwise |
| CortensorLive.SseStream | agent/cortensor_live.py:73-118 | the stream yields the chunks, and raises the line reader's error unless `[DONE]` closed it first |
| CortensorLive.DoneStops | agent/cortensor_live.py:94-96 | nothing after `[DONE]` is read |
| CortensorLive.SkipIsInvisible | agent/cortensor_live.py:89-93 | a skipped line might as well not be there |
| CortensorLive.ResolveSessionId | agent/cortensor_live.py:146-160 | a failed listing keeps the configured id, and only a listed value can make resolution fail |
| CortensorLive.SessionsOf | agent/cortensor_live.py:137-144 | a list answer is the listing; an object's `sessions` entry comes before its `data` entry; anything else lists nothing |
| CortensorLive.SessionShapesAgree | agent/cortensor_live.py:137-144 | a bare list, a `sessions` wrapper and a `data` wrapper give the same listing, and `sessions` wins over a `data` entry beside it |
| CortensorLive.FirstSessionWins | agent/cortensor_live.py:153-160 | the first session's `id`, else its `session_id`, else the configured id |
| CortensorLive.Pad | agent/cortensor_live.py:307-308 | labels are padded with numbered placeholders up to the requested count |
| CortensorLive.MinerLabels | agent/cortensor_live.py:298-308 | there are `redundancy` labels: the first from the listed miners, the rest placeholders |
| CortensorLive.LabelsCoverRequests | agent/cortensor_live.py:298-308 | every request is labelled from the listing when a miner is listed for it, and with a placeholder otherwise |
| CortensorLive.Progress | agent/cortensor_live.py:321-328 | the collected text is all the chunks, and a progress note is sent only once more than 200 characters are in |
| CortensorLive.QuietWhileShort | agent/cortensor_live.py:321-328 | nothing is reported while 200 characters or fewer have arrived |
| CortensorLive.Fetch | agent/cortensor_live.py:313-335 | a failed session resolution ends the request. A plain post gives the post's error, the parse error, or the text of the parsed content, always stripped; a stream gives the joined chunks or the stream's error |
| CortensorLive.PatchCode | agent/cortensor_live.py:333-335 | the code is the extracted block, else the raw content, else the stub, so it is never empty |
| CortensorLive.RequestOne | agent/cortensor_live.py:313-351 | one request yields a start note, any progress notes, then exactly one candidate or one failure note |
| CortensorLive.RequestPatchesStreamEvents | agent/cortensor_live.py:270-351 | an unlistable miner set is reported first, and every candidate carries code |
| CortensorLive.RequestsOpenAndClose | agent/cortensor_live.py:312-351 | the events stream opens `redundancy` requests and closes each exactly once |
| CortensorLive.RequestPatchesStream | agent/cortensor_live.py:205-268 | at most `redundancy` candidates, each with non-empty code |
| CortensorLive.PlainStreamIsEventCandidates | agent/cortensor_live.py:205-268 | the plain stream yields exactly the candidates of the non-streaming events stream, in order |
| Production.Requested | agent/cortensor_production.py:69 | the allowlist is the lower-cased provider list, and an empty list allows everything |
| Production.Detect | agent/cortensor_production.py:80-99 | the detected providers are exactly the allowed and offered ones, in detection order |
| Production.NewNetwork | agent/cortensor_production.py:69-77 | the constructor raises iff no provider is detected, and otherwise starts with an empty cache |
| Production.OllamaKeepsNetworkUp | agent/cortensor_production.py:93-97 | whenever Ollama is allowed, the network comes up and includes it |
| Production.AvailableMiners | agent/cortensor_production.py:136-138 | exactly the fixed miners whose provider is available |
| Production.Select | agent/cortensor_production.py:136-142 | no available miner raises, and a negative count raises. Otherwise min(redundancy, available) distinct available miners are taken |
| Production.CacheKeyInjective | agent/cortensor_production.py:102 | different providers or models never share a cache key |
| Production.GetProvider | agent/cortensor_production.py:101-108 | a cached provider is returned without calling the factory; otherwise the factory runs once and a built provider is stored |
| Production.SecondLookupIsCached | agent/cortensor_production.py:101-108 | a second lookup calls no factory and returns the first provider, even in a changed environment |
| Production.Gather | agent/cortensor_production.py:149-181 | the patches are exactly the contributions of the selected miners against the starting cache, in selection order. At most one factory call per miner, the cache only grows, and it ends up holding a provider for every selected miner whose provider was cached or built, even if that miner's call failed |
| Production.Contributions | agent/cortensor_production.py:149-181 | each selected miner whose provider is cached or built, and whose call returns, contributes one patch carrying its id, in selection order; every patch comes from a selected miner |
| Production.GrownCacheContributesAlike | agent/cortensor_production.py:101-108 | a cache that only gained providers the factory builds judges every miner as the starting cache does, so the contributions are the same |
| Production.LookupGrows | agent/cortensor_production.py:101-108 | a lookup keeps every cached provider and adds only one the factory built, and it yields a provider exactly when one is cached or the factory succeeds |
| Production.GatherStep | agent/cortensor_production.py:149-181 | the first miner contributes what its own lookup and call give, and the rest contribute against the cache that lookup leaves, as against the starting one |
| Production.WarmCacheCallsNoFactory | agent/cortensor_production.py:149-181 | with every provider cached, collecting calls no factory and leaves the cache unchanged |
| Production.After | agent/cortensor_production.py:101-108 | a request whose selection fails leaves the network as it was. Otherwise the network keeps every cached provider and gains one for each selected miner whose provider was built, whatever the request's outcome |
| Production.RequestWarmsCache | agent/cortensor_production.py:101-108 | after any request, a later lookup for a selected miner whose provider was built returns a provider without calling the factory, even in a changed environment |
| Production.RequestPatches | agent/cortensor_production.py:110-187 | the network is returned with its grown cache on every path, the "no valid patches" raise included. A success holds between 1 and `redundancy` patches from available miners. Failures are exactly "none available", a bad sample or "no valid patches". A selection error is raised as is; otherwise the call succeeds exactly when the selected miners contribute something, and the list is those contributions |
| Production.RequestPatchesStream | agent/cortensor_production.py:189-247 | the network is returned with its grown cache, as by the list path; a stream that ends normally has yielded patches, and a raising one raises one of the same three errors |
| Production.StreamAgreesWithList | agent/cortensor_production.py:110-247 | both request paths leave the same network behind, and give the same patches or raise the same error |
| Production.NetworkStatus | agent/cortensor_production.py:249-256 | 6 miners, "operational", the count of available providers, and their names sorted |
| TelegramBot.Pick | bots/telegram_bot.py:50-65 | the forwarded positions increase, stop at the first "error" or "complete", and include it |
| TelegramBot.SentIffDue | bots/telegram_bot.py:54-59 | an event before the stop is forwarded iff 1.5 s have passed since the last forwarded event |
| TelegramBot.EventsAreSpaced | bots/telegram_bot.py:54-59 | forwarded events are at least 1.5 s apart |
| TelegramBot.StopsAtFirstError | bots/telegram_bot.py:60-65 | everything forwarded before the last item is an event, the last is the first "error" or "complete", and nothing later is sent |
| TelegramBot.HandleMessage | bots/telegram_bot.py:37-80 | no message gives nothing, and no link gives the invalid-link reply. Otherwise the start reply comes first, then the pull of the run up to its first error or completion, then the texts of the throttled items |
| DiscordBot.OnMessage | bots/discord_bot.py:33-68 | the bot's own messages and messages without a link are ignored. Otherwise the start reply comes first, then the pull of the run up to its first error or completion, then one message: the text of that error or completion, or none when the run has neither |
| DiscordBot.OnlyTheEndIsPicked | bots/discord_bot.py:44-60 | of the pulled items, the send loop keeps only the first "error" or "complete", and nothing when the stream has neither |
| DiscordBot.OnlyTheEndIsPosted | bots/discord_bot.py:45-68 | exactly one message, for the first "error" or "complete", follows the start reply, and none when the stream has neither |
| Chat.MatchAt | bots/telegram_bot.py:20 | the greedy `\S+` match from a given start, taking the last `/issues/<digit>` it can reach |
| Chat.FindLink | bots/telegram_bot.py:26 | the leftmost match, extended to the end of its digits, and none when no position matches |
| Chat.ExtractIssueUrl | bots/telegram_bot.py:23-27 | empty text gives None, None iff no match exists, and otherwise the slice of the input the leftmost match covers |
| Chat.LinkShape | bots/discord_bot.py:12 | a returned link starts with "https://github.com/", contains no whitespace, and ends in "/issues/" and digits |
| Chat.Consumed | bots/telegram_bot.py:50-65 | the bots pull a prefix of the run: events only, up to and including the first "error" or "complete", or the whole run when it has neither |
| Chat.PulledUpToEndIsConsumed | bots/discord_bot.py:44-55 | only one prefix of the run meets that description, so `Consumed` is exactly what `run_workflow` yields up to |
| Chat.FirstErrorHidesCompletion | bots/telegram_bot.py:60-62 | a per-candidate error ends what the bots read, so the completion after it is never shown |
| Chat.PullsThenSends | bots/discord_bot.py:57-68 | after the start reply every item is pulled before any message is sent |

## Left out

- Python's parser (`ast.parse`, `ast.walk`) is out of reach. Its outcome, the syntax error's text, or an exception other than a SyntaxError, arrives as a parameter.
- Docker, HTTP, the LLM SDKs, the Cortensor router and the x402 gateway are foreign calls. Their outcomes are parameters, and `generate_patch` is a given result per miner.
- `_copy_to_container` builds a tar archive in memory. Only the put-archive call with directory, file name and content is modelled.
- `build_image`, the Docker daemon check in `DockerSandbox.__init__`, and the coordinator's choice of network by `RAVEN_MINER_MODE` are left out. The network is modelled as one stream of items, which also stands in for the `hasattr` choice among `request_patches_stream_events`, `request_patches_stream` and `request_patches`.
- Floating point is left out: cost totals, `duration`, and the `price_usdc` arithmetic. Prices are kept as the text they render to, and costs as exact integers in billionths of a dollar.
- `time.time()` is an integer clock in milliseconds, read per item, and `created_at` is not stored.
- `sign_patch` (HMAC-SHA256) is cryptography inside a foreign library. The signature is a given string.
- `uuid.uuid4()` and `random.sample` are parameters: a uuid text and a permutation of the available miners.
- `_int_env` relies on Python's `int()` parsing. Configuration values such as redundancy and timeout are given integers, and Python's `int()` on a JSON value is a parameter.
- app.py (the Streamlit UI), agent/__init__.py (re-exports), the bots' asyncio plumbing, `on_ready`, `main`, `start_cmd` registration and dotenv loading are left out. The `/start` reply is kept as the constant `TelegramBot.Help`.
- The prompt texts sent to the LLMs and the router are not modelled.
- The report's text layout and Python's rendering of the log lines are left out. The report and log entries are structured values.
- `\d` matches ASCII digits only, and `lower` folds only `A`-`Z`. Python also counts other Unicode digits and lowers other Unicode letters; the texts they apply to (issue numbers, provider names, payment modes and statuses) are ASCII in practice.
- A message with no text and a Discord message with no content both reach the extractor as "", and the model starts from that string.
- The `CortensorLive` network's `get_miners` response shapes other than a list, and the SDK `ImportError` paths, are not modelled.
- `get_info`, `get_status` and the live client's `completion` wrapper are thin HTTP calls and are not modelled separately. Their results are the parameters of `CortensorLive.Fetch`.
- `LlmProvider.CreateAll` tries DeepSeek when only `DEEPSEEK_BASE_URL` is set. The constructor then raises for the missing key and the error is only logged, so the model keeps the entry absent in that case, exactly as the code ends up.
- Json.PyStr: renders a list as "[...]" and a dict as "{...}", where Python's `str()` gives the full repr, and reads a JSON float as an integer, where Python prints it with a decimal point. A miner id, streamed chunk or payment status that is a container or a float therefore renders differently; the code expects strings and integers there.
- Consensus.SelectConsensusWinner: requires a non-empty passing list. On an empty list the source raises, and its only caller checks for emptiness first.
- CortensorLive.ResolveSessionId: states the failure and fallback cases. The full precedence of `id` over `session_id` is in `CortensorLive.FirstSessionWins`.
- CortensorLive.RequestPatchesStream: bounds the number of candidates and their code. The exact correspondence is stated by `CortensorLive.PlainStreamIsEventCandidates`.

=== FILE: chat.dfy ===
/** What the two chat bots (bots/telegram_bot.py and bots/discord_bot.py) share: the issue-link
    pattern `https://github\.com/\S+/issues/\d+` and `_extract_issue_url`, the messages they
    send, and how far each pulls the coordinator's item stream. */
module Chat {
  import opened Wrappers
  import opened Strings
  import opened Coordinator

  const Prefix := "https://github.com/"
  const IssuesPart := "/issues/"

  const InvalidLink := "Please send a valid GitHub issue URL."

  function StartText(url: string): string {
    "🪶 Raven starting on: " + url
  }

  /** The message a "complete" item becomes; the bundle always carries the three keys the bot
      reads with `.get`. */
  function DoneText(b: Bundle): string {
    "✅ Done. Winner: " + b.winner + "\nInvoice: " + b.invoiceId + "\nPay: " + b.paymentLink
  }

  /** `str(payload)` of an "event" or "error" item, and the done message of a "complete" one. */
  function ItemText(x: Item): string {
    match x
    case Event(u) => UpdateText(u)
    case Error(p) => ProblemText(p)
    case Complete(b) => DoneText(b)
  }

  /** What a bot does, in order: reply to the user, pull the next item from the coordinator,
      or send a message to the chat. */
  datatype Action = Reply(text: string) | Pull(item: Item) | Send(text: string)

  /** "/issues/" followed by a digit starts at `j`. */
  predicate IssuesAt(s: string, j: int) {
    OccursAt(s, IssuesPart, j) && j + |IssuesPart| < |s| && IsDigit(s[j + |IssuesPart|])
  }

  /** The pattern matches at `i` with its `\S+` spanning `s[i + 19..j]`; the `\d+` then runs
      over every digit from `j + 8` on. */
  ghost predicate UrlAt(s: string, i: int, j: int) {
    && OccursAt(s, Prefix, i)
    && i + |Prefix| < j
    && IssuesAt(s, j)
    && (forall q :: i + |Prefix| <= q < j ==> !IsSpace(s[q]))
  }

  /** The first whitespace at or after `k`, or `|s|`. */
  function SpaceFrom(s: string, k: nat): (m: nat)
    requires k <= |s|
    ensures k <= m <= |s|
    ensures m < |s| ==> IsSpace(s[m])
    ensures forall q :: k <= q < m ==> !IsSpace(s[q])
    decreases |s| - k
  {
    if k == |s| || IsSpace(s[k]) then k else SpaceFrom(s, k + 1)
  }

  /** The first non-digit at or after `k`, or `|s|`. */
  function DigitsFrom(s: string, k: nat): (m: nat)
    requires k <= |s|
    ensures k <= m <= |s|
    ensures m < |s| ==> !IsDigit(s[m])
    ensures forall q :: k <= q < m ==> IsDigit(s[q])
    decreases |s| - k
  {
    if k == |s| || !IsDigit(s[k]) then k else DigitsFrom(s, k + 1)
  }

  /** The largest `j` with `lo <= j <= hi` where "/issues/" and a digit start, or -1. */
  function LastIssues(s: string, lo: int, hi: int): (j: int)
    ensures j == -1 || (lo <= j <= hi && IssuesAt(s, j))
    ensures forall q :: lo <= q <= hi && j < q ==> !IssuesAt(s, q)
    decreases hi - lo
  {
    if hi < lo then -1 else if IssuesAt(s, hi) then hi else LastIssues(s, lo, hi - 1)
  }

  /** "/issues/" and the digit after it hold no whitespace. */
  lemma IssuesHaveNoSpace(s: string, j: int)
    requires IssuesAt(s, j)
    ensures forall q :: j <= q <= j + |IssuesPart| ==> !IsSpace(s[q])
  {
    forall q | j <= q <= j + |IssuesPart| ensures !IsSpace(s[q]) {
      if q < j + |IssuesPart| {
        assert s[q] == IssuesPart[q - j];
      }
    }
  }

  /** At a prefix occurrence, the matches are exactly the issue parts before the first
      whitespace: the greedy `\S+` backs off from that whitespace to the last of them. */
  lemma UrlAtIff(s: string, i: nat, j: int)
    requires OccursAt(s, Prefix, i)
    ensures UrlAt(s, i, j) <==> (i + |Prefix| < j <= SpaceFrom(s, i + |Prefix|) - |IssuesPart| - 1
                                 && IssuesAt(s, j))
  {
    var e := SpaceFrom(s, i + |Prefix|);
    if UrlAt(s, i, j) {
      IssuesHaveNoSpace(s, j);
      if e < |s| {
        assert !(e < j + |IssuesPart| + 1);
      }
    }
  }

  /** The last "/issues/" position the pattern can match with when it starts at `i`, or -1
      when it cannot match there. */
  function MatchAt(s: string, i: nat): (j: int)
    ensures j >= 0 ==> UrlAt(s, i, j)
    ensures j >= 0 ==> forall j' :: UrlAt(s, i, j') ==> j' <= j
    ensures j < 0 ==> forall j' :: !UrlAt(s, i, j')
  {
    if OccursAt(s, Prefix, i) then
      var j := LastIssues(s, i + |Prefix| + 1, SpaceFrom(s, i + |Prefix|) - |IssuesPart| - 1);
      forall j' | UrlAt(s, i, j') ensures j' <= j {
        UrlAtIff(s, i, j');
      }
      UrlAtIff(s, i, j);
      j
    else
      -1
  }

  /** A match: the pattern matches `s[start..end]`, with "/issues/" at `j`. */
  datatype Link = Link(start: nat, j: nat, end: nat)

  /** `re.search` from position `i` on: the leftmost start with a match, the last issue part
      the greedy `\S+` can back off to, and every digit after it. */
  function FindLink(s: string, i: nat): (r: Option<Link>)
    requires i <= |s|
    ensures r.Some? ==> && i <= r.value.start && UrlAt(s, r.value.start, r.value.j)
                        && r.value.j + |IssuesPart| < r.value.end
                        && r.value.end == DigitsFrom(s, r.value.j + |IssuesPart|)
    ensures r.Some? ==> forall j :: UrlAt(s, r.value.start, j) ==> j <= r.value.j
    ensures r.Some? ==> forall p, j :: i <= p < r.value.start ==> !UrlAt(s, p, j)
    ensures r.None? ==> forall p, j :: i <= p ==> !UrlAt(s, p, j)
    decreases |s| - i
  {
    var j := MatchAt(s, i);
    if j >= 0 then Some(Link(i, j, DigitsFrom(s, j + |IssuesPart|)))
    else if i == |s| then None
    else FindLink(s, i + 1)
  }

  /** An occurrence inside a slice stays an occurrence of the slice. */
  lemma OccursInSlice(s: string, sub: string, k: int, a: nat, b: nat)
    requires OccursAt(s, sub, k) && a <= k && k + |sub| <= b <= |s|
    ensures OccursAt(s[a..b], sub, k - a)
  {
    var x, y := s[a..b][k - a..k - a + |sub|], s[k..k + |sub|];
    forall t | 0 <= t < |sub| ensures x[t] == y[t] {
      assert x[t] == s[k + t];
    }
    assert x == y;
  }

  /** A match holds no whitespace. */
  lemma LinkHasNoSpace(s: string, l: Link)
    requires UrlAt(s, l.start, l.j) && l.j + |IssuesPart| < l.end
    requires l.end == DigitsFrom(s, l.j + |IssuesPart|)
    ensures forall q :: 0 <= q < l.end - l.start ==> !IsSpace(s[l.start..l.end][q])
  {
    IssuesHaveNoSpace(s, l.j);
    forall q | 0 <= q < l.end - l.start ensures !IsSpace(s[l.start..l.end][q]) {
      assert s[l.start..l.end][q] == s[l.start + q];
      if q < |Prefix| {
        assert s[l.start + q] == Prefix[q];
      }
    }
  }

  /** A match ends in digits after its "/issues/". */
  lemma LinkEndsInDigits(s: string, l: Link)
    requires UrlAt(s, l.start, l.j) && l.j + |IssuesPart| < l.end
    requires l.end == DigitsFrom(s, l.j + |IssuesPart|)
    ensures forall q :: l.j - l.start + |IssuesPart| <= q < l.end - l.start ==> IsDigit(s[l.start..l.end][q])
  {
    forall q | l.j - l.start + |IssuesPart| <= q < l.end - l.start
      ensures IsDigit(s[l.start..l.end][q])
    {
      assert s[l.start..l.end][q] == s[l.start + q];
    }
  }

  lemma OccursAtStart(u: string, p: string)
    requires OccursAt(u, p, 0)
    ensures StartsWith(u, p)
  {
    assert u[0..|p|] == u[..|p|];
  }

  /** What `_extract_issue_url` returns for a match: a string that starts with
      "https://github.com/", holds no whitespace, and ends with "/issues/" and digits. */
  lemma LinkShape(s: string, l: Link)
    requires UrlAt(s, l.start, l.j) && l.j + |IssuesPart| < l.end
    requires l.end == DigitsFrom(s, l.j + |IssuesPart|)
    ensures StartsWith(s[l.start..l.end], Prefix)
    ensures forall q :: 0 <= q < l.end - l.start ==> !IsSpace(s[l.start..l.end][q])
    ensures OccursAt(s[l.start..l.end], IssuesPart, l.j - l.start)
    ensures forall q :: l.j - l.start + |IssuesPart| <= q < l.end - l.start ==> IsDigit(s[l.start..l.end][q])
  {
    OccursInSlice(s, Prefix, l.start, l.start, l.end);
    OccursAtStart(s[l.start..l.end], Prefix);
    OccursInSlice(s, IssuesPart, l.j, l.start, l.end);
    LinkHasNoSpace(s, l);
    LinkEndsInDigits(s, l);
  }

  /** `_extract_issue_url(text)`: nothing for empty text, else the text of the first match. */
  function ExtractIssueUrl(text: string): (r: Option<string>)
    ensures text == "" ==> r.None?
    ensures r.None? <==> forall p, j :: !UrlAt(text, p, j)
    ensures match FindLink(text, 0)
            case None => r.None?
            case Some(l) => l.start <= l.end <= |text| && r == Some(text[l.start..l.end])
  {
    if text == "" then None
    else match FindLink(text, 0)
      case None => None
      case Some(l) => Some(text[l.start..l.end])
  }

  /** The position of the first item at or after `k` that is not an "event", or `|items|`. */
  function StopAt(items: seq<Item>, k: nat): (m: nat)
    requires k <= |items|
    ensures k <= m <= |items|
    ensures m < |items| ==> !items[m].Event?
    ensures forall q :: k <= q < m ==> items[q].Event?
    decreases |items| - k
  {
    if k == |items| || !items[k].Event? then k else StopAt(items, k + 1)
  }

  /** The items a bot's `run_workflow` pulls from the coordinator before it returns: up to and
      including the first "error" or "complete". */
  function Consumed(items: seq<Item>): (r: seq<Item>)
    ensures PulledUpToEnd(items, r)
  {
    var m := StopAt(items, 0);
    if m < |items| then items[..m + 1] else items
  }

  /** `r` is a prefix of `items` with events only before its last item, and it either ends on
      an "error" or "complete" or takes the whole stream. */
  ghost predicate PulledUpToEnd(items: seq<Item>, r: seq<Item>) {
    && |r| <= |items| && r == items[..|r|]
    && (forall i :: 0 <= i < |r| - 1 ==> r[i].Event?)
    && (|r| == |items| || (|r| > 0 && !r[|r| - 1].Event?))
  }

  /** Only one prefix reads the stream up to its end, so `Consumed` is the one the bots pull. */
  lemma PulledUpToEndIsConsumed(items: seq<Item>, r: seq<Item>)
    requires PulledUpToEnd(items, r)
    ensures r == Consumed(items)
  {
    var m := StopAt(items, 0);
    var c := Consumed(items);
    if |r| < |c| {
      assert false;
    } else if |c| < |r| {
      assert false;
    }
  }

  /** Both bots stop at the first error even when it is a per-candidate error the coordinator
      would have continued after: a completion later in the stream is never pulled. */
  lemma FirstErrorHidesCompletion(items: seq<Item>, k: nat)
    requires k < |items| && items[k].Error? && forall q :: 0 <= q < k ==> items[q].Event?
    ensures Consumed(items) == items[..k + 1]
    ensures forall x :: x in Consumed(items) ==> !x.Complete?
  {
    assert StopAt(items, 0) == k;
  }

  /** A settled coordinator run with no per-candidate error reaches a bot whole. */
  lemma SettledRunIsConsumed(items: seq<Item>)
    requires Settled(items)
    requires forall i :: 0 <= i < |items| ==> !(items[i].Error? && items[i].problem.ErrorTesting?)
    ensures Consumed(items) == items
  {
    assert !items[|items| - 1].Event?;
  }

  /** The message text of each item, in order. */
  function Texts(items: seq<Item>): (r: seq<string>)
    ensures |r| == |items| && forall i :: 0 <= i < |items| ==> r[i] == ItemText(items[i])
  {
    seq(|items|, i requires 0 <= i < |items| => ItemText(items[i]))
  }

  function Pulls(items: seq<Item>): (r: seq<Action>)
    ensures |r| == |items| && forall i :: 0 <= i < |items| ==> r[i] == Pull(items[i])
  {
    seq(|items|, i requires 0 <= i < |items| => Pull(items[i]))
  }

  function Sends(texts: seq<string>): (r: seq<Action>)
    ensures |r| == |texts| && forall i :: 0 <= i < |texts| ==> r[i] == Send(texts[i])
  {
    seq(|texts|, i requires 0 <= i < |texts| => Send(texts[i]))
  }

  /** No message goes out before the last item is pulled. */
  predicate PullsBeforeSends(trace: seq<Action>) {
    forall a, b :: 0 <= a < b < |trace| && trace[a].Send? ==> !trace[b].Pull?
  }

  lemma PullsThenSends(first: Action, items: seq<Item>, texts: seq<string>)
    requires first.Reply?
    ensures PullsBeforeSends([first] + Pulls(items) + Sends(texts))
  {
    var t := [first] + Pulls(items) + Sends(texts);
    forall a, b | 0 <= a < b < |t| && t[a].Send? ensures !t[b].Pull? {
      if a > 0 {
        assert a > |items|;
        assert t[b] == Sends(texts)[b - 1 - |items|];
      }
    }
  }
}

=== FILE: codeblocks.dfy ===
/** The two markdown patterns every `_extract_code` searches for, as `re.search` matches them:
    a fenced block ``` ```(?:python)?\n(.*?)\n``` ``` with `re.DOTALL`, and an inline span
    `` `([^`]+)` ``. Each search is written as a scan for the leftmost match and proved against a
    declarative description of what a match is. */
module CodeBlocks {
  import opened Wrappers
  import opened Strings

  const Closer := "\n```"

  /** A match: it starts at `start`, and group 1 is `s[lo..hi]`. */
  datatype Span = Span(start: nat, lo: nat, hi: nat)

  /** The fenced pattern matches at `i` with group 1 `s[lo..hi]`. The optional "python" is
      greedy, and the two openings cannot both be present, so the opening fixes `lo`; the lazy
      body stops at the first closer. */
  ghost predicate FencedAt(s: string, i: int, lo: int, hi: int) {
    && ((lo == i + 10 && OccursAt(s, "```python\n", i)) || (lo == i + 4 && OccursAt(s, "```\n", i)))
    && lo <= hi && OccursAt(s, Closer, hi)
    && (forall k :: lo <= k < hi ==> !OccursAt(s, Closer, k))
  }

  /** The inline pattern matches at `i` with group 1 `s[i + 1..hi]`: a backtick, at least one
      non-backtick, a backtick. */
  ghost predicate InlineAt(s: string, i: int, hi: int) {
    && 0 <= i && i + 1 < hi < |s|
    && s[i] == '`' && s[hi] == '`'
    && (forall q :: i < q < hi ==> s[q] != '`')
  }

  /** Where the body of a block opened at `i` starts, or -1 when no opening is at `i`. */
  function BodyStart(s: string, i: nat): (j: int)
    ensures j == -1 || i + 4 <= j <= |s|
  {
    if OccursAt(s, "```python\n", i) then i + 10
    else if OccursAt(s, "```\n", i) then i + 4
    else -1
  }

  /** The first closer at or after `j`, or `|s|` when there is none. */
  function CloseFrom(s: string, j: nat): (m: nat)
    requires j <= |s|
    ensures j <= m <= |s|
    ensures m < |s| ==> OccursAt(s, Closer, m)
    ensures forall k :: j <= k < m ==> !OccursAt(s, Closer, k)
    decreases |s| - j
  {
    if OccursAt(s, Closer, j) || j == |s| then j else CloseFrom(s, j + 1)
  }

  /** A fenced match at `i` is the one the scan computes there. */
  lemma FencedAtIsComputed(s: string, i: nat, lo: int, hi: int)
    requires FencedAt(s, i, lo, hi)
    ensures lo == BodyStart(s, i) && hi == CloseFrom(s, lo) && hi < |s|
  {
    assert s[i + 3] == (if lo == i + 10 then 'p' else '\n');
    var m := CloseFrom(s, lo);
    assert !(m < hi);
    assert !(hi < m);
  }

  /** `re.search` for the fenced pattern, from position `i` on. */
  function FindFenced(s: string, i: nat): (r: Option<Span>)
    requires i <= |s|
    ensures r.Some? ==> i <= r.value.start && FencedAt(s, r.value.start, r.value.lo, r.value.hi)
    ensures r.Some? ==> forall p, lo, hi :: i <= p < r.value.start ==> !FencedAt(s, p, lo, hi)
    ensures r.None? ==> forall p, lo, hi :: i <= p ==> !FencedAt(s, p, lo, hi)
    decreases |s| - i
  {
    var lo := BodyStart(s, i);
    var r :=
      if lo >= 0 && CloseFrom(s, lo) < |s| then Some(Span(i, lo, CloseFrom(s, lo)))
      else if i == |s| then None
      else FindFenced(s, i + 1);
    NoFenceHere(s, i, r.Some? && r.value.start == i);
    r
  }

  lemma NoFenceHere(s: string, i: nat, found: bool)
    requires i <= |s|
    requires !found ==> BodyStart(s, i) < 0 || CloseFrom(s, BodyStart(s, i)) == |s|
    ensures !found ==> forall lo, hi :: !FencedAt(s, i, lo, hi)
    ensures i == |s| ==> forall p, lo, hi :: p >= |s| ==> !FencedAt(s, p, lo, hi)
  {
    if !found {
      forall lo, hi | FencedAt(s, i, lo, hi)
        ensures false
      {
        FencedAtIsComputed(s, i, lo, hi);
      }
    }
  }

  /** The first backtick at or after `k`, or `|s|`. */
  function NextTick(s: string, k: nat): (m: nat)
    requires k <= |s|
    ensures k <= m <= |s|
    ensures m < |s| ==> s[m] == '`'
    ensures forall q :: k <= q < m ==> s[q] != '`'
    decreases |s| - k
  {
    if k == |s| || s[k] == '`' then k else NextTick(s, k + 1)
  }

  /** `re.search` for the inline pattern, from position `i` on. The greedy `[^`]+` runs to the
      next backtick, so a match at `i` exists exactly when `s[i]` is a backtick, the next
      character is not, and another backtick follows. */
  function FindInline(s: string, i: nat): (r: Option<Span>)
    requires i <= |s|
    ensures r.Some? ==> i <= r.value.start && r.value.lo == r.value.start + 1
                        && InlineAt(s, r.value.start, r.value.hi)
    ensures r.Some? ==> forall p, hi :: i <= p < r.value.start ==> !InlineAt(s, p, hi)
    ensures r.None? ==> forall p, hi :: i <= p ==> !InlineAt(s, p, hi)
    decreases |s| - i
  {
    if i == |s| then None
    else if s[i] == '`' && i + 1 < |s| && s[i + 1] != '`' && NextTick(s, i + 1) < |s| then
      Some(Span(i, i + 1, NextTick(s, i + 1)))
    else
      InlineNotHere(s, i);
      FindInline(s, i + 1)
  }

  lemma InlineNotHere(s: string, i: nat)
    requires i < |s|
    requires !(s[i] == '`' && i + 1 < |s| && s[i + 1] != '`' && NextTick(s, i + 1) < |s|)
    ensures forall hi :: !InlineAt(s, i, hi)
  {
    forall hi | InlineAt(s, i, hi)
      ensures false
    {
      InlineAtIsComputed(s, i, hi);
    }
  }

  /** An inline match at `i` ends at the next backtick. */
  lemma InlineAtIsComputed(s: string, i: nat, hi: int)
    requires InlineAt(s, i, hi)
    ensures hi == NextTick(s, i + 1) && s[i + 1] != '`'
  {
    var m := NextTick(s, i + 1);
    assert !(hi < m);
    assert !(m < hi);
  }

  /** Group 1 of the first fenced block, if any. */
  function Fenced(s: string): Option<string> {
    match FindFenced(s, 0)
    case Some(sp) => Some(s[sp.lo..sp.hi])
    case None => None
  }

  /** Group 1 of the first inline span, if any. */
  function Inline(s: string): Option<string> {
    match FindInline(s, 0)
    case Some(sp) => Some(s[sp.lo..sp.hi])
    case None => None
  }

  /** `_extract_code` of agent/cortensor_live.py: nothing for blank text, else the stripped
      fenced block, else the stripped inline span, else the stripped text. */
  function ExtractLive(text: string): (code: string)
    ensures Stripped(code)
    ensures IsBlank(text) ==> code == ""
  {
    if IsBlank(text) then ""
    else match Fenced(text)
      case Some(b) => Strip(b)
      case None =>
        match Inline(text)
        case Some(b) => Strip(b)
        case None => Strip(text)
  }

  /** The extraction shared by the OpenAI, Claude, DeepSeek and Grok providers: the stripped
      fenced block, else the stripped inline span, else the text as it came. */
  function ExtractChat(text: string): (code: string)
    ensures Fenced(text).None? && Inline(text).None? ==> code == text
    ensures Fenced(text).Some? || Inline(text).Some? ==> Stripped(code)
  {
    match Fenced(text)
    case Some(b) => Strip(b)
    case None =>
      match Inline(text)
      case Some(b) => Strip(b)
      case None => text
  }

  /** The Ollama provider's extraction: only fenced blocks count. */
  function ExtractOllama(text: string): (code: string)
    ensures Fenced(text).None? ==> code == text
    ensures Fenced(text).Some? ==> Stripped(code)
  {
    match Fenced(text)
    case Some(b) => Strip(b)
    case None => text
  }

  /** The first fenced block, when there is one, decides every extraction: the leftmost
      opening with a closer after it, cut at the first closer. */
  lemma FencedFirst(text: string, i: nat, lo: int, hi: int)
    requires FencedAt(text, i, lo, hi)
    requires forall p, lo', hi' :: 0 <= p < i ==> !FencedAt(text, p, lo', hi')
    ensures 0 <= lo <= hi <= |text|
    ensures ExtractChat(text) == Strip(text[lo..hi]) == ExtractOllama(text)
    ensures !IsBlank(text) && ExtractLive(text) == Strip(text[lo..hi])
  {
    FencedAtIsComputed(text, i, lo, hi);
    var r := FindFenced(text, 0);
    assert r.Some? by {
      if r.None? {
        assert false;
      }
    }
    var sp := r.value;
    assert sp.start == i by {
      if sp.start < i {
        assert false;
      } else if i < sp.start {
        assert false;
      }
    }
    FencedAtIsComputed(text, sp.start, sp.lo, sp.hi);
    assert Fenced(text) == Some(text[lo..hi]);
    assert !IsSpace(text[i]) by {
      if lo == i + 10 {
        assert text[i..i + 10][0] == text[i];
      } else {
        assert text[i..i + 4][0] == text[i];
      }
    }
    assert !IsBlank(text);
  }

  /** Without a fenced block, the first inline span decides the chat and live extractions. */
  lemma InlineSecond(text: string, i: nat, hi: int)
    requires forall p, lo, hi' :: !FencedAt(text, p, lo, hi')
    requires InlineAt(text, i, hi)
    requires forall p, hi' :: 0 <= p < i ==> !InlineAt(text, p, hi')
    ensures ExtractChat(text) == Strip(text[i + 1..hi]) == ExtractLive(text)
    ensures ExtractOllama(text) == text
  {
    assert Fenced(text).None? by {
      if FindFenced(text, 0).Some? {
        assert false;
      }
    }
    var r := FindInline(text, 0);
    assert r.Some? by {
      if r.None? {
        assert false;
      }
    }
    var sp := r.value;
    assert sp.start == i by {
      if sp.start < i {
        assert false;
      } else if i < sp.start {
        assert false;
      }
    }
    InlineAtIsComputed(text, i, sp.hi);
    InlineAtIsComputed(text, i, hi);
    assert Inline(text) == Some(text[i + 1..hi]);
    assert !IsBlank(text) by {
      assert !IsSpace(text[i]);
    }
  }

  /** With neither pattern present, the live extraction strips the text and the provider
      extractions hand it back untouched. */
  lemma NoBlock(text: string)
    requires forall p, lo, hi :: !FencedAt(text, p, lo, hi)
    requires forall p, hi :: !InlineAt(text, p, hi)
    ensures ExtractLive(text) == Strip(text)
    ensures ExtractChat(text) == text && ExtractOllama(text) == text
  {
    BlankIffStripsEmpty(text);
  }
}

=== FILE: consensus.dfy ===
/** The consensus step of agent/coordinator.py: passing candidates are grouped ("bucketed") by
    their normalized code, in the order each code is first seen, and the first member of the
    first strictly largest bucket wins. The report lists the buckets by vote count. */
module Consensus {
  import opened Wrappers
  import opened Strings
  import opened Patches
  import opened Normalize

  /** The bucket key of a candidate: its normalized code. */
  function Key(c: Candidate): string {
    Normalize.Normalize(c.code)
  }

  /** The bucket of key `k`: the candidates of `cs` with that key, in arrival order. */
  function Members(key: Candidate -> string, cs: seq<Candidate>, k: string): (m: seq<Candidate>)
    ensures |m| <= |cs|
    ensures forall c :: c in m <==> c in cs && key(c) == k
  {
    if |cs| == 0 then []
    else
      var init := cs[..|cs| - 1];
      var last := cs[|cs| - 1];
      assert cs == init + [last];
      Members(key, init, k) + (if key(last) == k then [last] else [])
  }

  /** The number of votes key `k` gets. */
  function Votes(key: Candidate -> string, cs: seq<Candidate>, k: string): nat {
    |Members(key, cs, k)|
  }

  /** The position of the first candidate with key `k`, or `|cs|` when there is none. */
  function FirstIndex(key: Candidate -> string, cs: seq<Candidate>, k: string): (p: nat)
    ensures p <= |cs|
    ensures p < |cs| ==> key(cs[p]) == k
    ensures forall i :: 0 <= i < p ==> key(cs[i]) != k
  {
    if |cs| == 0 then 0
    else if key(cs[0]) == k then 0
    else 1 + FirstIndex(key, cs[1..], k)
  }

  /** `o` lists the keys of `cs` without repetition, in the order they are first seen. */
  ghost predicate FirstSeenOrder(key: Candidate -> string, cs: seq<Candidate>, o: seq<string>) {
    && (forall k :: k in o <==> FirstIndex(key, cs, k) < |cs|)
    && (forall i, j :: 0 <= i < j < |o| ==> FirstIndex(key, cs, o[i]) < FirstIndex(key, cs, o[j]))
  }

  /** The distinct keys of `cs` in first-seen order: the insertion order of the bucket dict. */
  function Order(key: Candidate -> string, cs: seq<Candidate>): (o: seq<string>)
    ensures FirstSeenOrder(key, cs, o)
  {
    if |cs| == 0 then []
    else
      var init := cs[..|cs| - 1];
      var o := Order(key, init);
      var k := key(cs[|cs| - 1]);
      var r := if k in o then o else o + [k];
      OrderStep(key, init, cs, o, r);
      r
  }

  lemma OrderStep(key: Candidate -> string, init: seq<Candidate>, cs: seq<Candidate>, o: seq<string>, r: seq<string>)
    requires |cs| == |init| + 1 && init == cs[..|init|]
    requires FirstSeenOrder(key, init, o)
    requires r == if key(cs[|init|]) in o then o else o + [key(cs[|init|])]
    ensures FirstSeenOrder(key, cs, r)
  {
    FirstIndexOfPrefix(key, init, cs);
    var k := key(cs[|init|]);
    if k !in o {
      assert FirstIndex(key, cs, k) == |init|;
      forall i | 0 <= i < |o|
        ensures FirstIndex(key, cs, r[i]) < FirstIndex(key, cs, k)
      {
        assert r[i] == o[i] && o[i] in o;
      }
    }
  }

  /** The first index of a key is unchanged by appending one candidate, unless the key was
      absent before. */
  lemma FirstIndexOfPrefix(key: Candidate -> string, init: seq<Candidate>, cs: seq<Candidate>)
    requires |cs| == |init| + 1 && init == cs[..|init|]
    ensures forall k :: FirstIndex(key, init, k) < |init| ==> FirstIndex(key, cs, k) == FirstIndex(key, init, k)
    ensures forall k :: FirstIndex(key, init, k) == |init| ==> FirstIndex(key, cs, k) >= |init|
  {
    forall k
      ensures FirstIndex(key, init, k) < |init| ==> FirstIndex(key, cs, k) == FirstIndex(key, init, k)
      ensures FirstIndex(key, init, k) == |init| ==> FirstIndex(key, cs, k) >= |init|
    {
      assert forall i :: 0 <= i < |init| ==> cs[i] == init[i];
    }
  }

  /** Position `p` holds the winner: it is the first candidate of its bucket, no bucket has
      more votes, and every bucket first seen before it has strictly fewer. */
  ghost predicate WinnerAt(key: Candidate -> string, cs: seq<Candidate>, p: int) {
    && 0 <= p < |cs|
    && (forall i :: 0 <= i < p ==> key(cs[i]) != key(cs[p]))
    && (forall i :: 0 <= i < |cs| ==> Votes(key, cs, key(cs[i])) <= Votes(key, cs, key(cs[p])))
    && (forall i :: 0 <= i < p ==> Votes(key, cs, key(cs[i])) < Votes(key, cs, key(cs[p])))
  }

  /** The winner's description singles out one position. */
  lemma WinnerUnique(key: Candidate -> string, cs: seq<Candidate>, p: int, q: int)
    requires WinnerAt(key, cs, p) && WinnerAt(key, cs, q)
    ensures p == q
  {
    NotBefore(key, cs, p, q);
    NotBefore(key, cs, q, p);
  }

  lemma NotBefore(key: Candidate -> string, cs: seq<Candidate>, p: int, q: int)
    requires WinnerAt(key, cs, p) && WinnerAt(key, cs, q)
    ensures !(p < q)
  {
    var vp := Votes(key, cs, key(cs[p]));
    var vq := Votes(key, cs, key(cs[q]));
    assert vq <= vp;
  }

  /** A key no candidate carries has an empty bucket. */
  lemma {:induction false} NoMembers(key: Candidate -> string, cs: seq<Candidate>, k: string)
    requires forall i :: 0 <= i < |cs| ==> key(cs[i]) != k
    ensures Members(key, cs, k) == []
  {
    if |cs| > 0 {
      NoMembers(key, cs[..|cs| - 1], k);
    }
  }

  /** A non-empty bucket starts with the first candidate carrying its key. */
  lemma {:induction false} MembersStart(key: Candidate -> string, cs: seq<Candidate>, k: string)
    requires FirstIndex(key, cs, k) < |cs|
    ensures |Members(key, cs, k)| > 0 && Members(key, cs, k)[0] == cs[FirstIndex(key, cs, k)]
  {
    var init := cs[..|cs| - 1];
    FirstIndexOfPrefix(key, init, cs);
    if FirstIndex(key, init, k) < |init| {
      MembersStart(key, init, k);
      assert cs[FirstIndex(key, cs, k)] == init[FirstIndex(key, init, k)];
    } else {
      assert FirstIndex(key, cs, k) == |init|;
      NoMembers(key, init, k);
    }
  }

  /** `buckets` maps each key of `cs` to its bucket, and `order` is the dict's insertion order. */
  ghost predicate BucketsOf(key: Candidate -> string, cs: seq<Candidate>,
                            buckets: map<string, seq<Candidate>>, order: seq<string>) {
    && order == Order(key, cs)
    && (forall k :: k in buckets <==> k in order)
    && (forall k :: k in buckets ==> buckets[k] == Members(key, cs, k))
  }

  /** The first loop of `_select_consensus_winner`: the bucket dict and its insertion order. */
  method Bucketize(key: Candidate -> string, passing: seq<Candidate>)
    returns (buckets: map<string, seq<Candidate>>, order: seq<string>)
    ensures BucketsOf(key, passing, buckets, order)
  {
    buckets := map[];
    order := [];
    for i := 0 to |passing|
      invariant BucketsOf(key, passing[..i], buckets, order)
    {
      var cand := passing[i];
      var code := key(cand);
      var b1 := buckets[code := (if code in buckets then buckets[code] else []) + [cand]];
      var o1 := if code in buckets then order else order + [code];
      BucketStep(key, passing, i, buckets, order, b1, o1);
      buckets, order := b1, o1;
    }
    assert passing[..|passing|] == passing;
  }

  /** One turn of the first loop keeps the buckets in step with the prefix read so far. */
  lemma BucketStep(key: Candidate -> string, cs: seq<Candidate>, i: nat,
                   b0: map<string, seq<Candidate>>, o0: seq<string>,
                   b1: map<string, seq<Candidate>>, o1: seq<string>)
    requires i < |cs| && BucketsOf(key, cs[..i], b0, o0)
    requires o1 == if key(cs[i]) in b0 then o0 else o0 + [key(cs[i])]
    requires b1 == b0[key(cs[i]) := (if key(cs[i]) in b0 then b0[key(cs[i])] else []) + [cs[i]]]
    ensures BucketsOf(key, cs[..i + 1], b1, o1)
  {
    BucketOrderStep(key, cs, i, b0, o0, b1, o1);
    BucketKeysStep(key, cs, i, b0, o0, b1, o1);
    BucketMembersStep(key, cs, i, b0, o0, b1, o1);
  }

  lemma BucketOrderStep(key: Candidate -> string, cs: seq<Candidate>, i: nat,
                   b0: map<string, seq<Candidate>>, o0: seq<string>,
                   b1: map<string, seq<Candidate>>, o1: seq<string>)
    requires i < |cs| && BucketsOf(key, cs[..i], b0, o0)
    requires o1 == if key(cs[i]) in b0 then o0 else o0 + [key(cs[i])]
    requires b1 == b0[key(cs[i]) := (if key(cs[i]) in b0 then b0[key(cs[i])] else []) + [cs[i]]]
    ensures Order(key, cs[..i + 1]) == o1
  {
    OrderGrows(key, cs, i);
    assert key(cs[i]) in b0 <==> key(cs[i]) in o0;
  }

  lemma BucketKeysStep(key: Candidate -> string, cs: seq<Candidate>, i: nat,
                   b0: map<string, seq<Candidate>>, o0: seq<string>,
                   b1: map<string, seq<Candidate>>, o1: seq<string>)
    requires i < |cs| && BucketsOf(key, cs[..i], b0, o0)
    requires o1 == if key(cs[i]) in b0 then o0 else o0 + [key(cs[i])]
    requires b1 == b0[key(cs[i]) := (if key(cs[i]) in b0 then b0[key(cs[i])] else []) + [cs[i]]]
    ensures forall k :: k in b1 <==> k in o1
  {
    forall k
      ensures k in b1 <==> k in o1
    {
      assert k in o1 <==> k in o0 || k == key(cs[i]);
    }
  }

  lemma BucketMembersStep(key: Candidate -> string, cs: seq<Candidate>, i: nat,
                   b0: map<string, seq<Candidate>>, o0: seq<string>,
                   b1: map<string, seq<Candidate>>, o1: seq<string>)
    requires i < |cs| && BucketsOf(key, cs[..i], b0, o0)
    requires o1 == if key(cs[i]) in b0 then o0 else o0 + [key(cs[i])]
    requires b1 == b0[key(cs[i]) := (if key(cs[i]) in b0 then b0[key(cs[i])] else []) + [cs[i]]]
    ensures forall k :: k in b1 ==> b1[k] == Members(key, cs[..i + 1], k)
  {
    var kk := key(cs[i]);
    if kk !in b0 {
      assert FirstIndex(key, cs[..i], kk) == i;
      NoMembers(key, cs[..i], kk);
    }
    forall k | k in b1
      ensures b1[k] == Members(key, cs[..i + 1], k)
    {
      MembersGrow(key, cs, i, k);
    }
  }

  lemma OrderGrows(key: Candidate -> string, cs: seq<Candidate>, i: nat)
    requires i < |cs|
    ensures Order(key, cs[..i + 1]) ==
              if key(cs[i]) in Order(key, cs[..i]) then Order(key, cs[..i])
              else Order(key, cs[..i]) + [key(cs[i])]
  {
    var c := cs[..i + 1];
    assert c[..|c| - 1] == cs[..i] && c[|c| - 1] == cs[i];
  }

  lemma MembersGrow(key: Candidate -> string, cs: seq<Candidate>, i: nat, k: string)
    requires i < |cs|
    ensures Members(key, cs[..i + 1], k) ==
              Members(key, cs[..i], k) + (if key(cs[i]) == k then [cs[i]] else [])
  {
    var c := cs[..i + 1];
    assert c[..|c| - 1] == cs[..i] && c[|c| - 1] == cs[i];
  }

  /** The key at position `t` of `order` has a bucket as large as any, and strictly larger
      than every bucket before `t`. */
  ghost predicate LeadsAt(buckets: map<string, seq<Candidate>>, order: seq<string>, t: int)
    requires forall k :: k in order ==> k in buckets
  {
    && 0 <= t < |order|
    && (forall u :: 0 <= u < |order| ==> |buckets[order[u]]| <= |buckets[order[t]]|)
    && (forall u :: 0 <= u < t ==> |buckets[order[u]]| < |buckets[order[t]]|)
  }

  /** `best` is the key of `order` at a leading position. */
  ghost predicate KeptBest(buckets: map<string, seq<Candidate>>, order: seq<string>, best: string)
    requires forall k :: k in order ==> k in buckets
  {
    exists t :: LeadsAt(buckets, order, t) && order[t] == best
  }

  /** The second loop: scan the keys in order and keep the first one whose bucket is strictly
      larger than the best so far. */
  method PickBest(buckets: map<string, seq<Candidate>>, order: seq<string>) returns (best: string)
    requires |order| > 0
    requires forall k :: k in order ==> k in buckets
    ensures KeptBest(buckets, order, best)
  {
    var bestCode: Option<string> := None;
    var bestCount := -1;
    ghost var bt := 0;
    for j := 0 to |order|
      invariant 0 <= bt <= j
      invariant j == 0 <==> bestCode.None?
      invariant j == 0 ==> bestCount == -1
      invariant j > 0 ==> bt < j && bestCode == Some(order[bt]) && bestCount == |buckets[order[bt]]|
      invariant forall u :: 0 <= u < j ==> |buckets[order[u]]| <= bestCount
      invariant forall u :: 0 <= u < bt ==> |buckets[order[u]]| < bestCount
    {
      var count := |buckets[order[j]]|;
      if count > bestCount {
        bestCount := count;
        bestCode := Some(order[j]);
        bt := j;
      }
    }
    best := bestCode.value;
    assert LeadsAt(buckets, order, bt);
  }

  /** `_select_consensus_winner(passing)`: bucket by key in first-seen order, then keep the
      first bucket whose count is strictly greater than every earlier one, and return its
      first member. */
  method SelectConsensusWinner(passing: seq<Candidate>) returns (winner: Candidate)
    requires |passing| > 0
    ensures exists p :: WinnerAt(Key, passing, p) && winner == passing[p]
  {
    winner := SelectBy(Key, passing);
  }

  /** The selection for any bucket key. */
  method SelectBy(key: Candidate -> string, passing: seq<Candidate>) returns (winner: Candidate)
    requires |passing| > 0
    ensures exists p :: WinnerAt(key, passing, p) && winner == passing[p]
  {
    var buckets, order := Bucketize(key, passing);
    FirstKeySeen(key, passing, order);
    var best := PickBest(buckets, order);
    BestBucketLeads(key, passing, buckets, order, best);
    winner := buckets[best][0];
  }

  lemma FirstKeySeen(key: Candidate -> string, cs: seq<Candidate>, order: seq<string>)
    requires |cs| > 0 && order == Order(key, cs)
    ensures |order| > 0
  {
    assert key(cs[0]) in order;
  }

  /** The bucket `PickBest` keeps opens with the winner. */
  lemma BestBucketLeads(key: Candidate -> string, cs: seq<Candidate>,
                        buckets: map<string, seq<Candidate>>, order: seq<string>, best: string)
    requires BucketsOf(key, cs, buckets, order)
    requires KeptBest(buckets, order, best)
    ensures best in buckets && |buckets[best]| > 0
    ensures WinnerAt(key, cs, FirstIndex(key, cs, best))
    ensures buckets[best][0] == cs[FirstIndex(key, cs, best)]
  {
    var bt :| LeadsAt(buckets, order, bt) && order[bt] == best;
    assert best in order;
    MembersStart(key, cs, best);
    LeaderIsWinner(key, cs, buckets, order, bt);
  }

  /** Keys earlier in the order are first seen earlier. */
  lemma OrderRank(key: Candidate -> string, cs: seq<Candidate>, o: seq<string>, a: int, b: int)
    requires FirstSeenOrder(key, cs, o)
    requires 0 <= a < |o| && 0 <= b < |o|
    requires FirstIndex(key, cs, o[a]) < FirstIndex(key, cs, o[b])
    ensures a < b
  {
  }

  /** The bucket the selection loop keeps is the winner's. */
  lemma LeaderIsWinner(key: Candidate -> string, cs: seq<Candidate>,
                       buckets: map<string, seq<Candidate>>, order: seq<string>, bt: int)
    requires BucketsOf(key, cs, buckets, order) && LeadsAt(buckets, order, bt)
    ensures WinnerAt(key, cs, FirstIndex(key, cs, order[bt]))
  {
    var k := order[bt];
    var p := FirstIndex(key, cs, k);
    assert k in order;
    assert Votes(key, cs, k) == |buckets[k]|;
    forall i | 0 <= i < |cs|
      ensures Votes(key, cs, key(cs[i])) <= Votes(key, cs, k)
      ensures i < p ==> Votes(key, cs, key(cs[i])) < Votes(key, cs, k)
    {
      var ki := key(cs[i]);
      assert FirstIndex(key, cs, ki) <= i;
      var u :| 0 <= u < |order| && order[u] == ki;
      assert Votes(key, cs, ki) == |buckets[ki]|;
      if i < p {
        OrderRank(key, cs, order, u, bt);
      }
    }
  }
}

=== FILE: coordinator.dfy ===
/** `AgentCoordinator.solve_issue` of agent/coordinator.py: the generator that turns what the
    miner network yields into a stream of typed items ("event", "error", "complete") while it
    validates each candidate, runs the survivors in the sandbox, picks the consensus winner and
    locks its code behind a payment. Its collaborators arrive as a `World`. */
module Coordinator {
  import opened Wrappers
  import opened Strings
  import opened Patches
  import opened Validation
  import Sandbox
  import Consensus
  import Report
  import X402

  /** The text of an "event" item. */
  datatype Update =
    | Analyzing(url: string)
    | Delegating(redundancy: int)
    | Relayed(note: Note)
    | PatchReceived(minerId: string)
    | StartingVerification
    | Blocked(minerId: string, reason: Reason)
    | Testing(minerId: string)
    | WinnerFound(minerId: string)

  /** The text of an "error" item. */
  datatype Problem =
    | NoSolutions
    | ErrorTesting(minerId: string, error: string)
    | NoConsensus
    | Unexpected(error: string)

  /** One entry of the verification log; the bundle's `verification_logs` is their texts joined
      by newlines. */
  datatype LogEntry =
    | BlockedLog(minerId: string, reason: Reason)
    | TestedLog(minerId: string, verdict: Sandbox.Verdict)
    | ConsensusLog(note: Report.ConsensusNote, blocked: nat)

  /** The payload of the "complete" item. */
  datatype Bundle = Bundle(winner: string, verificationLogs: seq<LogEntry>, paymentLink: string, invoiceId: string)

  /** One `(kind, payload)` pair the generator yields. */
  datatype Item = Event(update: Update) | Error(problem: Problem) | Complete(bundle: Bundle)

  /** How one iteration of the verification loop ends for a candidate: the validator raised,
      validation refused it, or the sandbox ran it. */
  datatype Judgement = Raised(error: string) | Refused(reason: Reason) | Ran(verdict: Sandbox.Verdict)

  /** The collaborators of one run: what the network's stream yields (and the text of the
      exception it raises, if any); how the loop judges the candidate at each position (see
      `Judge`); the merchant; and the uuid text the next invoice id is drawn from. */
  datatype World = World(
    network: Stream<NetItem>,
    judge: (Candidate, nat) -> Judgement,
    merchant: X402.Merchant,
    uuid: string)

  /** What a run yielded, and the side effects it had: the positions of the candidates handed
      to the sandbox, the passing candidates, the contents locked, and the merchant after it. */
  datatype Outcome = Outcome(
    items: seq<Item>,
    sandboxed: seq<nat>,
    passing: seq<Candidate>,
    locked: seq<string>,
    merchant: X402.Merchant)

  const MockTests :=
    "\nimport pytest\nfrom solution import fix_issue\ndef test_fix():\n"
    + "    assert fix_issue([3,1,2]) == [1,2,3]\n    assert fix_issue([]) == []\n"

  function NoteText(n: Note): string {
    match n
    case MinersUnavailable(e) => "⚠️ Could not list miners: " + e
    case CompletionStarted(i, total) =>
      "🛰️ Cortensor completion " + NatToString(i) + "/" + IntToString(total) + " started…"
    case StreamingProgress(chars) => "…streaming (" + NatToString(chars) + " chars received)"
    case RequestFailed(i, e) => "❌ Cortensor request " + NatToString(i) + " failed: " + e
  }

  function UpdateText(u: Update): string {
    match u
    case Analyzing(url) => "🔍 **Analyzing Issue:** " + url
    case Delegating(r) =>
      "📡 **Delegating to Miner Network:** Requesting " + IntToString(r) + " redundant solutions..."
    case Relayed(n) => NoteText(n)
    case PatchReceived(id) => "📦 Patch received from **" + id + "**"
    case StartingVerification =>
      "🛡️ **Starting Verification:** Validating patches + running Docker sandbox..."
    case Blocked(id, reason) => "⛔ Patch from **" + id + "** blocked: " + ReasonText(reason)
    case Testing(id) => "Testing Patch from **" + id + "**..."
    case WinnerFound(id) => "🏆 **Winner Found:** " + id + ". Creating x402 Lock..."
  }

  function ProblemText(p: Problem): string {
    match p
    case NoSolutions => "❌ No solutions received from miner network."
    case ErrorTesting(id, e) => "⚠️ Error testing " + id + ": " + e
    case NoConsensus => "❌ No consensus reached. All patches failed verification."
    case Unexpected(e) => "❌ Unexpected error in workflow: " + e
  }

  /** A terminal item: the generator returns right after yielding it. */
  predicate Terminal(x: Item) {
    x.Complete? || (x.Error? && !x.problem.ErrorTesting?)
  }

  function Opening(url: string, redundancy: int): seq<Item> {
    [Event(Analyzing(url)), Event(Delegating(redundancy))]
  }

  /** The network's items as the coordinator re-yields them: notes verbatim, and an
      announcement for each candidate. */
  function Relay(items: seq<NetItem>): (r: seq<Item>)
    ensures |r| == |items|
    ensures forall i :: 0 <= i < |items| ==> r[i].Event?
    ensures forall i :: 0 <= i < |items| ==>
              (r[i].update.PatchReceived? <==> items[i].NetCandidate?)
    ensures forall i :: 0 <= i < |items| && items[i].NetCandidate? ==>
              r[i].update.minerId == items[i].candidate.minerId
    ensures forall i :: 0 <= i < |items| && items[i].NetEvent? ==> r[i] == Event(Relayed(items[i].note))
  {
    seq(|items|, i requires 0 <= i < |items| =>
      match items[i]
      case NetEvent(n) => Event(Relayed(n))
      case NetCandidate(c) => Event(PatchReceived(c.minerId)))
  }

  /** The code reaches the parser only when it is not blank and within the size ceiling. */
  predicate ReachesParser(code: string) {
    !IsBlank(code) && |code| <= Defaults.maxChars
  }

  /** `validate_patch_code(code)` with the default options: its verdict, or the text of an
      exception the parser raised on the way. */
  function Validate(code: string, parse: string -> Result<Parse, string>): (r: Result<ValidationResult, string>)
    ensures r.Failure? <==> ReachesParser(code) && parse(code).Failure?
    ensures r.Failure? ==> r.error == parse(code).error
    ensures parse(code).Success? ==> r == Success(ValidatePatchCode(code, parse(code).value, Defaults))
    ensures IsBlank(code) ==> r == Success(ValidationResult(false, EmptyPatch))
  {
    if !ReachesParser(code) then
      // the verdict is reached before the parser is consulted
      Success(ValidatePatchCode(code, Parsed([]), Defaults))
    else
      match parse(code)
      case Failure(e) => Failure(e)
      case Success(p) => Success(ValidatePatchCode(code, p, Defaults))
  }

  /** The sandbox's verdict on `code` in a run whose Docker calls end as `docker` says. */
  function Trial(code: string, docker: Sandbox.Docker, timeout: int): Sandbox.Verdict {
    Sandbox.RunVerification(docker, timeout, code, MockTests).verdict
  }

  /** The judgement on a candidate: `parse` is the parser's outcome for each code, where
      `Failure` is an exception other than `SyntaxError`, and `docker` the outcomes of the
      Docker calls of the candidate's sandbox run. */
  function Judge(c: Candidate, parse: string -> Result<Parse, string>, docker: Sandbox.Docker, timeout: int): (j: Judgement)
    ensures j.Raised? <==> Validate(c.code, parse).Failure?
    ensures j.Raised? ==> j.error == Validate(c.code, parse).error
    ensures j.Refused? <==> Validate(c.code, parse).Success? && !Validate(c.code, parse).value.ok
    ensures j.Refused? ==> j.reason == Validate(c.code, parse).value.reason
    ensures j.Ran? ==> j.verdict == Trial(c.code, docker, timeout)
  {
    match Validate(c.code, parse)
    case Failure(e) => Raised(e)
    case Success(v) => if v.ok then Ran(Trial(c.code, docker, timeout)) else Refused(v.reason)
  }

  /** The judge of a run whose sandbox run for the candidate at position `i` meets `docker(i)`. */
  function JudgeWith(parse: string -> Result<Parse, string>, docker: nat -> Sandbox.Docker, timeout: int): (Candidate, nat) -> Judgement {
    (c: Candidate, i: nat) => Judge(c, parse, docker(i), timeout)
  }

  /** The item one iteration yields. */
  function Reaction(c: Candidate, j: Judgement): (x: Item)
    ensures x.Error? <==> j.Raised?
    ensures !Terminal(x)
  {
    match j
    case Raised(e) => Error(ErrorTesting(c.minerId, e))
    case Refused(reason) => Event(Blocked(c.minerId, reason))
    case Ran(_) => Event(Testing(c.minerId))
  }

  /** The log entry one iteration appends, if any. */
  function LogOf(c: Candidate, j: Judgement): (r: seq<LogEntry>)
    ensures |r| == if j.Raised? then 0 else 1
  {
    if j.Raised? then [] else [LogLine(c, j)]
  }

  /** The log line of a candidate validation refused or the sandbox ran. */
  function LogLine(c: Candidate, j: Judgement): LogEntry
    requires !j.Raised?
  {
    match j
    case Refused(reason) => BlockedLog(c.minerId, reason)
    case Ran(verdict) => TestedLog(c.minerId, verdict)
  }

  predicate Increasing(s: seq<nat>) {
    forall i, j :: 0 <= i < j < |s| ==> s[i] < s[j]
  }

  /** The ways the loop can sort a candidate's position: handed to the sandbox, refused by
      validation, passing its tests, or leaving a log line (anything but a raised validation). */
  datatype Sort = SentToSandbox | BlockedByValidation | PassedTests | Logged

  predicate Sorted(j: Judgement, sort: Sort) {
    match sort
    case SentToSandbox => j.Ran?
    case BlockedByValidation => j.Refused?
    case PassedTests => j.Ran? && j.verdict.success
    case Logged => !j.Raised?
  }

  /** The positions below `n` whose judgement falls under `sort`, in increasing order. */
  function Positions(cs: seq<Candidate>, judge: (Candidate, nat) -> Judgement, sort: Sort, n: nat): (r: seq<nat>)
    requires n <= |cs|
    ensures Increasing(r)
    ensures forall i :: i in r <==> 0 <= i < n && Sorted(judge(cs[i], i), sort)
    ensures |r| <= n
  {
    if n == 0 then []
    else
      var r := Positions(cs, judge, sort, n - 1);
      assert forall k :: 0 <= k < |r| ==> r[k] in r;
      r + (if Sorted(judge(cs[n - 1], n - 1), sort) then [n - 1] else [])
  }

  /** The log lines of the first `n` iterations: one per candidate validation refused or the
      sandbox ran, none for one whose validation raised. */
  function Logs(cs: seq<Candidate>, judge: (Candidate, nat) -> Judgement, n: nat): (r: seq<LogEntry>)
    requires n <= |cs|
    ensures |r| == |Positions(cs, judge, BlockedByValidation, n)| + |Positions(cs, judge, SentToSandbox, n)|
  {
    if n == 0 then [] else Logs(cs, judge, n - 1) + LogOf(cs[n - 1], judge(cs[n - 1], n - 1))
  }

  /** `r` holds, in order, the log lines of the candidates at positions `p`, none of whose
      validation raised. */
  predicate LinesOf(cs: seq<Candidate>, judge: (Candidate, nat) -> Judgement, p: seq<nat>, r: seq<LogEntry>) {
    && |r| == |p|
    && forall k :: 0 <= k < |p| ==>
         p[k] < |cs| && !judge(cs[p[k]], p[k]).Raised? && r[k] == LogLine(cs[p[k]], judge(cs[p[k]], p[k]))
  }

  /** One more iteration extends the positions and the log lines alike. */
  lemma LinesExtend(cs: seq<Candidate>, judge: (Candidate, nat) -> Judgement, i: nat,
                    p: seq<nat>, r: seq<LogEntry>, p': seq<nat>, r': seq<LogEntry>)
    requires i < |cs| && LinesOf(cs, judge, p, r)
    requires p' == p + (if judge(cs[i], i).Raised? then [] else [i])
    requires r' == r + LogOf(cs[i], judge(cs[i], i))
    ensures LinesOf(cs, judge, p', r')
  {
    var j := judge(cs[i], i);
    forall k | 0 <= k < |p'|
      ensures p'[k] < |cs| && !judge(cs[p'[k]], p'[k]).Raised? && r'[k] == LogLine(cs[p'[k]], judge(cs[p'[k]], p'[k]))
    {
      if k >= |p| {
        assert p'[k] == i && r'[k] == LogOf(cs[i], j)[0];
      }
    }
  }

  /** The `k`-th log line belongs to the `k`-th candidate whose validation did not raise. */
  lemma {:induction false} LogsFollowLoggedPositions(cs: seq<Candidate>, judge: (Candidate, nat) -> Judgement, n: nat)
    requires n <= |cs|
    ensures LinesOf(cs, judge, Positions(cs, judge, Logged, n), Logs(cs, judge, n))
  {
    if n > 0 {
      LogsFollowLoggedPositions(cs, judge, n - 1);
      LinesExtend(cs, judge, n - 1, Positions(cs, judge, Logged, n - 1), Logs(cs, judge, n - 1),
                  Positions(cs, judge, Logged, n), Logs(cs, judge, n));
    }
  }

  function Elements(s: seq<nat>): set<nat> {
    set x | x in s
  }

  /** The count of refusals is the number of positions validation refused. */
  lemma RefusalsCounted(cs: seq<Candidate>, judge: (Candidate, nat) -> Judgement)
    ensures |Positions(cs, judge, BlockedByValidation, |cs|)| == |set i | 0 <= i < |cs| && judge(cs[i], i).Refused?|
  {
    var refused := Positions(cs, judge, BlockedByValidation, |cs|);
    IncreasingCard(refused);
    assert Elements(refused) == set i | 0 <= i < |cs| && judge(cs[i], i).Refused?;
  }

  /** An increasing sequence lists `|s|` distinct positions. */
  lemma {:induction false} IncreasingCard(s: seq<nat>)
    requires Increasing(s)
    ensures |Elements(s)| == |s|
  {
    if |s| > 0 {
      var init, last := s[..|s| - 1], s[|s| - 1];
      assert Increasing(init);
      IncreasingCard(init);
      assert last !in init by {
        forall k | 0 <= k < |init| ensures init[k] != last {
          assert init[k] == s[k];
        }
      }
      forall x ensures x in Elements(s) <==> x in Elements(init) + {last} {
        assert s == init + [last];
      }
      assert Elements(s) == Elements(init) + {last};
    }
  }

  /** The state the verification loop leaves behind. */
  datatype Tally = Tally(items: seq<Item>, logs: seq<LogEntry>, sandboxed: seq<nat>, passed: seq<nat>,
                         passing: seq<Candidate>, blocked: nat)

  /** The verification loop over `cs` (one iteration per candidate, in order). The positions
      handed to the sandbox are exactly those of the candidates validation clears, and the
      passing list holds exactly the candidates whose tests succeed, in arrival order. */
  function Verify(cs: seq<Candidate>, judge: (Candidate, nat) -> Judgement): (t: Tally)
    ensures |t.items| == |cs|
    ensures forall i :: 0 <= i < |cs| ==> t.items[i] == Reaction(cs[i], judge(cs[i], i))
    ensures Increasing(t.sandboxed)
    ensures forall i :: i in t.sandboxed <==> 0 <= i < |cs| && judge(cs[i], i).Ran?
    ensures Increasing(t.passed)
    ensures forall i :: i in t.passed <==>
              0 <= i < |cs| && judge(cs[i], i).Ran? && judge(cs[i], i).verdict.success
    ensures |t.passing| == |t.passed|
    ensures forall k :: 0 <= k < |t.passed| ==> t.passed[k] < |cs| && t.passing[k] == cs[t.passed[k]]
    ensures |t.logs| == t.blocked + |t.sandboxed|
    ensures t.blocked == 0 <==> forall i :: 0 <= i < |cs| ==> !judge(cs[i], i).Refused?
  {
    var passed := Positions(cs, judge, PassedTests, |cs|);
    var refused := Positions(cs, judge, BlockedByValidation, |cs|);
    var sandboxed := Positions(cs, judge, SentToSandbox, |cs|);
    assert forall k :: 0 <= k < |passed| ==> passed[k] in passed;
    assert forall i :: 0 <= i < |cs| && judge(cs[i], i).Refused? ==> i in refused;
    assert |refused| > 0 ==> refused[0] in refused;
    Tally(seq(|cs|, i requires 0 <= i < |cs| => Reaction(cs[i], judge(cs[i], i))),
          Logs(cs, judge, |cs|),
          sandboxed,
          passed,
          seq(|passed|, k requires 0 <= k < |passed| => cs[passed[k]]),
          |refused|)
  }

  /** The verification logs hold, in order, one line per candidate whose validation did not
      raise: "blocked" with the reason, or the sandbox's verdict. */
  lemma VerifyLogsInOrder(cs: seq<Candidate>, judge: (Candidate, nat) -> Judgement)
    ensures LinesOf(cs, judge, Positions(cs, judge, Logged, |cs|), Verify(cs, judge).logs)
  {
    LogsFollowLoggedPositions(cs, judge, |cs|);
  }

  /** `blocked_count` is the number of candidates validation refused. */
  lemma VerifyCountsRefusals(cs: seq<Candidate>, judge: (Candidate, nat) -> Judgement)
    ensures Verify(cs, judge).blocked == |set i | 0 <= i < |cs| && judge(cs[i], i).Refused?|
  {
    RefusalsCounted(cs, judge);
  }

  function Last<T>(s: seq<T>): T
    requires |s| > 0
  {
    s[|s| - 1]
  }

  /** `items` ends on its only terminal item. */
  predicate Settled(items: seq<Item>) {
    && |items| > 0 && Terminal(Last(items))
    && forall i :: 0 <= i < |items| - 1 ==> !Terminal(items[i])
  }

  predicate Ongoing(items: seq<Item>) {
    forall i :: 0 <= i < |items| ==> !Terminal(items[i])
  }

  lemma SettleWith(head: seq<Item>, tail: seq<Item>)
    requires Ongoing(head) && |tail| > 0 && Terminal(Last(tail)) && Ongoing(tail[..|tail| - 1])
    ensures Settled(head + tail)
  {
    var s := head + tail;
    forall i | 0 <= i < |s| - 1 ensures !Terminal(s[i]) {
      if i >= |head| {
        assert s[i] == tail[..|tail| - 1][i - |head|];
      }
    }
  }

  lemma OngoingJoin(a: seq<Item>, b: seq<Item>)
    requires Ongoing(a) && Ongoing(b)
    ensures Ongoing(a + b)
  {
    forall i | 0 <= i < |a + b| ensures !Terminal((a + b)[i]) {
      if i >= |a| {
        assert (a + b)[i] == b[i - |a|];
      }
    }
  }

  function Cands(w: World): seq<Candidate> {
    CandidatesOf(w.network.items)
  }

  /** What every run yields before it looks at any candidate. */
  function Start(url: string, redundancy: int, w: World): (s: seq<Item>)
    ensures |s| >= 2 && s[0] == Event(Analyzing(url)) && s[1] == Event(Delegating(redundancy))
    ensures Ongoing(s)
  {
    OngoingJoin(Opening(url, redundancy), Relay(w.network.items));
    Opening(url, redundancy) + Relay(w.network.items)
  }

  /** The items up to the end of the verification loop. */
  function Checked(start: seq<Item>, checks: seq<Item>): (head: seq<Item>)
    requires |start| >= 2 && Ongoing(start) && Ongoing(checks)
    ensures |head| >= 3 && head[0] == start[0] && head[1] == start[1] && Ongoing(head)
  {
    OngoingJoin(start, [Event(StartingVerification)]);
    OngoingJoin(start + [Event(StartingVerification)], checks);
    start + [Event(StartingVerification)] + checks
  }

  /** A run that stops on the error `p` right after `head`. */
  function Stop(head: seq<Item>, p: Problem, sandboxed: seq<nat>, merchant: X402.Merchant): (o: Outcome)
    requires Ongoing(head) && !p.ErrorTesting?
    ensures Settled(o.items) && Last(o.items) == Error(p)
  {
    SettleWith(head, [Error(p)]);
    Outcome(head + [Error(p)], sandboxed, [], [], merchant)
  }

  /** Where a run stands once its candidates are checked: it has stopped on an error, or it
      holds a non-empty passing list to elect a winner from. */
  datatype Stage = Stopped(outcome: Outcome) | Ready(head: seq<Item>, tally: Tally)

  /** Everything `solve_issue` does before the consensus step (lines 31-98 of the source). */
  function Triage(url: string, redundancy: int, w: World): (s: Stage)
    ensures s.Stopped? ==> && |s.outcome.items| >= 3 && Settled(s.outcome.items)
                           && s.outcome.items[0] == Event(Analyzing(url))
                           && s.outcome.items[1] == Event(Delegating(redundancy))
                           && s.outcome.locked == [] && s.outcome.merchant == w.merchant
    ensures s.Ready? ==> && |s.head| >= 3 && Ongoing(s.head)
                         && s.head[0] == Event(Analyzing(url)) && s.head[1] == Event(Delegating(redundancy))
                         && |s.tally.passing| > 0
  {
    var start := Start(url, redundancy, w);
    if w.network.raised.Some? then Stopped(Stop(start, Unexpected(w.network.raised.value), [], w.merchant))
    else if |Cands(w)| == 0 then Stopped(Stop(start, NoSolutions, [], w.merchant))
    else
      var t := Verify(Cands(w), w.judge);
      var head := Checked(start, t.items);
      if |t.passing| == 0 then Stopped(Stop(head, NoConsensus, t.sandboxed, w.merchant))
      else Ready(head, t)
  }

  /** The consensus step and the lock (lines 101-119 of the source) once `winner` is elected:
      its code is locked exactly once, and the run completes with the bundle naming the
      invoice. */
  function Finish(head: seq<Item>, t: Tally, key: Candidate -> string, winner: Candidate, w: World): (o: Outcome)
    requires Ongoing(head)
    ensures Settled(o.items) && Last(o.items).Complete?
    ensures |o.items| == |head| + 2 && o.items[..|head|] == head
    ensures o.items[|head|] == Event(WinnerFound(winner.minerId))
    ensures o.locked == [winner.code] && o.passing == t.passing && o.sandboxed == t.sandboxed
    ensures var (m, lock) := X402.CreateLockedContent(w.merchant, winner.code, X402.DefaultPrice, w.uuid);
            && o.merchant == m
            && Last(o.items).bundle == Bundle(winner.minerId,
                                              t.logs + [ConsensusLog(Report.ReportBy(key, t.passing, winner), t.blocked)],
                                              lock.paymentLink, lock.invoiceId)
  {
    var note := Report.ReportBy(key, t.passing, winner);
    var logs := t.logs + [ConsensusLog(note, t.blocked)];
    var created := X402.CreateLockedContent(w.merchant, winner.code, X402.DefaultPrice, w.uuid);
    var tail := [Event(WinnerFound(winner.minerId)),
                 Complete(Bundle(winner.minerId, logs, created.1.paymentLink, created.1.invoiceId))];
    SettleWith(head, tail);
    assert (head + tail)[..|head|] == head;
    Outcome(head + tail, t.sandboxed, t.passing, [winner.code], created.0)
  }

  /** `solve_issue(issue_url)` with `redundancy` read from the environment: candidates are
      bucketed by their normalized code. */
  method SolveIssue(url: string, redundancy: int, w: World) returns (o: Outcome)
    ensures Triage(url, redundancy, w).Stopped? ==> o == Triage(url, redundancy, w).outcome
    ensures Triage(url, redundancy, w).Ready? ==>
              var s := Triage(url, redundancy, w);
              exists p :: && Consensus.WinnerAt(Consensus.Key, s.tally.passing, p)
                          && o == Finish(s.head, s.tally, Consensus.Key, s.tally.passing[p], w)
  {
    o := SolveBy(Consensus.Key, url, redundancy, w);
  }

  /** `solve_issue` for any bucket key: the run stops where the triage stops it, and otherwise
      finishes with the consensus winner of the passing list. */
  method SolveBy(key: Candidate -> string, url: string, redundancy: int, w: World) returns (o: Outcome)
    ensures Triage(url, redundancy, w).Stopped? ==> o == Triage(url, redundancy, w).outcome
    ensures Triage(url, redundancy, w).Ready? ==>
              var s := Triage(url, redundancy, w);
              exists p :: && Consensus.WinnerAt(key, s.tally.passing, p)
                          && o == Finish(s.head, s.tally, key, s.tally.passing[p], w)
  {
    var s := Triage(url, redundancy, w);
    match s
    case Stopped(outcome) =>
      o := outcome;
    case Ready(head, t) =>
      var winner := Consensus.SelectBy(key, t.passing);
      o := Finish(head, t, key, winner, w);
  }

  /** Every run announces itself first and ends on exactly one terminal item; nothing is locked
      unless the run completes. */
  lemma RunsSettle(key: Candidate -> string, url: string, redundancy: int, w: World, winner: Candidate)
    ensures var s := Triage(url, redundancy, w);
            var o := if s.Stopped? then s.outcome else Finish(s.head, s.tally, key, winner, w);
            && |o.items| >= 3 && Settled(o.items)
            && o.items[0] == Event(Analyzing(url)) && o.items[1] == Event(Delegating(redundancy))
            && (!Last(o.items).Complete? ==> o.locked == [] && o.merchant == w.merchant)
  {
    var s := Triage(url, redundancy, w);
    if s.Ready? {
      var o := Finish(s.head, s.tally, key, winner, w);
      assert o.items[0] == o.items[..|s.head|][0];
      assert o.items[1] == o.items[..|s.head|][1];
    }
  }

  /** An exception escaping the network's stream becomes the single, final error: nothing is
      validated, run or locked. */
  lemma EscapedErrorIsFinal(url: string, redundancy: int, w: World)
    requires w.network.raised.Some?
    ensures Triage(url, redundancy, w) ==
              Stopped(Outcome(Start(url, redundancy, w) + [Error(Unexpected(w.network.raised.value))],
                              [], [], [], w.merchant))
    ensures forall i :: 0 <= i < |Start(url, redundancy, w)| ==> Start(url, redundancy, w)[i].Event?
  {
  }

  /** No candidates: exactly one error, and no validation, sandbox or lock activity. */
  lemma NoCandidatesOneError(url: string, redundancy: int, w: World)
    requires w.network.raised.None? && Cands(w) == []
    ensures Triage(url, redundancy, w) ==
              Stopped(Outcome(Start(url, redundancy, w) + [Error(NoSolutions)], [], [], [], w.merchant))
    ensures forall i :: 0 <= i < |Start(url, redundancy, w)| ==> !Start(url, redundancy, w)[i].Error?
  {
  }

  /** With candidates, the run reaches the consensus step exactly when some candidate passes;
      otherwise it stops on "No consensus" after sandboxing the cleared candidates, with no
      lock. */
  lemma NoConsensusWithoutPassing(url: string, redundancy: int, w: World)
    requires w.network.raised.None? && |Cands(w)| > 0
    ensures var t := Verify(Cands(w), w.judge);
            && (Triage(url, redundancy, w).Ready? <==> |t.passing| > 0)
            && (Triage(url, redundancy, w).Ready? ==> Triage(url, redundancy, w).tally == t)
            && (|t.passing| == 0 ==>
                  var o := Triage(url, redundancy, w).outcome;
                  && Last(o.items) == Error(NoConsensus)
                  && o.sandboxed == t.sandboxed && o.locked == [] && o.merchant == w.merchant)
  {
  }

  /** A candidate validation blocks never reaches the sandbox, and one whose validation raised
      yields an error that does not end the run: the loop goes on to the next candidate. */
  lemma ErrorsDoNotStopTheLoop(url: string, redundancy: int, w: World, i: nat)
    requires w.network.raised.None? && i < |Cands(w)|
    ensures var t := Verify(Cands(w), w.judge);
            var head := Checked(Start(url, redundancy, w), t.items);
            var c := Cands(w)[i];
            && (w.judge(c, i).Refused? ==> i !in t.sandboxed)
            && (w.judge(c, i).Raised? ==>
                  && head[|Start(url, redundancy, w)| + 1 + i] == Error(ErrorTesting(c.minerId, w.judge(c, i).error))
                  && |head| == |Start(url, redundancy, w)| + 1 + |Cands(w)|)
  {
    var t := Verify(Cands(w), w.judge);
    CheckedAt(Start(url, redundancy, w), t.items, i);
  }

  lemma CheckedAt(start: seq<Item>, checks: seq<Item>, i: nat)
    requires |start| >= 2 && Ongoing(start) && Ongoing(checks) && i < |checks|
    ensures var head := Checked(start, checks);
            |head| == |start| + 1 + |checks| && head[|start| + 1 + i] == checks[i]
  {
  }
}

=== FILE: discord.dfy ===
/** The Discord front end (bots/discord_bot.py): a channel message with an issue link starts a
    run; events are dropped and only the run's first "error" or its "complete" is posted. */
module DiscordBot {
  import opened Strings
  import opened Coordinator
  import opened Chat

  /** The items the send loop posts a message for: every one but the events, in order. */
  function Posted(items: seq<Item>): (r: seq<Item>)
    ensures |r| <= |items|
    ensures forall i :: 0 <= i < |r| ==> !r[i].Event?
    decreases |items|
  {
    if |items| == 0 then []
    else (if items[0].Event? then [] else [items[0]]) + Posted(items[1..])
  }

  /** The messages the send loop posts for the pulled items: none for an event, the text of an
      error, the done message of a completion. */
  function Outgoing(items: seq<Item>): seq<string> {
    Texts(Posted(items))
  }

  /** `on_message`: `author == me` is a message the bot wrote itself; `content` is the message
      text, a missing one read as ""; `solve(url)` is the coordinator's stream for `url`. */
  function OnMessage(author: string, me: string, content: string, solve: string -> seq<Item>)
    : (t: seq<Action>)
    ensures author == me ==> t == []
    ensures author != me && ExtractIssueUrl(content).None? ==> t == []
    ensures author != me && ExtractIssueUrl(content).Some? ==>
              && |t| > 0 && t[0] == Reply(StartText(ExtractIssueUrl(content).value))
              && PullsBeforeSends(t)
    ensures author != me && ExtractIssueUrl(content).Some? ==>
              var items := solve(ExtractIssueUrl(content).value);
              var m := StopAt(items, 0);
              t == [Reply(StartText(ExtractIssueUrl(content).value))] + Pulls(Consumed(items))
                   + Sends(Texts(if m < |items| then [items[m]] else []))
  {
    if author == me then []
    else
      match ExtractIssueUrl(content)
      case None => []
      case Some(url) =>
        var items := solve(url);
        OnlyTheEndIsPicked(items);
        PullsThenSends(Reply(StartText(url)), Consumed(items), Outgoing(Consumed(items)));
        [Reply(StartText(url))] + Pulls(Consumed(items)) + Sends(Outgoing(Consumed(items)))
  }

  lemma {:induction false} PostedSplits(a: seq<Item>, b: seq<Item>)
    ensures Posted(a + b) == Posted(a) + Posted(b)
    decreases |a|
  {
    if |a| == 0 {
      JoinEmpty(a, b);
      JoinEmpty(Posted(a), Posted(b));
    } else {
      JoinTail(a, b);
      PostedSplits(a[1..], b);
      var h := if a[0].Event? then [] else [a[0]];
      assert Posted(a + b) == h + Posted(a[1..] + b);
      JoinAssoc(h, Posted(a[1..]), Posted(b));
    }
  }

  lemma {:induction false} EventsPostNothing(items: seq<Item>)
    requires forall i :: 0 <= i < |items| ==> items[i].Event?
    ensures Posted(items) == []
    decreases |items|
  {
    if |items| > 0 {
      EventsPostNothing(items[1..]);
    }
  }

  /** Of the pulled items, only the first "error" or "complete" is posted. */
  lemma OnlyTheEndIsPicked(items: seq<Item>)
    ensures var m := StopAt(items, 0);
            Posted(Consumed(items)) == if m < |items| then [items[m]] else []
  {
    var m := StopAt(items, 0);
    var pre := items[..m];
    EventsPostNothing(pre);
    if m < |items| {
      var x := items[m];
      assert Consumed(items) == items[..m + 1];
      Snoc(items, m);
      PostedSplits(pre, [x]);
      assert [x][1..] == [];
      assert Posted([x]) == [x];
    } else {
      assert Consumed(items) == pre;
    }
  }

  /** At most one message follows the acknowledgement: the text of the first "error" or
      "complete" in the stream, and nothing when the stream has neither. */
  lemma OnlyTheEndIsPosted(items: seq<Item>)
    ensures var m := StopAt(items, 0);
            Outgoing(Consumed(items)) == if m < |items| then [ItemText(items[m])] else []
  {
    OnlyTheEndIsPicked(items);
    var p := Posted(Consumed(items));
    var r := Texts(p);
    if |p| == 1 {
      Single(r, ItemText(p[0]));
    } else {
      JoinEmpty(r, []);
    }
  }
}

=== FILE: json.dfy ===
/** Decoded JSON values as the Python code sees them after `json.loads` / `resp.json()`. */
module Json {
  import opened Strings

  /** Numbers are integers: no modelled branch distinguishes a float from an int, and a float
      is read as an integer (see `PyStr` for what that changes in rendered text). */
  datatype Json =
    | JNull
    | JBool(b: bool)
    | JNumber(n: int)
    | JString(s: string)
    | JArray(items: seq<Json>)
    | JObject(fields: map<string, Json>)

  /** Python truthiness of the decoded value. */
  predicate Truthy(j: Json) {
    match j
    case JNull => false
    case JBool(b) => b
    case JNumber(n) => n != 0
    case JString(s) => |s| > 0
    case JArray(items) => |items| > 0
    case JObject(fields) => |fields| > 0
  }

  /** Python's `a or b`. */
  function Or(a: Json, b: Json): (r: Json)
    ensures Truthy(a) ==> r == a
    ensures !Truthy(a) ==> r == b
  {
    if Truthy(a) then a else b
  }

  /** `d.get(key, default)` on an object's fields. */
  function GetOr(fields: map<string, Json>, key: string, default: Json): Json {
    if key in fields then fields[key] else default
  }

  /** `d.get(key)`: a missing key reads as `None`. */
  function Get(fields: map<string, Json>, key: string): Json {
    GetOr(fields, key, JNull)
  }

  /** `isinstance(j, dict) and key in j` */
  predicate HasKey(j: Json, key: string) {
    j.JObject? && key in j.fields
  }

  /** `str(j)` for scalars. Python renders a list or dict as its full repr; here a container
      renders as the fixed placeholder "[...]" or "{...}", so the texts built from one (a miner
      id, streamed content, a payment status) are not Python's. */
  function PyStr(j: Json): string {
    match j
    case JNull => "None"
    case JBool(b) => if b then "True" else "False"
    case JNumber(n) => IntToString(n)
    case JString(s) => s
    case JArray(_) => "[...]"
    case JObject(_) => "{...}"
  }
}

=== FILE: live.dfy ===
/** The live Cortensor router client of agent/cortensor_live.py. The router's HTTP replies, the
    JSON decoder, Python's `int()` and the clock are not modelled: their results arrive as
    parameters. What is modelled is how the client reads those replies and what it yields. */
module CortensorLive {
  import opened Wrappers
  import opened Strings
  import opened Json
  import opened Patches
  import opened CodeBlocks

  /** The code a candidate carries when nothing came back. */
  const StubCode := "def fix_issue(data):\n    return data  # no code extracted"

  /** Python's name for the type of a decoded value, as its error messages print it. */
  function TypeName(j: Json): string {
    match j
    case JNull => "NoneType"
    case JBool(_) => "bool"
    case JNumber(_) => "int"
    case JString(_) => "str"
    case JArray(_) => "list"
    case JObject(_) => "dict"
  }

  /** The text of the `AttributeError` raised by `j.attr` on a value that lacks it. */
  function NoAttribute(j: Json, attr: string): string {
    "'" + TypeName(j) + "' object has no attribute '" + attr + "'"
  }

  /** The reply carries a non-empty `choices` list. */
  predicate HasChoices(raw: Json) {
    raw.JObject? && "choices" in raw.fields && raw.fields["choices"].JArray?
    && |raw.fields["choices"].items| > 0
  }

  /** `(d.get(key) or "")` */
  function GetText(fields: map<string, Json>, key: string): Json {
    Or(Get(fields, key), JString(""))
  }

  /** What `_parse_completion_content` reads from `choices[0]`: `message.content`, else
      `text`, else "". A truthy `message` that is not an object makes `.get` raise. */
  function FromChoice(c: Json): (r: Result<Json, string>)
    ensures r.Failure? ==> c.JObject? && "message" in c.fields
  {
    if c.JObject? && "message" in c.fields then
      var m := Or(c.fields["message"], JObject(map[]));
      if m.JObject? then Success(GetText(m.fields, "content")) else Failure(NoAttribute(m, "get"))
    else if c.JObject? && "text" in c.fields then Success(GetText(c.fields, "text"))
    else Success(JString(""))
  }

  /** `_parse_completion_content(raw)`: a non-empty `choices` list decides alone; otherwise
      `result`, then `content`, then `text`; a reply that is itself a string is its own
      content. */
  function ParseCompletionContent(raw: Json): (r: Result<Json, string>)
    ensures raw.JString? ==> r == Success(raw)
    ensures !raw.JObject? && !raw.JString? ==> r == Success(JString(""))
    ensures HasChoices(raw) ==> r == FromChoice(raw.fields["choices"].items[0])
    ensures raw.JObject? && !HasChoices(raw) ==>
              r == if "result" in raw.fields then Success(raw.fields["result"])
                   else if "content" in raw.fields then Success(raw.fields["content"])
                   else if "text" in raw.fields then Success(raw.fields["text"])
                   else Success(JString(""))
  {
    var content :=
      if raw.JObject? then
        var f := raw.fields;
        if HasChoices(raw) then FromChoice(f["choices"].items[0])
        else if "result" in f then Success(f["result"])
        else if "content" in f then Success(f["content"])
        else if "text" in f then Success(f["text"])
        else Success(JString(""))
      else Success(JString(""));
    if content.Success? && !Truthy(content.value) && raw.JString? then Success(raw) else content
  }

  /** `(content or "").strip()` on the parsed content: a truthy value that is not a string has
      no `strip`. */
  function ContentText(content: Json): (r: Result<string, string>)
    ensures r.Success? ==> Stripped(r.value)
    ensures !Truthy(content) ==> r == Success("")
    ensures content.JString? ==> r == Success(Strip(content.s))
  {
    if !Truthy(content) then Success("")
    else if content.JString? then Success(Strip(content.s))
    else Failure(NoAttribute(content, "strip"))
  }

  /** With a non-empty `choices` list no other key is ever read: changing any of them changes
      nothing. */
  lemma ChoicesDecideAlone(raw: Json, k: string, v: Json)
    requires HasChoices(raw) && k != "choices"
    ensures ParseCompletionContent(JObject(raw.fields[k := v])) == ParseCompletionContent(raw)
  {
    assert HasChoices(JObject(raw.fields[k := v]));
  }

  // ---------------------------------------------------------------------------------------
  // Server-sent events

  /** What one line of the event stream contributes. */
  datatype SseStep = SkipLine | DoneLine | Chunk(value: Json)

  /** The text a decoded streaming payload carries: `choices[0].delta.content`, else
      `choices[0].message.content`, else `choices[0].text`, else a top-level `content`
      rendered with `str`. */
  function ChunkOf(obj: Json): Json {
    if HasChoices(obj) then
      var c0 := Or(obj.fields["choices"].items[0], JObject(map[]));
      if c0.JObject? && "delta" in c0.fields && c0.fields["delta"].JObject? then
        GetText(c0.fields["delta"].fields, "content")
      else if c0.JObject? && "message" in c0.fields && c0.fields["message"].JObject? then
        GetText(c0.fields["message"].fields, "content")
      else if c0.JObject? && "text" in c0.fields then GetText(c0.fields, "text")
      else JString("")
    else if obj.JObject? && "content" in obj.fields then JString(PyStr(GetText(obj.fields, "content")))
    else JString("")
  }

  /** One line of `_post_stream`. Empty lines and lines that are not `data:` lines are skipped;
      `[DONE]` ends the stream; a payload `decode` cannot read is passed on verbatim; a decoded
      payload is passed on only when the text it carries is truthy. */
  function SseLine(raw: string, decode: string -> Option<Json>): (step: SseStep)
    ensures step.Chunk? ==> StartsWith(Strip(raw), "data:")
    ensures step.DoneLine? <==> raw != "" && StartsWith(Strip(raw), "data:") && Strip(Strip(raw)[5..]) == "[DONE]"
    ensures step.Chunk? && decode(Strip(Strip(raw)[5..])).Some? ==> Truthy(step.value)
    ensures step.Chunk? && decode(Strip(Strip(raw)[5..])).None? ==> step.value == JString(Strip(Strip(raw)[5..]))
    ensures !StartsWith(Strip(raw), "data:") ==> step == SkipLine
    ensures StartsWith(Strip(raw), "data:") && Strip(Strip(raw)[5..]) != "[DONE]" ==>
              var d := Strip(Strip(raw)[5..]);
              && (decode(d).None? ==> step == Chunk(JString(d)))
              && (decode(d).Some? ==>
                    step == if Truthy(ChunkOf(decode(d).value)) then Chunk(ChunkOf(decode(d).value)) else SkipLine)
  {
    if raw == "" then SkipLine
    else
      var line := Strip(raw);
      if !StartsWith(line, "data:") then SkipLine
      else
        var data := Strip(line[5..]);
        if data == "[DONE]" then DoneLine
        else match decode(data)
          case None => Chunk(JString(data))
          case Some(obj) => if Truthy(ChunkOf(obj)) then Chunk(ChunkOf(obj)) else SkipLine
  }

  /** The chunks read from `lines`, each line read by `step`, and whether `[DONE]` was met. */
  function SseFrom(lines: seq<string>, step: string -> SseStep): (r: (seq<Json>, bool))
    ensures |r.0| <= |lines|
  {
    if |lines| == 0 then ([], false)
    else match step(lines[0])
      case DoneLine => ([], true)
      case SkipLine => SseFrom(lines[1..], step)
      case Chunk(c) => var rest := SseFrom(lines[1..], step); ([c] + rest.0, rest.1)
  }

  /** `_post_stream(...)` as a generator: the chunks, then the error that ended the line stream,
      unless `[DONE]` closed it first. */
  function SseStream(lines: Stream<string>, decode: string -> Option<Json>): (s: Stream<Json>)
    ensures var r := SseFrom(lines.items, l => SseLine(l, decode));
            s.items == r.0 && (r.1 ==> s.raised.None?) && (!r.1 ==> s.raised == lines.raised)
  {
    var (chunks, done) := SseFrom(lines.items, l => SseLine(l, decode));
    Stream(chunks, if done then None else lines.raised)
  }

  /** Nothing after `[DONE]` is read. */
  lemma {:induction false} DoneStops(pre: seq<string>, x: string, post: seq<string>, step: string -> SseStep)
    requires step(x).DoneLine?
    ensures SseFrom(pre + [x] + post, step) == SseFrom(pre + [x], step)
    ensures SseFrom(pre + [x], step).1
  {
    if |pre| > 0 {
      DoneStops(pre[1..], x, post, step);
      assert (pre + [x] + post)[1..] == pre[1..] + [x] + post;
      assert (pre + [x])[1..] == pre[1..] + [x];
    } else {
      assert pre + [x] + post == [x] + post;
      assert ([x] + post)[0] == x;
    }
  }

  /** A skipped line (blank, not `data:`, or carrying no text) might as well not be there. */
  lemma {:induction false} SkipIsInvisible(pre: seq<string>, x: string, post: seq<string>, step: string -> SseStep)
    requires step(x).SkipLine?
    ensures SseFrom(pre + [x] + post, step) == SseFrom(pre + post, step)
  {
    if |pre| > 0 {
      SkipIsInvisible(pre[1..], x, post, step);
      assert (pre + [x] + post)[1..] == pre[1..] + [x] + post;
      assert (pre + post)[1..] == pre[1..] + post;
      assert (pre + [x] + post)[0] == pre[0] == (pre + post)[0];
    } else {
      assert pre + [x] + post == [x] + post;
      assert ([x] + post)[1..] == post;
      assert pre + post == post;
    }
  }



  // ---------------------------------------------------------------------------------------
  // Session and miner labels

  /** `get_sessions()` on the decoded body: a list as is, else its `sessions` entry, else its
      `data` entry, else nothing. */
  function SessionsOf(data: Json): (sessions: Json)
    ensures data.JArray? ==> sessions == data
    ensures HasKey(data, "sessions") ==> sessions == data.fields["sessions"]
    ensures data.JObject? && !HasKey(data, "sessions") && HasKey(data, "data") ==> sessions == data.fields["data"]
    ensures !data.JArray? && !HasKey(data, "sessions") && !HasKey(data, "data") ==> sessions == JArray([])
  {
    if data.JArray? then data
    else if data.JObject? && "sessions" in data.fields then data.fields["sessions"]
    else if data.JObject? then GetOr(data.fields, "data", JArray([]))
    else JArray([])
  }

  /** The three shapes the sessions endpoint may answer in give the same listing, and the
      `sessions` entry wins over a `data` entry beside it. */
  lemma SessionShapesAgree(listed: seq<Json>, other: Json)
    ensures var l := JArray(listed);
            && SessionsOf(JObject(map["sessions" := l])) == l
            && SessionsOf(JObject(map["data" := l])) == l
            && SessionsOf(JObject(map["sessions" := l, "data" := other])) == l
            && SessionsOf(l) == l
  {
    var l := JArray(listed);
    assert HasKey(JObject(map["sessions" := l]), "sessions");
    assert !HasKey(JObject(map["data" := l]), "sessions") && HasKey(JObject(map["data" := l]), "data");
    assert HasKey(JObject(map["sessions" := l, "data" := other]), "sessions");
  }

  /** `sessions[0]` on a truthy value. A string yields its first character; an object has no
      key 0; a number cannot be indexed. */
  function FirstSession(sessions: Json): Result<Json, string>
    requires Truthy(sessions)
  {
    match sessions
    case JArray(items) => Success(items[0])
    case JString(s) => Success(JString(s[..1]))
    case JObject(_) => Failure("0")
    case _ => Failure("'" + TypeName(sessions) + "' object is not subscriptable")
  }

  /** `_resolve_session_id()`: the first session's `id` (a null `id` keeps the configured one),
      else its `session_id`, else the configured id. Failing to list sessions keeps the
      configured id; `int()` failing, or indexing a listing that is not a list, raises. */
  function ResolveSessionId(listing: Result<Json, string>, configured: int,
                            toInt: Json -> Result<int, string>): (r: Result<int, string>)
    ensures listing.Failure? ==> r == Success(configured)
    ensures r.Failure? ==> listing.Success? && Truthy(SessionsOf(listing.value))
  {
    if listing.Failure? then Success(configured)
    else
      var sessions := SessionsOf(listing.value);
      if !Truthy(sessions) then Success(configured)
      else match FirstSession(sessions)
        case Failure(e) => Failure(e)
        case Success(first) =>
          if first.JObject? && "id" in first.fields then
            if first.fields["id"] == JNull then Success(configured) else toInt(first.fields["id"])
          else if first.JObject? && "session_id" in first.fields then toInt(first.fields["session_id"])
          else Success(configured)
  }

  /** The session a listing names, when its first entry is an object with an id. */
  lemma FirstSessionWins(sessions: seq<Json>, configured: int, toInt: Json -> Result<int, string>)
    requires |sessions| > 0 && sessions[0].JObject?
    ensures var f := sessions[0].fields;
            var r := ResolveSessionId(Success(JArray(sessions)), configured, toInt);
            && ("id" in f && f["id"] != JNull ==> r == toInt(f["id"]))
            && ("id" in f && f["id"] == JNull ==> r == Success(configured))
            && ("id" !in f && "session_id" in f ==> r == toInt(f["session_id"]))
            && ("id" !in f && "session_id" !in f ==> r == Success(configured))
  {
  }

  /** `miners[:n]` for any integer `n`; a negative `n` counts from the end. */
  function SliceTo<T>(s: seq<T>, n: int): (r: seq<T>)
    ensures n >= 0 ==> r == Take(s, n)
    ensures |r| <= |s| && r == s[..|r|]
  {
    if n >= 0 then Take(s, n) else if |s| + n <= 0 then [] else s[..|s| + n]
  }

  /** The label of the `i`-th listed miner: the first truthy of `id`, `miner_id`, `address`,
      else `Miner_<i>`; an entry that is not an object is rendered with `str`. */
  function MinerLabel(m: Json, i: nat): string {
    if m.JObject? then
      var f := m.fields;
      PyStr(Or(Get(f, "id"), Or(Get(f, "miner_id"), Or(Get(f, "address"), JString("Miner_" + NatToString(i))))))
    else PyStr(m)
  }

  function Placeholder(i: nat): string {
    "Cortensor_Miner_" + NatToString(i)
  }

  /** The `while` loop: append placeholders numbered by position until there are `n` labels. */
  function Pad(labels: seq<string>, n: int): (r: seq<string>)
    ensures |r| == if |labels| >= n then |labels| else n
    ensures r[..|labels|] == labels
    ensures forall i :: |labels| <= i < |r| ==> r[i] == Placeholder(i)
    decreases n - |labels|
  {
    if |labels| >= n then labels else Pad(labels + [Placeholder(|labels|)], n)
  }

  /** The label list built before the requests go out. */
  function MinerLabels(miners: seq<Json>, redundancy: int): (labels: seq<string>)
    ensures redundancy >= 0 ==> |labels| == redundancy
    ensures |labels| >= |SliceTo(miners, redundancy)|
    ensures forall i :: 0 <= i < |SliceTo(miners, redundancy)| ==> labels[i] == MinerLabel(miners[i], i)
    ensures forall i :: |SliceTo(miners, redundancy)| <= i < |labels| ==> labels[i] == Placeholder(i)
  {
    var listed := SliceTo(miners, redundancy);
    var head := seq(|listed|, i requires 0 <= i < |listed| => MinerLabel(listed[i], i));
    var r := Pad(head, redundancy);
    assert forall i :: 0 <= i < |head| ==> r[i] == r[..|head|][i];
    r
  }

  /** With `n` requests and at least `n` listed miners, every request is labelled from the
      listing; with fewer, the rest are placeholders. */
  lemma LabelsCoverRequests(miners: seq<Json>, n: nat, i: nat)
    requires i < n
    ensures i < |MinerLabels(miners, n)|
    ensures i < |miners| ==> MinerLabels(miners, n)[i] == MinerLabel(miners[i], i)
    ensures i >= |miners| ==> MinerLabels(miners, n)[i] == Placeholder(i)
  {
  }

  // ---------------------------------------------------------------------------------------
  // Requests and the events they yield

  /** How the router answers one completion request. */
  datatype Attempt = Attempt(
    sessions: Result<Json, string>, // the decoded `/sessions` body, or why listing failed
    reply: Result<Json, string>,    // without streaming: the decoded completion body, or the failure
    lines: Stream<string>,          // with streaming: the lines read, then what ended them
    clock: nat -> int,              // `time.time()` in milliseconds after the k-th chunk
    startSecs: int)                 // `int(start)`

  /** The client's settings: the configured session id, whether `CORTENSOR_STREAM` asks for
      streaming, and Python's `int()` and `json.loads` as parameters. */
  datatype Live = Live(
    sessionId: int,
    useStream: bool,
    toInt: Json -> Result<int, string>,
    decode: string -> Option<Json>)

  /** `"".join(str(c) for c in chunks)` */
  function Texts(chunks: seq<Json>): string {
    if |chunks| == 0 then "" else PyStr(chunks[0]) + Texts(chunks[1..])
  }

  /** The streaming loop from the `k`-th chunk on, with `content` received so far and the
      last note sent at `last`: a note whenever two seconds have passed since the last one and
      more than 200 characters are in. */
  function Progress(chunks: seq<Json>, clock: nat -> int, k: nat, content: string, last: int): (r: (seq<Note>, string))
    ensures r.1 == content + Texts(chunks)
    ensures |r.0| <= |chunks|
    ensures forall n :: 0 <= n < |r.0| ==> r.0[n].StreamingProgress? && 200 < r.0[n].chars <= |r.1|
    decreases |chunks|
  {
    if |chunks| == 0 then ([], content)
    else
      var c := content + PyStr(chunks[0]);
      var now := clock(k);
      if now - last >= 2000 && |c| > 200 then
        var rest := Progress(chunks[1..], clock, k + 1, c, now);
        ([StreamingProgress(|c|)] + rest.0, rest.1)
      else Progress(chunks[1..], clock, k + 1, c, last)
  }

  /** Nothing is reported while 200 characters or fewer have arrived. */
  lemma {:induction false} QuietWhileShort(chunks: seq<Json>, clock: nat -> int, k: nat, content: string, last: int)
    requires |content + Texts(chunks)| <= 200
    ensures Progress(chunks, clock, k, content, last).0 == []
    decreases |chunks|
  {
    if |chunks| > 0 {
      var c := content + PyStr(chunks[0]);
      assert c + Texts(chunks[1..]) == content + Texts(chunks);
      QuietWhileShort(chunks[1..], clock, k + 1, c, last);
      QuietWhileShort(chunks[1..], clock, k + 1, c, clock(k));
    }
  }

  /** What one request collected: the progress notes, then the text or the error that ended
      it. */
  datatype Fetched = Fetched(notes: seq<Note>, content: Result<string, string>)

  /** The `try` body up to the text: resolve the session, then either stream or post. */
  function Fetch(a: Attempt, cfg: Live, stream: bool): (f: Fetched)
    ensures ResolveSessionId(a.sessions, cfg.sessionId, cfg.toInt).Failure? ==>
              f == Fetched([], Failure(ResolveSessionId(a.sessions, cfg.sessionId, cfg.toInt).error))
    ensures !stream ==> f.notes == []
    ensures !stream && f.content.Success? ==> Stripped(f.content.value)
    ensures !stream && a.reply.Failure? && ResolveSessionId(a.sessions, cfg.sessionId, cfg.toInt).Success? ==>
              f.content == Failure(a.reply.error)
    ensures !stream && a.reply.Success? && ResolveSessionId(a.sessions, cfg.sessionId, cfg.toInt).Success? ==>
              var parsed := ParseCompletionContent(a.reply.value);
              && (parsed.Failure? ==> f.content == Failure(parsed.error))
              && (parsed.Success? ==> f.content == ContentText(parsed.value))
    ensures stream && ResolveSessionId(a.sessions, cfg.sessionId, cfg.toInt).Success? ==>
              var s := SseStream(a.lines, cfg.decode);
              f.content == (if s.raised.Some? then Failure(s.raised.value) else Success(Texts(s.items)))
    ensures forall n :: 0 <= n < |f.notes| ==> f.notes[n].StreamingProgress?
  {
    match ResolveSessionId(a.sessions, cfg.sessionId, cfg.toInt)
    case Failure(e) => Fetched([], Failure(e))
    case Success(_) =>
      if stream then
        var s := SseStream(a.lines, cfg.decode);
        var (notes, content) := Progress(s.items, a.clock, 0, "", 0);
        assert content == Texts(s.items) by { assert "" + Texts(s.items) == Texts(s.items); }
        Fetched(notes, if s.raised.Some? then Failure(s.raised.value) else Success(content))
      else
        match a.reply
        case Failure(e) => Fetched([], Failure(e))
        case Success(raw) =>
          match ParseCompletionContent(raw)
          case Failure(e) => Fetched([], Failure(e))
          case Success(c) => Fetched([], ContentText(c))
  }

  /** `_extract_code(content) or content`, and the stub when even that is empty. */
  function PatchCode(content: string): (code: string)
    ensures code != ""
    ensures ExtractLive(content) != "" ==> code == ExtractLive(content)
    ensures ExtractLive(content) == "" && content != "" ==> code == content
    ensures content == "" ==> code == StubCode
  {
    var extracted := ExtractLive(content);
    if extracted != "" then extracted else if content != "" then content else StubCode
  }

  function Signature(i: nat, startSecs: int): string {
    "cortensor_live_" + NatToString(i) + "_" + IntToString(startSecs)
  }

  /** The miners a listing names; a failed listing names none. */
  function Listed(miners: Result<seq<Json>, string>): seq<Json> {
    if miners.Success? then miners.value else []
  }

  /** The label request `i` is sent under. */
  function LabelOf(labels: seq<string>, i: nat): string {
    if i < |labels| then labels[i] else Placeholder(i)
  }

  /** Every candidate among `items` carries code. */
  predicate CodesPresent(items: seq<NetItem>) {
    forall k :: 0 <= k < |items| && items[k].NetCandidate? ==> items[k].candidate.code != ""
  }

  lemma CodesPresentJoin(a: seq<NetItem>, b: seq<NetItem>)
    requires CodesPresent(a) && CodesPresent(b)
    ensures CodesPresent(a + b)
  {
    assert forall k :: |a| <= k < |a + b| ==> (a + b)[k] == b[k - |a|];
  }

  /** A request's closing item: its candidate or its failure note. */
  predicate Closes(x: NetItem, request: nat) {
    x.NetCandidate? || (x.NetEvent? && x.note.RequestFailed? && x.note.request == request)
  }

  /** The item that closes request `i`: the candidate built from the reply's text, or the
      failure note. */
  function Closing(i: nat, miner: string, startSecs: int, content: Result<string, string>): (x: NetItem)
    ensures Closes(x, i + 1)
    ensures x.NetCandidate? <==> content.Success?
    ensures x.NetCandidate? ==> x.candidate.code != ""
    ensures content.Success? ==>
              x.candidate == Candidate(miner, PatchCode(content.value), content.value, Signature(i, startSecs))
  {
    match content
    case Success(text) => NetCandidate(Candidate(miner, PatchCode(text), text, Signature(i, startSecs)))
    case Failure(e) => NetEvent(RequestFailed(i + 1, e))
  }

  /** The items request `i` of `total` yields in the events stream. */
  function RequestOne(i: nat, total: int, miner: string, a: Attempt, cfg: Live): (r: seq<NetItem>)
    ensures |r| >= 2 && r[0] == NetEvent(CompletionStarted(i + 1, total))
    ensures Closes(r[|r| - 1], i + 1)
    ensures forall k :: 0 < k < |r| - 1 ==> r[k].NetEvent? && r[k].note.StreamingProgress?
    ensures !cfg.useStream ==> |r| == 2
    ensures CodesPresent(r)
    ensures var f := Fetch(a, cfg, cfg.useStream);
            && (r[|r| - 1].NetCandidate? <==> f.content.Success?)
            && (f.content.Success? ==>
                  r[|r| - 1].candidate == Candidate(miner, PatchCode(f.content.value), f.content.value, Signature(i, a.startSecs)))
  {
    var f := Fetch(a, cfg, cfg.useStream);
    Framed(NetEvent(CompletionStarted(i + 1, total)), f.notes, Closing(i, miner, a.startSecs, f.content))
  }

  /** `first`, an event per progress note, then `last`. */
  function Framed(first: NetItem, notes: seq<Note>, last: NetItem): (r: seq<NetItem>)
    requires !first.NetCandidate? && forall n :: 0 <= n < |notes| ==> notes[n].StreamingProgress?
    requires last.NetCandidate? ==> last.candidate.code != ""
    ensures |r| == |notes| + 2 && r[0] == first && r[|r| - 1] == last
    ensures forall k :: 0 < k < |r| - 1 ==> r[k] == NetEvent(notes[k - 1])
    ensures CodesPresent(r)
  {
    var progress := seq(|notes|, n requires 0 <= n < |notes| => NetEvent(notes[n]));
    var r := [first] + progress + [last];
    assert forall k :: 0 < k < |r| - 1 ==> r[k] == progress[k - 1];
    r
  }

  /** Requests `i` to `total - 1`. */
  function EventsFrom(i: nat, total: int, labels: seq<string>, attempts: nat -> Attempt, cfg: Live): (r: seq<NetItem>)
    ensures CodesPresent(r)
    decreases total - i
  {
    if i >= total then []
    else
      var one := RequestOne(i, total, LabelOf(labels, i), attempts(i), cfg);
      var rest := EventsFrom(i + 1, total, labels, attempts, cfg);
      CodesPresentJoin(one, rest);
      one + rest
  }

  /** `request_patches_stream_events(...)`: a note when the miners cannot be listed, then, for
      each of the `redundancy` requests, a start note, any progress notes, and the candidate or
      the failure note. `miners` is the miner listing, or why listing failed. */
  function RequestPatchesStreamEvents(miners: Result<seq<Json>, string>, redundancy: int,
                                      attempts: nat -> Attempt, cfg: Live): (r: seq<NetItem>)
    ensures miners.Failure? ==> |r| > 0 && r[0] == NetEvent(MinersUnavailable(miners.error))
    ensures CodesPresent(r)
  {
    var pre := if miners.Failure? then [NetEvent(MinersUnavailable(miners.error))] else [];
    var events := EventsFrom(0, redundancy, MinerLabels(Listed(miners), redundancy), attempts, cfg);
    CodesPresentJoin(pre, events);
    pre + events
  }

  /** Requests `i` to `total - 1` without events: failed requests are dropped, and streaming is
      never used. */
  function PatchesFrom(i: nat, total: int, labels: seq<string>, attempts: nat -> Attempt, cfg: Live): (r: seq<Candidate>)
    ensures |r| <= if total < i then 0 else total - i
    ensures forall k :: 0 <= k < |r| ==> r[k].code != ""
    decreases total - i
  {
    if i >= total then []
    else
      var rest := PatchesFrom(i + 1, total, labels, attempts, cfg);
      match Fetch(attempts(i), cfg, false)
      case Fetched(_, Failure(_)) => rest
      case Fetched(_, Success(content)) =>
        [Candidate(LabelOf(labels, i), PatchCode(content), content, Signature(i, attempts(i).startSecs))] + rest
  }

  /** `request_patches_stream(...)`, and `request_patches(...)`, which lists it: the candidates
      only; failing to list miners is only logged. */
  function RequestPatchesStream(miners: Result<seq<Json>, string>, redundancy: int,
                                attempts: nat -> Attempt, cfg: Live): (r: seq<Candidate>)
    ensures |r| <= if redundancy < 0 then 0 else redundancy
    ensures forall k :: 0 <= k < |r| ==> r[k].code != ""
  {
    PatchesFrom(0, redundancy, MinerLabels(Listed(miners), redundancy), attempts, cfg)
  }

  // ---------------------------------------------------------------------------------------
  // One start and one close per request

  /** The number of start notes among `items`. */
  function Opened(items: seq<NetItem>): nat {
    if |items| == 0 then 0
    else (if items[0].NetEvent? && items[0].note.CompletionStarted? then 1 else 0) + Opened(items[1..])
  }

  /** The number of candidates and failure notes among `items`. */
  function Closed(items: seq<NetItem>): nat {
    if |items| == 0 then 0
    else (if items[0].NetCandidate? || (items[0].NetEvent? && items[0].note.RequestFailed?) then 1 else 0)
         + Closed(items[1..])
  }

  lemma {:induction false} CountsJoin(a: seq<NetItem>, b: seq<NetItem>)
    ensures Opened(a + b) == Opened(a) + Opened(b)
    ensures Closed(a + b) == Closed(a) + Closed(b)
  {
    if |a| > 0 {
      CountsJoin(a[1..], b);
      assert (a + b)[1..] == a[1..] + b;
    } else {
      assert a + b == b;
    }
  }

  lemma {:induction false} ProgressCountsNothing(items: seq<NetItem>)
    requires forall k :: 0 <= k < |items| ==> items[k].NetEvent? && items[k].note.StreamingProgress?
    ensures Opened(items) == 0 && Closed(items) == 0
  {
    if |items| > 0 {
      ProgressCountsNothing(items[1..]);
    }
  }

  /** A request opens once and closes once. */
  lemma OneRequestOneClose(i: nat, total: int, miner: string, a: Attempt, cfg: Live)
    ensures Opened(RequestOne(i, total, miner, a, cfg)) == 1
    ensures Closed(RequestOne(i, total, miner, a, cfg)) == 1
  {
    var r := RequestOne(i, total, miner, a, cfg);
    var mid := r[1..|r| - 1];
    assert r == [r[0]] + mid + [r[|r| - 1]];
    ProgressCountsNothing(mid);
    CountsJoin([r[0]], mid);
    CountsJoin([r[0]] + mid, [r[|r| - 1]]);
  }

  lemma {:induction false} EveryRequestCloses(i: nat, total: int, labels: seq<string>, attempts: nat -> Attempt, cfg: Live)
    ensures Opened(EventsFrom(i, total, labels, attempts, cfg)) == (if total < i then 0 else total - i)
    ensures Closed(EventsFrom(i, total, labels, attempts, cfg)) == (if total < i then 0 else total - i)
    decreases total - i
  {
    if i < total {
      var one := RequestOne(i, total, LabelOf(labels, i), attempts(i), cfg);
      OneRequestOneClose(i, total, LabelOf(labels, i), attempts(i), cfg);
      EveryRequestCloses(i + 1, total, labels, attempts, cfg);
      CountsJoin(one, EventsFrom(i + 1, total, labels, attempts, cfg));
    }
  }

  /** The events stream opens `redundancy` requests (none when it is negative) and closes each
      of them exactly once, with a candidate or a failure note. */
  lemma RequestsOpenAndClose(miners: Result<seq<Json>, string>, redundancy: int,
                             attempts: nat -> Attempt, cfg: Live)
    ensures Opened(RequestPatchesStreamEvents(miners, redundancy, attempts, cfg)) == (if redundancy < 0 then 0 else redundancy)
    ensures Closed(RequestPatchesStreamEvents(miners, redundancy, attempts, cfg)) == (if redundancy < 0 then 0 else redundancy)
  {
    var pre := if miners.Failure? then [NetEvent(MinersUnavailable(miners.error))] else [];
    var labels := MinerLabels(Listed(miners), redundancy);
    EveryRequestCloses(0, redundancy, labels, attempts, cfg);
    CountsJoin(pre, EventsFrom(0, redundancy, labels, attempts, cfg));
  }

  // ---------------------------------------------------------------------------------------
  // The plain stream is the candidates of the events stream

  lemma {:induction false} CandidatesJoin(a: seq<NetItem>, b: seq<NetItem>)
    ensures CandidatesOf(a + b) == CandidatesOf(a) + CandidatesOf(b)
  {
    if |a| > 0 {
      CandidatesJoin(a[1..], b);
      assert (a + b)[1..] == a[1..] + b;
    } else {
      assert a + b == b;
    }
  }

  lemma {:induction false} PatchesAreEventCandidates(i: nat, total: int, labels: seq<string>,
                                                     attempts: nat -> Attempt, cfg: Live)
    requires !cfg.useStream
    ensures PatchesFrom(i, total, labels, attempts, cfg) == CandidatesOf(EventsFrom(i, total, labels, attempts, cfg))
    decreases total - i
  {
    if i < total {
      var one := RequestOne(i, total, LabelOf(labels, i), attempts(i), cfg);
      PatchesAreEventCandidates(i + 1, total, labels, attempts, cfg);
      CandidatesJoin(one, EventsFrom(i + 1, total, labels, attempts, cfg));
      assert one == [one[0]] + [one[1]];
      CandidatesJoin([one[0]], [one[1]]);
    }
  }

  /** Without streaming, `request_patches_stream` yields exactly the candidates the events
      stream yields, in the same order: failures are dropped instead of reported. */
  lemma PlainStreamIsEventCandidates(miners: Result<seq<Json>, string>, redundancy: int,
                                     attempts: nat -> Attempt, cfg: Live)
    ensures RequestPatchesStream(miners, redundancy, attempts, cfg) ==
              CandidatesOf(RequestPatchesStreamEvents(miners, redundancy, attempts, cfg.(useStream := false)))
  {
    var plain := cfg.(useStream := false);
    var pre := if miners.Failure? then [NetEvent(MinersUnavailable(miners.error))] else [];
    var labels := MinerLabels(Listed(miners), redundancy);
    PatchesAreEventCandidates(0, redundancy, labels, attempts, plain);
    CandidatesJoin(pre, EventsFrom(0, redundancy, labels, attempts, plain));
    PatchesFromIgnoresStream(0, redundancy, labels, attempts, cfg);
  }

  /** The plain stream never streams, whatever the setting. */
  lemma {:induction false} PatchesFromIgnoresStream(i: nat, total: int, labels: seq<string>,
                                                    attempts: nat -> Attempt, cfg: Live)
    ensures PatchesFrom(i, total, labels, attempts, cfg) == PatchesFrom(i, total, labels, attempts, cfg.(useStream := false))
    decreases total - i
  {
    if i < total {
      PatchesFromIgnoresStream(i + 1, total, labels, attempts, cfg);
    }
  }
}

=== FILE: normalize.dfy ===
/** `_normalize_code` of agent/coordinator.py: the canonical form under which passing patches are
    compared for consensus. */
module Normalize {
  import opened Strings

  /** Line boundaries are plain "\n", and no line ends in whitespace: a whitespace character
      directly before a "\n" can only be another "\n" (the end of an empty line). */
  ghost predicate CleanLines(s: string) {
    && (forall i :: 0 <= i < |s| && IsLineBreak(s[i]) ==> s[i] == '\n')
    && (forall i :: 0 < i < |s| && s[i] == '\n' ==> s[i - 1] == '\n' || !IsSpace(s[i - 1]))
  }

  /** The shape every normalized patch has: no leading or trailing whitespace, and no line with
      trailing whitespace. */
  ghost predicate IsNormal(s: string) {
    Stripped(s) && CleanLines(s)
  }

  /** `[line.rstrip() for line in lines]` */
  function RStripEach(lines: seq<string>): (r: seq<string>)
    ensures |r| == |lines|
    ensures forall j :: 0 <= j < |r| ==> r[j] == RStrip(lines[j])
  {
    if |lines| == 0 then [] else [RStrip(lines[0])] + RStripEach(lines[1..])
  }

  /** `"\n".join(line.rstrip() for line in code.strip().splitlines()).strip()` */
  function Normalize(code: string): (r: string)
    ensures IsNormal(r)
  {
    var lines := SplitLines(Strip(code));
    JoinedLinesAreClean(lines);
    var joined := Join("\n", RStripEach(lines));
    StripKeepsClean(joined);
    Strip(joined)
  }

  /** Stripping a clean text leaves it clean. */
  lemma StripKeepsClean(j: string)
    requires CleanLines(j)
    ensures IsNormal(Strip(j))
  {
    CleanSlice(j, Strip(j), SkipSpace(j, 0));
  }

  /** A line without boundaries, with no trailing whitespace. */
  ghost predicate TidyLine(l: string) {
    (forall i :: 0 <= i < |l| ==> !IsLineBreak(l[i])) && (|l| == 0 || !IsSpace(l[|l| - 1]))
  }

  lemma CleanSlice(s: string, t: string, lo: int)
    requires 0 <= lo && lo + |t| <= |s| && t == s[lo..lo + |t|]
    requires CleanLines(s)
    ensures CleanLines(t)
  {
    forall i | 0 < i < |t| && t[i] == '\n'
      ensures t[i - 1] == '\n' || !IsSpace(t[i - 1])
    {
      assert t[i] == s[lo + i] && t[i - 1] == s[lo + i - 1];
    }
  }

  lemma CleanCons(a: string, rest: string)
    requires TidyLine(a)
    requires CleanLines(rest)
    ensures CleanLines(a + "\n" + rest)
  {
    var s := a + "\n" + rest;
    forall i | 0 <= i < |s| && IsLineBreak(s[i])
      ensures s[i] == '\n'
    {
      if i > |a| { assert s[i] == rest[i - |a| - 1]; }
    }
    forall i | 0 < i < |s| && s[i] == '\n'
      ensures s[i - 1] == '\n' || !IsSpace(s[i - 1])
    {
      if i < |a| {
        assert s[i] == a[i];
        assert IsLineBreak(a[i]);
      } else if i == |a| {
        assert s[i - 1] == a[|a| - 1];
      } else if i > |a| + 1 {
        assert s[i] == rest[i - |a| - 1] && s[i - 1] == rest[i - |a| - 2];
      }
    }
  }

  lemma {:induction false} JoinedLinesAreClean(lines: seq<string>)
    requires forall j :: 0 <= j < |lines| ==> forall i :: 0 <= i < |lines[j]| ==> !IsLineBreak(lines[j][i])
    ensures CleanLines(Join("\n", RStripEach(lines)))
  {
    var ls := RStripEach(lines);
    if |lines| == 0 {
    } else {
      var a := RStrip(lines[0]);
      assert TidyLine(a) by {
        assert a == lines[0][..|a|];
        forall i | 0 <= i < |a| ensures !IsLineBreak(a[i]) { assert a[i] == lines[0][i]; }
      }
      if |lines| == 1 {
        assert Join("\n", ls) == a;
      } else {
        JoinedLinesAreClean(lines[1..]);
        assert ls[1..] == RStripEach(lines[1..]);
        assert Join("\n", ls) == a + "\n" + Join("\n", ls[1..]);
        CleanCons(a, Join("\n", ls[1..]));
      }
    }
  }

  lemma RStripOfTidy(l: string)
    requires |l| == 0 || !IsSpace(l[|l| - 1])
    ensures RStrip(l) == l
  {
  }

  lemma BreakIsNewline(s: string, k: int)
    requires CleanLines(s)
    requires 0 <= k < |s| && IsLineBreak(s[k])
    ensures s[k] == '\n'
  {
  }

  lemma SplitAtNewline(s: string, k: nat)
    requires k == FirstBreak(s) && k < |s|
    requires s[k] == '\n'
    ensures SplitLines(s) == [s[..k]] + SplitLines(s[k + 1..])
  {
    assert BreakWidth(s, k) == 1;
  }

  lemma JoinCons(a: string, tail: seq<string>)
    requires |tail| > 0
    ensures Join("\n", [a] + tail) == a + "\n" + Join("\n", tail)
  {
    assert ([a] + tail)[1..] == tail;
  }

  /** The first line of a clean text has no trailing whitespace. */
  lemma HeadIsFixed(s: string, k: nat)
    requires CleanLines(s)
    requires k == FirstBreak(s) && k < |s|
    ensures RStrip(s[..k]) == s[..k]
  {
    if k > 0 {
      BreakIsNewline(s, k);
      assert !IsLineBreak(s[k - 1]);
      assert s[..k][k - 1] == s[k - 1];
    }
    RStripOfTidy(s[..k]);
  }

  /** What follows the first "\n" of a clean text is clean. */
  lemma RestIsClean(s: string, k: nat)
    requires CleanLines(s)
    requires k == FirstBreak(s) && k < |s|
    requires !IsSpace(s[|s| - 1])
    ensures k + 1 < |s|
    ensures CleanLines(s[k + 1..]) && !IsSpace(s[k + 1..][|s| - k - 2])
  {
    BreakIsNewline(s, k);
    CleanSlice(s, s[k + 1..], k + 1);
  }

  /** A single tidy line is its own split-and-join. */
  lemma SingleLine(s: string)
    requires |s| > 0 && FirstBreak(s) == |s|
    requires !IsSpace(s[|s| - 1])
    ensures Join("\n", RStripEach(SplitLines(s))) == s
  {
    assert SplitLines(s) == [s];
    RStripOfTidy(s);
  }

  lemma StepJoin(s: string, head: string, rest: string, lines: seq<string>)
    requires |rest| > 0 && s == head + "\n" + rest
    requires lines == [head] + SplitLines(rest)
    requires RStrip(head) == head
    requires Join("\n", RStripEach(SplitLines(rest))) == rest
    ensures Join("\n", RStripEach(lines)) == s
  {
    var tail := RStripEach(SplitLines(rest));
    assert RStripEach(lines) == [head] + tail;
    JoinCons(head, tail);
  }

  lemma SplitAround(s: string, k: nat)
    requires k < |s| && s[k] == '\n'
    ensures s == s[..k] + "\n" + s[k + 1..]
  {
  }

  /** The inductive step: the first line, then the rest of a clean text. */
  lemma FirstLineStep(s: string, k: nat)
    requires CleanLines(s)
    requires k == FirstBreak(s) && k + 1 < |s|
    requires Join("\n", RStripEach(SplitLines(s[k + 1..]))) == s[k + 1..]
    ensures Join("\n", RStripEach(SplitLines(s))) == s
  {
    BreakIsNewline(s, k);
    SplitAtNewline(s, k);
    HeadIsFixed(s, k);
    SplitAround(s, k);
    StepJoin(s, s[..k], s[k + 1..], SplitLines(s));
  }

  /** Splitting a clean text that does not end in whitespace and joining the stripped lines back
      gives the text again. */
  lemma {:induction false} SplitJoinClean(s: string)
    requires CleanLines(s)
    requires |s| == 0 || !IsSpace(s[|s| - 1])
    ensures Join("\n", RStripEach(SplitLines(s))) == s
    decreases |s|
  {
    if |s| > 0 {
      var k := FirstBreak(s);
      if k == |s| {
        SingleLine(s);
      } else {
        RestIsClean(s, k);
        SplitJoinClean(s[k + 1..]);
        FirstLineStep(s, k);
      }
    }
  }

  /** A normal text is left as it is. */
  lemma NormalIsFixed(s: string)
    requires IsNormal(s)
    ensures Normalize(s) == s
  {
    StripOfStripped(s);
    SplitJoinClean(s);
  }

  /** Normalizing twice is normalizing once. */
  lemma NormalizeIdempotent(code: string)
    ensures Normalize(Normalize(code)) == Normalize(code)
  {
    NormalIsFixed(Normalize(code));
  }
}

=== FILE: patches.dfy ===
/** What travels from a patch source to the pipeline: candidate patches, progress notes,
    and the shape of a Python generator that may raise after yielding. */
module Patches {
  import opened Wrappers

  /** One proposed fix; the token, cost, duration and timestamp fields are not modelled. */
  datatype Candidate = Candidate(minerId: string, code: string, explanation: string, signature: string)

  /** Progress a patch source reports besides candidates; `request` numbers start at 1. */
  datatype Note =
    | MinersUnavailable(error: string)
    | CompletionStarted(request: nat, total: int)
    | StreamingProgress(chars: nat)
    | RequestFailed(request: nat, error: string)

  /** The `(kind, payload)` pairs of a patch-source stream. */
  datatype NetItem = NetEvent(note: Note) | NetCandidate(candidate: Candidate)

  /** Everything a Python generator yielded, then the text of the exception it raised, if any. */
  datatype Stream<T> = Stream(items: seq<T>, raised: Option<string>)

  /** The candidates of a stream, in order. */
  function CandidatesOf(items: seq<NetItem>): (cs: seq<Candidate>)
    ensures |cs| <= |items|
    ensures forall c :: c in cs <==> NetCandidate(c) in items
  {
    if |items| == 0 then []
    else (if items[0].NetCandidate? then [items[0].candidate] else []) + CandidatesOf(items[1..])
  }
}

=== FILE: production.dfy ===
/** The LLM-backed miner network of agent/cortensor_production.py: six fixed miners, the
    providers the environment makes available, a provider cache keyed by "provider:model",
    and the selection and collection of patches. `random.sample` arrives as a permutation of
    the available miners, and each provider's `generate_patch` as a given outcome. */
module Production {
  import opened Wrappers
  import opened Strings
  import opened Patches
  import opened LlmProvider

  datatype Miner = Miner(id: string, kind: Kind, model: string, priority: nat)

  const Miners := [
    Miner("Miner_Alpha", OpenAI, "gpt-4-turbo-preview", 1),
    Miner("Miner_Beta", Claude, "claude-3-opus-20240229", 1),
    Miner("Miner_Gamma", OpenAI, "gpt-3.5-turbo", 3),
    Miner("Miner_Delta", Ollama, "llama2", 4),
    Miner("Miner_Epsilon", DeepSeek, "deepseek-chat", 2),
    Miner("Miner_Zeta", Grok, "grok-beta", 2)]

  /** The order `_detect_available_providers` tries the providers in. */
  const DetectionOrder := [OpenAI, Claude, DeepSeek, Grok, Ollama]

  const NoProviders := "No LLM providers available. Set at least one: OPENAI_API_KEY, ANTHROPIC_API_KEY, DEEPSEEK_API_KEY, XAI_API_KEY, or ensure Ollama is running."
  const NoneAvailable := "No LLM providers available (check env keys)"
  const BadSample := "Sample larger than population or is negative"
  const NoPatches := "No miners returned valid patches"

  /** The position of a provider in `DetectionOrder`. */
  function Rank(k: Kind): nat {
    match k
    case OpenAI => 0
    case Claude => 1
    case DeepSeek => 2
    case Grok => 3
    case Ollama => 4
  }

  /** `[p.lower() for p in providers] if providers else None`: an empty list allows everything,
      like no list. */
  function Requested(providers: seq<string>): (r: Option<seq<string>>)
    ensures |providers| == 0 <==> r.None?
    ensures r.Some? ==> |r.value| == |providers| && forall i :: 0 <= i < |providers| ==> r.value[i] == Lower(providers[i])
  {
    if |providers| == 0 then None else Some(seq(|providers|, i requires 0 <= i < |providers| => Lower(providers[i])))
  }

  /** The allowlist lets `k` through. */
  predicate Allowed(requested: Option<seq<string>>, k: Kind) {
    requested.None? || Name(k) in requested.value
  }

  /** The environment offers `k`: its key for the keyed providers; Ollama is always offered, and
      only reached, or not, when it is used. */
  predicate Offered(k: Kind, env: Env) {
    k == Ollama || Configured(k, env, None)
  }

  /** The providers of `kinds` that `keep` lets through, in the order of `kinds`. */
  function Keep(kinds: seq<Kind>, keep: Kind -> bool, rank: Kind -> nat): (r: seq<Kind>)
    requires forall i, j :: 0 <= i < j < |kinds| ==> rank(kinds[i]) < rank(kinds[j])
    ensures forall k :: k in r <==> k in kinds && keep(k)
    ensures forall i, j :: 0 <= i < j < |r| ==> rank(r[i]) < rank(r[j])
  {
    if |kinds| == 0 then []
    else
      var rest := Keep(kinds[1..], keep, rank);
      assert forall k :: k in rest ==> rank(kinds[0]) < rank(k);
      if keep(kinds[0]) then [kinds[0]] + rest else rest
  }

  /** `_detect_available_providers()`: the allowed and offered providers, in detection order. */
  function Detect(requested: Option<seq<string>>, env: Env): (names: seq<Kind>)
    ensures forall k :: k in names <==> Allowed(requested, k) && Offered(k, env)
    ensures forall i, j :: 0 <= i < j < |names| ==> Rank(names[i]) < Rank(names[j])
  {
    assert forall k: Kind :: DetectionOrder[Rank(k)] == k;
    Keep(DetectionOrder, k => Allowed(requested, k) && Offered(k, env), Rank)
  }

  /** The network's state: the allowlist, the detected providers and the provider cache. */
  datatype Network = Network(requested: Option<seq<string>>, available: seq<Kind>, cache: map<string, Provider>)

  /** The constructor: it raises when no provider is detected. */
  function NewNetwork(providers: seq<string>, env: Env): (r: Result<Network, string>)
    ensures r.Failure? <==> Detect(Requested(providers), env) == []
    ensures r.Failure? ==> r.error == NoProviders
    ensures r.Success? ==> r.value == Network(Requested(providers), Detect(Requested(providers), env), map[])
  {
    var requested := Requested(providers);
    var available := Detect(requested, env);
    if available == [] then Failure(NoProviders) else Success(Network(requested, available, map[]))
  }

  /** Whenever Ollama is allowed the constructor succeeds, whatever the environment holds. */
  lemma OllamaKeepsNetworkUp(providers: seq<string>, env: Env)
    requires |providers| == 0 || "ollama" in Requested(providers).value
    ensures NewNetwork(providers, env).Success?
    ensures Ollama in NewNetwork(providers, env).value.available
  {
    assert Allowed(Requested(providers), Ollama) && Offered(Ollama, env);
  }

  /** `[m for m in self.miners if m["provider"] in available]` */
  function AvailableMiners(available: seq<Kind>): (ms: seq<Miner>)
    ensures forall m :: m in ms <==> m in Miners && m.kind in available
    ensures |ms| <= |Miners|
  {
    Filter(Miners, available)
  }

  function Filter(ms: seq<Miner>, available: seq<Kind>): (r: seq<Miner>)
    ensures forall m :: m in r <==> m in ms && m.kind in available
    ensures |r| <= |ms|
  {
    if |ms| == 0 then []
    else (if ms[0].kind in available then [ms[0]] else []) + Filter(ms[1..], available)
  }

  /** `order` lists each of `0..n-1` exactly once: the order `random.sample` draws in. */
  predicate IsPermutation(order: seq<nat>, n: nat) {
    && |order| == n
    && (forall i :: 0 <= i < n ==> order[i] < n)
    && (forall i, j :: 0 <= i < j < n ==> order[i] != order[j])
  }

  /** No miner is listed twice. */
  predicate DistinctMiners(ms: seq<Miner>) {
    forall i, j :: 0 <= i < j < |ms| ==> ms[i] != ms[j]
  }

  /** The selection step: no available miner raises, the redundancy is clamped to the number
      available, and `random.sample` raises on a negative count; otherwise the first
      `redundancy` miners in the drawn `order`. */
  function Select(available: seq<Miner>, redundancy: int, order: seq<nat>): (r: Result<seq<Miner>, string>)
    requires IsPermutation(order, |available|)
    ensures |available| == 0 ==> r == Failure(NoneAvailable)
    ensures |available| > 0 && redundancy < 0 ==> r == Failure(BadSample)
    ensures |available| > 0 && redundancy >= 0 ==> r.Success?
    ensures r.Success? ==> |r.value| == (if redundancy < |available| then redundancy else |available|)
    ensures r.Success? ==> forall m :: m in r.value ==> m in available
    ensures r.Success? && DistinctMiners(available) ==> DistinctMiners(r.value)
  {
    if |available| == 0 then Failure(NoneAvailable)
    else
      var n := if redundancy < |available| then redundancy else |available|;
      if n < 0 then Failure(BadSample)
      else
        var picked := seq(n, i requires 0 <= i < n => available[order[i]]);
        assert forall i :: 0 <= i < n ==> picked[i] == available[order[i]];
        Success(picked)
  }

  // ---------------------------------------------------------------------------------------
  // The provider cache

  /** The cache key of a miner's provider. */
  function CacheKey(k: Kind, model: string): string {
    Name(k) + ":" + model
  }

  /** The first ':' of a cache key ends the provider name. */
  lemma ColonEndsName(k: Kind, model: string)
    ensures CacheKey(k, model)[|Name(k)|] == ':'
    ensures forall i :: 0 <= i < |Name(k)| ==> CacheKey(k, model)[i] != ':'
  {
  }

  /** Different providers or models never share a cache key: no provider name holds ':'. */
  lemma CacheKeyInjective(k1: Kind, m1: string, k2: Kind, m2: string)
    requires CacheKey(k1, m1) == CacheKey(k2, m2)
    ensures k1 == k2 && m1 == m2
  {
    var s := CacheKey(k1, m1);
    ColonEndsName(k1, m1);
    ColonEndsName(k2, m2);
    assert |Name(k1)| == |Name(k2)|;
    assert Name(k1) == s[..|Name(k1)|] == Name(k2);
    NameRoundTrip(k1);
    NameRoundTrip(k2);
    assert m1 == s[|Name(k1)| + 1..] == m2;
  }

  /** What looking up a provider did: the cache after it, the provider or the factory's error,
      and how many times the factory was called. */
  datatype Lookup = Lookup(cache: map<string, Provider>, provider: Result<Provider, string>, factoryCalls: nat)

  /** `_get_provider(name, model)`: a cached provider is returned without calling the factory;
      otherwise the factory is called once and a provider it builds is stored. */
  function GetProvider(cache: map<string, Provider>, k: Kind, model: string, env: Env, probe: Option<string>): (l: Lookup)
    ensures CacheKey(k, model) in cache ==> l == Lookup(cache, Success(cache[CacheKey(k, model)]), 0)
    ensures CacheKey(k, model) !in cache ==> l.factoryCalls == 1
    ensures l.provider.Success? ==> CacheKey(k, model) in l.cache && l.cache[CacheKey(k, model)] == l.provider.value
    ensures l.provider.Failure? ==> l.cache == cache
    ensures forall key :: key in cache ==> key in l.cache && l.cache[key] == cache[key]
    ensures forall key :: key in l.cache && key != CacheKey(k, model) ==> key in cache
  {
    var key := CacheKey(k, model);
    if key in cache then Lookup(cache, Success(cache[key]), 0)
    else
      match Create(Name(k), Some(model), env, probe)
      case Failure(e) => Lookup(cache, Failure(e), 1)
      case Success(p) => Lookup(cache[key := p], Success(p), 1)
  }

  /** A second lookup of the same provider and model calls no factory and returns the provider
      the first one stored, even if the environment has changed since. */
  lemma SecondLookupIsCached(cache: map<string, Provider>, k: Kind, model: string,
                             env: Env, probe: Option<string>, env': Env, probe': Option<string>)
    requires GetProvider(cache, k, model, env, probe).provider.Success?
    ensures var first := GetProvider(cache, k, model, env, probe);
            GetProvider(first.cache, k, model, env', probe') == Lookup(first.cache, first.provider, 0)
  {
  }

  // ---------------------------------------------------------------------------------------
  // Collecting patches

  /** What a provider's `generate_patch` returned; the tokens, cost and timing are not
      modelled. */
  datatype PatchResult = PatchResult(code: string, explanation: string, signature: string)

  /** The loop over the selected miners: a miner whose provider cannot be built, or whose call
      raises, is skipped. */
  datatype Gathered = Gathered(cache: map<string, Provider>, patches: seq<Candidate>, factoryCalls: nat)

  /** The ids of some miners. */
  function IdsOf(ms: seq<Miner>): set<string> {
    set m | m in ms :: m.id
  }

  /** A provider for `m` is at hand: cached under its key, or built by the factory. */
  predicate Builds(cache: map<string, Provider>, m: Miner, env: Env, probe: Option<string>) {
    CacheKey(m.kind, m.model) in cache || Create(Name(m.kind), Some(m.model), env, probe).Success?
  }

  /** The patches the selected miners contribute, judged against one fixed cache: in selection
      order, one for each miner whose provider is at hand and whose call returns. */
  function Contributions(cache: map<string, Provider>, selected: seq<Miner>, replies: Miner -> Result<PatchResult, string>,
                         env: Env, probe: Option<string>): (cs: seq<Candidate>)
    ensures |cs| <= |selected|
    ensures forall c :: c in cs ==> c.minerId in IdsOf(selected)
    decreases |selected|
  {
    if |selected| == 0 then []
    else
      var m := selected[0];
      assert forall x :: x in selected[1..] ==> x in selected;
      var own :=
        if Builds(cache, m, env, probe) && replies(m).Success?
        then [Candidate(m.id, replies(m).value.code, replies(m).value.explanation, replies(m).value.signature)]
        else [];
      own + Contributions(cache, selected[1..], replies, env, probe)
  }

  /** `c1` grew from `c0` by providers the factory builds: it keeps every entry of `c0`, and
      every key it adds is one the factory succeeds for. */
  ghost predicate Grown(c0: map<string, Provider>, c1: map<string, Provider>, env: Env, probe: Option<string>) {
    && (forall key :: key in c0 ==> key in c1)
    && (forall k, model :: CacheKey(k, model) in c1 && CacheKey(k, model) !in c0 ==>
          Create(Name(k), Some(model), env, probe).Success?)
  }

  /** A grown cache judges every miner alike, so it yields the same contributions. */
  lemma {:induction false} GrownCacheContributesAlike(c0: map<string, Provider>, c1: map<string, Provider>,
                                                      selected: seq<Miner>, replies: Miner -> Result<PatchResult, string>,
                                                      env: Env, probe: Option<string>)
    requires Grown(c0, c1, env, probe)
    ensures Contributions(c1, selected, replies, env, probe) == Contributions(c0, selected, replies, env, probe)
    decreases |selected|
  {
    if |selected| > 0 {
      var m := selected[0];
      assert Builds(c1, m, env, probe) == Builds(c0, m, env, probe);
      GrownCacheContributesAlike(c0, c1, selected[1..], replies, env, probe);
    }
  }

  /** A lookup only grows the cache. */
  lemma LookupGrows(cache: map<string, Provider>, k: Kind, model: string, env: Env, probe: Option<string>)
    ensures Grown(cache, GetProvider(cache, k, model, env, probe).cache, env, probe)
    ensures GetProvider(cache, k, model, env, probe).provider.Success? <==>
              CacheKey(k, model) in cache || Create(Name(k), Some(model), env, probe).Success?
  {
    var l := GetProvider(cache, k, model, env, probe);
    forall k', model' | CacheKey(k', model') in l.cache && CacheKey(k', model') !in cache
      ensures Create(Name(k'), Some(model'), env, probe).Success?
    {
      CacheKeyInjective(k', model', k, model);
    }
  }

  /** The first selected miner contributes what its own lookup and call give, and the rest
      contribute against the cache that lookup leaves. */
  lemma GatherStep(cache: map<string, Provider>, selected: seq<Miner>, replies: Miner -> Result<PatchResult, string>,
                   env: Env, probe: Option<string>)
    requires |selected| > 0
    ensures var m := selected[0];
            var l := GetProvider(cache, m.kind, m.model, env, probe);
            Contributions(cache, selected, replies, env, probe)
            == (if l.provider.Success? && replies(m).Success?
                then [Candidate(m.id, replies(m).value.code, replies(m).value.explanation, replies(m).value.signature)]
                else [])
               + Contributions(l.cache, selected[1..], replies, env, probe)
  {
    var m := selected[0];
    LookupGrows(cache, m.kind, m.model, env, probe);
    GrownCacheContributesAlike(cache, GetProvider(cache, m.kind, m.model, env, probe).cache, selected[1..], replies, env, probe);
  }

  function Gather(cache: map<string, Provider>, selected: seq<Miner>, replies: Miner -> Result<PatchResult, string>,
                  env: Env, probe: Option<string>): (g: Gathered)
    ensures g.patches == Contributions(cache, selected, replies, env, probe)
    ensures |g.patches| <= |selected|
    ensures g.factoryCalls <= |selected|
    ensures forall c :: c in g.patches ==> c.minerId in IdsOf(selected)
    ensures forall key :: key in cache ==> key in g.cache && g.cache[key] == cache[key]
    ensures forall m :: m in selected && Builds(cache, m, env, probe) ==> CacheKey(m.kind, m.model) in g.cache
    decreases |selected|
  {
    if |selected| == 0 then Gathered(cache, [], 0)
    else
      var m := selected[0];
      var l := GetProvider(cache, m.kind, m.model, env, probe);
      var rest := Gather(l.cache, selected[1..], replies, env, probe);
      GatherStep(cache, selected, replies, env, probe);
      LookupGrows(cache, m.kind, m.model, env, probe);
      assert forall m' :: m' in selected && m' != m ==> m' in selected[1..];
      var patch :=
        if l.provider.Success? && replies(m).Success?
        then [Candidate(m.id, replies(m).value.code, replies(m).value.explanation, replies(m).value.signature)]
        else [];
      Gathered(rest.cache, patch + rest.patches, l.factoryCalls + rest.factoryCalls)
  }

  /** With every selected miner's provider already cached, collecting calls no factory and
      leaves the cache as it was. */
  lemma {:induction false} WarmCacheCallsNoFactory(cache: map<string, Provider>, selected: seq<Miner>,
                                                   replies: Miner -> Result<PatchResult, string>, env: Env, probe: Option<string>)
    requires forall m :: m in selected ==> CacheKey(m.kind, m.model) in cache
    ensures Gather(cache, selected, replies, env, probe).factoryCalls == 0
    ensures Gather(cache, selected, replies, env, probe).cache == cache
    decreases |selected|
  {
    if |selected| > 0 {
      assert forall x :: x in selected[1..] ==> x in selected;
      WarmCacheCallsNoFactory(cache, selected[1..], replies, env, probe);
    }
  }

  /** Selection and collection, shared by both request paths: the selection error, or what the
      loop gathered. */
  function Collect(net: Network, redundancy: int, order: seq<nat>, replies: Miner -> Result<PatchResult, string>,
                   env: Env, probe: Option<string>): Result<Gathered, string>
    requires IsPermutation(order, |AvailableMiners(net.available)|)
  {
    match Select(AvailableMiners(net.available), redundancy, order)
    case Failure(e) => Failure(e)
    case Success(selected) => Success(Gather(net.cache, selected, replies, env, probe))
  }

  /** The network after a request: a failed selection touches nothing, and otherwise the
      cache holds what the loop left in it, whether or not any patch came back. */
  function After(net: Network, redundancy: int, order: seq<nat>, replies: Miner -> Result<PatchResult, string>,
                 env: Env, probe: Option<string>): (n: Network)
    requires IsPermutation(order, |AvailableMiners(net.available)|)
    ensures n.requested == net.requested && n.available == net.available
    ensures forall key :: key in net.cache ==> key in n.cache && n.cache[key] == net.cache[key]
    ensures var s := Select(AvailableMiners(net.available), redundancy, order);
            && (s.Failure? ==> n == net)
            && (s.Success? ==> forall m :: m in s.value && Builds(net.cache, m, env, probe) ==>
                                 CacheKey(m.kind, m.model) in n.cache)
  {
    match Collect(net, redundancy, order, replies, env, probe)
    case Failure(_) => net
    case Success(g) => net.(cache := g.cache)
  }

  /** After a request, whatever its outcome, a later lookup for any selected miner whose
      provider was built is served from the cache, even in a changed environment. */
  lemma RequestWarmsCache(net: Network, redundancy: int, order: seq<nat>, replies: Miner -> Result<PatchResult, string>,
                          env: Env, probe: Option<string>, m: Miner, env': Env, probe': Option<string>)
    requires IsPermutation(order, |AvailableMiners(net.available)|)
    ensures var s := Select(AvailableMiners(net.available), redundancy, order);
            var c := After(net, redundancy, order, replies, env, probe).cache;
            s.Success? && m in s.value && Builds(net.cache, m, env, probe) ==>
              GetProvider(c, m.kind, m.model, env', probe').factoryCalls == 0
              && GetProvider(c, m.kind, m.model, env', probe').provider.Success?
  {
  }

  /** `request_patches(...)`: the network with its provider cache as the loop left it, and the
      patches or the error raised, including when no miner returned a patch. */
  function RequestPatches(net: Network, redundancy: int, order: seq<nat>, replies: Miner -> Result<PatchResult, string>,
                          env: Env, probe: Option<string>): (r: (Network, Result<seq<Candidate>, string>))
    requires IsPermutation(order, |AvailableMiners(net.available)|)
    ensures r.0 == After(net, redundancy, order, replies, env, probe)
    ensures |AvailableMiners(net.available)| == 0 ==> r.1 == Failure(NoneAvailable)
    ensures r.1.Success? ==> 0 < |r.1.value| <= redundancy
    ensures r.1.Success? ==> forall c :: c in r.1.value ==> c.minerId in IdsOf(AvailableMiners(net.available))
    ensures r.1.Failure? ==> r.1.error in {NoneAvailable, BadSample, NoPatches}
    ensures var s := Select(AvailableMiners(net.available), redundancy, order);
            && (s.Failure? ==> r.1 == Failure(s.error))
            && (s.Success? ==>
                  var cs := Contributions(net.cache, s.value, replies, env, probe);
                  && (r.1.Success? <==> |cs| > 0)
                  && (r.1.Success? ==> r.1.value == cs)
                  && (r.1.Failure? ==> r.1.error == NoPatches))
  {
    var n := After(net, redundancy, order, replies, env, probe);
    match Collect(net, redundancy, order, replies, env, probe)
    case Failure(e) => (n, Failure(e))
    case Success(g) => (n, if |g.patches| == 0 then Failure(NoPatches) else Success(g.patches))
  }

  /** `request_patches_stream(...)` as a generator: the network with its provider cache as the
      loop left it, and the patches as they come, then the error raised once the loop is over,
      or before it starts. */
  function RequestPatchesStream(net: Network, redundancy: int, order: seq<nat>, replies: Miner -> Result<PatchResult, string>,
                                env: Env, probe: Option<string>): (r: (Network, Stream<Candidate>))
    requires IsPermutation(order, |AvailableMiners(net.available)|)
    ensures r.0 == After(net, redundancy, order, replies, env, probe)
    ensures r.1.raised.None? ==> |r.1.items| > 0
    ensures r.1.raised.Some? ==> r.1.raised.value in {NoneAvailable, BadSample, NoPatches}
  {
    var n := After(net, redundancy, order, replies, env, probe);
    match Collect(net, redundancy, order, replies, env, probe)
    case Failure(e) => (n, Stream([], Some(e)))
    case Success(g) => (n, Stream(g.patches, if |g.patches| == 0 then Some(NoPatches) else None))
  }

  /** Both request paths agree: they leave the same network behind, the list is the stream's
      items exactly when the stream ends without raising, and both raise the same error
      otherwise, with nothing yielded. */
  lemma StreamAgreesWithList(net: Network, redundancy: int, order: seq<nat>, replies: Miner -> Result<PatchResult, string>,
                             env: Env, probe: Option<string>)
    requires IsPermutation(order, |AvailableMiners(net.available)|)
    ensures var r := RequestPatches(net, redundancy, order, replies, env, probe);
            var s := RequestPatchesStream(net, redundancy, order, replies, env, probe);
            && r.0 == s.0
            && (r.1.Success? <==> s.1.raised.None?)
            && (r.1.Success? ==> s.1.items == r.1.value)
            && (r.1.Failure? ==> s.1 == Stream([], Some(r.1.error)))
  {
  }

  // ---------------------------------------------------------------------------------------
  // Status

  /** Python's `a < b` on strings: the first differing character decides, and a proper prefix
      comes first. */
  predicate LexLess(a: string, b: string) {
    |b| > 0 && (|a| == 0 || a[0] < b[0] || (a[0] == b[0] && LexLess(a[1..], b[1..])))
  }

  /** The position of a provider's name in alphabetical order. */
  function AlphaRank(k: Kind): nat {
    match k
    case Claude => 0
    case DeepSeek => 1
    case Grok => 2
    case Ollama => 3
    case OpenAI => 4
  }

  const Alphabetical := [Claude, DeepSeek, Grok, Ollama, OpenAI]

  datatype Status = Status(totalMiners: nat, availableProviders: nat, status: string, providers: seq<string>)

  /** `sorted` on providers: those of `available` in alphabetical rank. */
  function SortedKinds(available: seq<Kind>): (r: seq<Kind>)
    ensures forall k :: k in r <==> k in available
    ensures forall i, j :: 0 <= i < j < |r| ==> AlphaRank(r[i]) < AlphaRank(r[j])
  {
    AllAlphabetical();
    Keep(Alphabetical, k => k in available, AlphaRank)
  }

  lemma AllAlphabetical()
    ensures forall k :: k in Alphabetical
    ensures forall i, j :: 0 <= i < j < |Alphabetical| ==> AlphaRank(Alphabetical[i]) < AlphaRank(Alphabetical[j])
  {
    forall k ensures k in Alphabetical {
      assert Alphabetical[AlphaRank(k)] == k;
    }
  }

  /** The names of some providers, in their order. */
  function KindNames(kinds: seq<Kind>): (names: seq<string>)
    ensures |names| == |kinds|
    ensures forall i :: 0 <= i < |kinds| ==> names[i] == Name(kinds[i])
  {
    seq(|kinds|, i requires 0 <= i < |kinds| => Name(kinds[i]))
  }

  /** A provider's name is among the names exactly when the provider is among the kinds. */
  lemma NamesMatchKinds(kinds: seq<Kind>, k: Kind)
    ensures Name(k) in KindNames(kinds) <==> k in kinds
  {
    var names := KindNames(kinds);
    NameRoundTrip(k);
    if Name(k) in names {
      var i :| 0 <= i < |names| && names[i] == Name(k);
      NameRoundTrip(kinds[i]);
    }
  }

  /** Kinds in alphabetical rank give names in string order. */
  lemma NamesFollowRanks(kinds: seq<Kind>)
    requires forall i, j :: 0 <= i < j < |kinds| ==> AlphaRank(kinds[i]) < AlphaRank(kinds[j])
    ensures forall i, j :: 0 <= i < j < |kinds| ==> LexLess(KindNames(kinds)[i], KindNames(kinds)[j])
  {
    forall i, j | 0 <= i < j < |kinds|
      ensures LexLess(KindNames(kinds)[i], KindNames(kinds)[j])
    {
      AlphaRankOrdersNames(kinds[i], kinds[j]);
    }
  }

  /** `get_network_status()`; `sorted` is a pass over the names in alphabetical order. */
  function NetworkStatus(net: Network): (st: Status)
    ensures st.totalMiners == 6 && st.status == "operational"
    ensures st.availableProviders == |net.available|
    ensures forall k :: Name(k) in st.providers <==> k in net.available
    ensures forall i, j :: 0 <= i < j < |st.providers| ==> LexLess(st.providers[i], st.providers[j])
  {
    var kinds := SortedKinds(net.available);
    forall k ensures Name(k) in KindNames(kinds) <==> k in net.available {
      NamesMatchKinds(kinds, k);
    }
    NamesFollowRanks(kinds);
    Status(|Miners|, |net.available|, "operational", KindNames(kinds))
  }

  /** Alphabetical rank agrees with Python's string order on the names. */
  lemma AlphaRankOrdersNames(a: Kind, b: Kind)
    requires AlphaRank(a) < AlphaRank(b)
    ensures LexLess(Name(a), Name(b))
  {
    AlphabeticalIsSorted();
    assert a == Alphabetical[AlphaRank(a)] && b == Alphabetical[AlphaRank(b)];
  }

  /** The five names are in alphabetical order. */
  lemma AlphabeticalIsSorted()
    ensures forall i, j :: 0 <= i < j < |Alphabetical| ==> LexLess(Name(Alphabetical[i]), Name(Alphabetical[j]))
  {
    assert LexLess("claude", "deepseek");
    assert LexLess("deepseek", "grok");
    assert LexLess("grok", "ollama");
    assert LexLess("ollama", "openai");
  }
}

=== FILE: providers.dfy ===
/** The provider layer of agent/llm_provider.py: which provider a name selects, what each
    constructor demands of the environment, how each provider cuts code out of a reply, and
    which price tier a model name falls in. The SDKs and HTTP calls are not modelled; the
    environment is a map and the Ollama reachability probe arrives as a parameter. */
module LlmProvider {
  import opened Wrappers
  import opened Strings
  import opened CodeBlocks

  datatype Kind = OpenAI | Claude | Ollama | DeepSeek | Grok

  /** A constructed provider: its kind and the model it asks for. */
  datatype Provider = Provider(kind: Kind, model: string)

  /** The environment variables, as `os.getenv` sees them. */
  type Env = map<string, string>

  /** `os.getenv(key)` is truthy. */
  predicate HasEnv(env: Env, key: string) {
    key in env && env[key] != ""
  }

  /** The lower-case name the factory matches for each kind. */
  function Name(k: Kind): string {
    match k
    case OpenAI => "openai"
    case Claude => "claude"
    case Ollama => "ollama"
    case DeepSeek => "deepseek"
    case Grok => "grok"
  }

  /** Each constructor's default `model`. */
  function DefaultModel(k: Kind): string {
    match k
    case OpenAI => "gpt-4-turbo-preview"
    case Claude => "claude-3-opus-20240229"
    case Ollama => "llama2"
    case DeepSeek => "deepseek-chat"
    case Grok => "grok-beta"
  }

  const OllamaBase := "http://localhost:11434"

  /** What the constructor of kind `k` needs: its API key in the environment (for Grok either
      of two), or, for Ollama, a server that answers the probe. */
  predicate Configured(k: Kind, env: Env, probe: Option<string>) {
    match k
    case OpenAI => HasEnv(env, "OPENAI_API_KEY")
    case Claude => HasEnv(env, "ANTHROPIC_API_KEY")
    case Ollama => probe.None?
    case DeepSeek => HasEnv(env, "DEEPSEEK_API_KEY")
    case Grok => HasEnv(env, "XAI_API_KEY") || HasEnv(env, "GROK_API_KEY")
  }

  /** The error text of the constructor of kind `k` when it is not configured. */
  function MissingMessage(k: Kind, probe: Option<string>): string {
    match k
    case OpenAI => "OPENAI_API_KEY not set in environment"
    case Claude => "ANTHROPIC_API_KEY not set in environment"
    case Ollama => "Ollama server not accessible at " + OllamaBase + ": " + probe.GetOr("")
    case DeepSeek => "DEEPSEEK_API_KEY not set in environment"
    case Grok => "XAI_API_KEY or GROK_API_KEY not set in environment"
  }

  /** The constructor of kind `k`: a missing API key raises `ValueError`; an Ollama server that
      does not answer the probe (`probe` holds the error text) raises `RuntimeError`. */
  function NewProvider(k: Kind, model: Option<string>, env: Env, probe: Option<string>): (r: Result<Provider, string>)
    ensures r.Success? <==> Configured(k, env, probe)
    ensures r.Success? ==> r.value == Provider(k, model.GetOr(DefaultModel(k)))
    ensures r.Failure? ==> r.error == MissingMessage(k, probe)
    ensures r.Failure? && k == Ollama ==> StartsWith(r.error, "Ollama server not accessible at ")
  {
    if Configured(k, env, probe) then Success(Provider(k, model.GetOr(DefaultModel(k))))
    else Failure(MissingMessage(k, probe))
  }

  /** The kind `LLMFactory.create` picks for a name, matched after lower-casing; both "grok"
      and "xai" pick Grok. */
  function KindOf(name: string): Option<Kind> {
    var n := Lower(name);
    if n == "openai" then Some(OpenAI)
    else if n == "claude" then Some(Claude)
    else if n == "ollama" then Some(Ollama)
    else if n == "deepseek" then Some(DeepSeek)
    else if n == "grok" || n == "xai" then Some(Grok)
    else None
  }

  /** `LLMFactory.create(name, model=...)`; an unknown name raises `ValueError` quoting the
      name as given. */
  function Create(name: string, model: Option<string>, env: Env, probe: Option<string>): (r: Result<Provider, string>)
    ensures KindOf(name).None? ==> r == Failure("Unknown provider: " + name)
    ensures KindOf(name).Some? ==> r == NewProvider(KindOf(name).value, model, env, probe)
    ensures r.Success? ==> Some(r.value.kind) == KindOf(name)
  {
    match KindOf(name)
    case None => Failure("Unknown provider: " + name)
    case Some(k) => NewProvider(k, model, env, probe)
  }

  /** A string without upper-case ASCII letters is its own lower case. */
  lemma LowerOfLower(s: string)
    requires forall i :: 0 <= i < |s| ==> !('A' <= s[i] <= 'Z')
    ensures Lower(s) == s
  {
  }

  /** Lower-casing twice is lower-casing once. */
  lemma LowerIdempotent(s: string)
    ensures Lower(Lower(s)) == Lower(s)
  {
    LowerOfLower(Lower(s));
  }

  /** Every kind is reached by its own name. */
  lemma NameRoundTrip(k: Kind)
    ensures KindOf(Name(k)) == Some(k)
  {
    LowerOfLower(Name(k));
    assert Lower(Name(k)) == Name(k);
  }

  /** Names are matched without regard to letter case. */
  lemma KindOfIgnoresCase(name: string)
    ensures KindOf(Lower(name)) == KindOf(name)
  {
    LowerIdempotent(name);
  }

  /** A name selects a kind exactly when its lower case is that kind's name, or "xai" for
      Grok. */
  lemma KindOfIff(name: string, k: Kind)
    ensures KindOf(name) == Some(k) <==> Lower(name) == Name(k) || (k == Grok && Lower(name) == "xai")
  {
  }

  // ---------------------------------------------------------------------------------------
  // Code extraction

  /** Each provider's `_extract_code`: DeepSeek and Grok call OpenAI's, Claude's is the same
      text, and Ollama's only knows fenced blocks. */
  function ExtractFor(k: Kind, text: string): (code: string)
    ensures k != Ollama ==> code == ExtractChat(text)
    ensures k == Ollama ==> code == ExtractOllama(text)
  {
    if k == Ollama then ExtractOllama(text) else ExtractChat(text)
  }

  /** The providers differ only when the reply has an inline span and no fenced block. */
  lemma ExtractionsAgreeOnFences(text: string, k: Kind, k': Kind)
    requires Fenced(text).Some? || Inline(text).None?
    ensures ExtractFor(k, text) == ExtractFor(k', text)
  {
  }

  /** Without any block, every provider hands the reply back unchanged, surrounding whitespace
      included. */
  lemma NoBlockKeepsText(text: string, k: Kind)
    requires Fenced(text).None? && Inline(text).None?
    ensures ExtractFor(k, text) == text
  {
  }

  // ---------------------------------------------------------------------------------------
  // Price tiers

  /** The price tier `_calculate_cost` and `get_cost_per_1k_tokens` pick. */
  datatype Tier = Turbo | Gpt4 | Gpt35 | Opus | Sonnet | Haiku | Unpriced

  /** The tier of a provider's model: the OpenAI tests read "gpt-4-turbo" before "gpt-4", the
      Claude tests read "opus", then "sonnet", and anything else is haiku; the other
      providers are not priced. */
  function TierOf(p: Provider): (t: Tier)
    ensures p.kind == OpenAI ==>
              && (t == Turbo <==> Contains(p.model, "gpt-4-turbo"))
              && (t == Gpt4 <==> Contains(p.model, "gpt-4") && !Contains(p.model, "gpt-4-turbo"))
              && (t == Gpt35 <==> !Contains(p.model, "gpt-4"))
    ensures p.kind == Claude ==>
              && (t == Opus <==> Contains(p.model, "opus"))
              && (t == Sonnet <==> Contains(p.model, "sonnet") && !Contains(p.model, "opus"))
              && (t == Haiku <==> !Contains(p.model, "opus") && !Contains(p.model, "sonnet"))
    ensures p.kind !in {OpenAI, Claude} <==> t == Unpriced
  {
    TurboContainsGpt4(p.model);
    match p.kind
    case OpenAI =>
      if Contains(p.model, "gpt-4-turbo") then Turbo
      else if Contains(p.model, "gpt-4") then Gpt4
      else Gpt35
    case Claude =>
      if Contains(p.model, "opus") then Opus
      else if Contains(p.model, "sonnet") then Sonnet
      else Haiku
    case _ => Unpriced
  }

  /** `get_cost_per_1k_tokens()` in millionths of a dollar. */
  function PerThousand(t: Tier): nat {
    match t
    case Turbo => 15000
    case Gpt4 => 45000
    case Gpt35 => 1000
    case Opus => 45000
    case Sonnet => 9000
    case Haiku => 375
    case Unpriced => 0
  }

  /** The input and output rates of `_calculate_cost`, per thousand tokens, in millionths of a
      dollar; none for the unpriced providers, which report cost 0. */
  function Rates(t: Tier): Option<(nat, nat)> {
    match t
    case Turbo => Some((10000, 30000))
    case Gpt4 => Some((30000, 60000))
    case Gpt35 => Some((500, 1500))
    case Opus => Some((15000, 75000))
    case Sonnet => Some((3000, 15000))
    case Haiku => Some((250, 1250))
    case Unpriced => None
  }

  /** `_calculate_cost(usage)` in billionths of a dollar, where it is exact: tokens times the
      rate per thousand tokens in millionths. */
  function CallCost(t: Tier, promptTokens: nat, completionTokens: nat): (c: nat)
    ensures Rates(t).None? ==> c == 0
    ensures Rates(t).Some? ==> c == promptTokens * Rates(t).value.0 + completionTokens * Rates(t).value.1
  {
    match Rates(t)
    case None => 0
    case Some((i, o)) => promptTokens * i + completionTokens * o
  }

  lemma TurboContainsGpt4(model: string)
    ensures Contains(model, "gpt-4-turbo") ==> Contains(model, "gpt-4")
  {
    if !Contains(model, "gpt-4-turbo") {
      return;
    }
    var i :| 0 <= i <= |model| - 11 && OccursAt(model, "gpt-4-turbo", i);
    assert model[i..i + 5] == model[i..i + 11][..5];
    assert OccursAt(model, "gpt-4", i);
  }

  /** A model named "gpt-4-turbo..." also contains "gpt-4": only the order of the tests makes it
      a turbo model. */
  lemma TurboIsTestedFirst(model: string)
    requires Contains(model, "gpt-4-turbo")
    ensures Contains(model, "gpt-4")
    ensures TierOf(Provider(OpenAI, model)) == Turbo
  {
    TurboContainsGpt4(model);
  }

  /** No call is free on a priced tier, and more tokens never cost less: the cost grows with
      each token count, and an empty call costs nothing. */
  lemma CostIsMonotone(t: Tier, p: nat, c: nat, p': nat, c': nat)
    requires p <= p' && c <= c'
    ensures CallCost(t, 0, 0) == 0
    ensures CallCost(t, p, c) <= CallCost(t, p', c')
    ensures Rates(t).Some? && (p < p' || c < c') ==> CallCost(t, p, c) < CallCost(t, p', c')
  {
    match Rates(t)
    case None =>
    case Some((i, o)) =>
      assert i > 0 && o > 0 by { assert t != Unpriced; }
      WeightedSumMono(p, c, p', c', i, o);
      assert CallCost(t, p, c) == p * i + c * o;
      assert CallCost(t, p', c') == p' * i + c' * o;
  }

  /** `p * i + c * o` grows with `p` and `c`, strictly when both weights are positive. */
  lemma WeightedSumMono(p: nat, c: nat, p': nat, c': nat, i: nat, o: nat)
    requires p <= p' && c <= c'
    ensures p * i + c * o <= p' * i + c' * o
    ensures i > 0 && o > 0 && (p < p' || c < c') ==> p * i + c * o < p' * i + c' * o
  {
    var dp, dc := p' - p, c' - c;
    assert p' * i == p * i + dp * i;
    assert c' * o == c * o + dc * o;
  }

  /** Pricing `n` prompt and `n` completion tokens at `get_cost_per_1k_tokens()` per thousand
      gives `_calculate_cost`'s figure exactly when the tier's figure is its mean rate (gpt-4,
      gpt-3.5, opus, sonnet, and the unpriced providers), or for an empty call; turbo and haiku
      are quoted below their mean. */
  lemma PerThousandPricesBalancedCalls(t: Tier, n: nat)
    ensures CallCost(t, n, n) == 2 * n * PerThousand(t) <==> n == 0 || t !in {Turbo, Haiku}
    ensures t in {Turbo, Haiku} ==> 2 * n * PerThousand(t) <= CallCost(t, n, n)
  {
    match t
    case Turbo => assert CallCost(t, n, n) == 40000 * n && 2 * n * PerThousand(t) == 30000 * n;
    case Gpt4 => assert CallCost(t, n, n) == 90000 * n && 2 * n * PerThousand(t) == 90000 * n;
    case Gpt35 => assert CallCost(t, n, n) == 2000 * n && 2 * n * PerThousand(t) == 2000 * n;
    case Opus => assert CallCost(t, n, n) == 90000 * n && 2 * n * PerThousand(t) == 90000 * n;
    case Sonnet => assert CallCost(t, n, n) == 18000 * n && 2 * n * PerThousand(t) == 18000 * n;
    case Haiku => assert CallCost(t, n, n) == 1500 * n && 2 * n * PerThousand(t) == 750 * n;
    case Unpriced =>
  }

  /** The per-thousand figure is the mean of the input and output rates for gpt-4, gpt-3.5,
      opus and sonnet; for gpt-4-turbo and haiku it is not (0.015 against a mean of 0.02, and
      0.000375 against 0.00075). */
  lemma PerThousandIsMeanRate(t: Tier)
    requires Rates(t).Some?
    ensures 2 * PerThousand(t) == Rates(t).value.0 + Rates(t).value.1 <==> t !in {Turbo, Haiku}
  {
  }

  // ---------------------------------------------------------------------------------------
  // create_all

  /** The entries `LLMFactory.create_all()` may hold, in insertion order. */
  datatype Slot = Gpt4Slot | Gpt35Slot | OpusSlot | HaikuSlot | DeepSeekSlot | GrokSlot | OllamaSlot

  /** The dictionary key of each entry. */
  function SlotKey(s: Slot): string {
    match s
    case Gpt4Slot => "openai_gpt4"
    case Gpt35Slot => "openai_gpt35"
    case OpusSlot => "claude_opus"
    case HaikuSlot => "claude_haiku"
    case DeepSeekSlot => "deepseek"
    case GrokSlot => "grok"
    case OllamaSlot => "ollama_llama2"
  }

  /** The kind and model each entry is built with. */
  function SlotProvider(s: Slot): Provider {
    match s
    case Gpt4Slot => Provider(OpenAI, "gpt-4-turbo-preview")
    case Gpt35Slot => Provider(OpenAI, "gpt-3.5-turbo")
    case OpusSlot => Provider(Claude, "claude-3-opus-20240229")
    case HaikuSlot => Provider(Claude, "claude-3-haiku-20240307")
    case DeepSeekSlot => Provider(DeepSeek, "deepseek-chat")
    case GrokSlot => Provider(Grok, "grok-beta")
    case OllamaSlot => Provider(Ollama, "llama2")
  }

  /** The condition `create_all` tests before it tries an entry. DeepSeek is tried when
      either its key or its base URL is set. */
  predicate Tried(s: Slot, env: Env) {
    match s
    case Gpt4Slot => HasEnv(env, "OPENAI_API_KEY")
    case Gpt35Slot => HasEnv(env, "OPENAI_API_KEY")
    case OpusSlot => HasEnv(env, "ANTHROPIC_API_KEY")
    case HaikuSlot => HasEnv(env, "ANTHROPIC_API_KEY")
    case DeepSeekSlot => HasEnv(env, "DEEPSEEK_API_KEY") || HasEnv(env, "DEEPSEEK_BASE_URL")
    case GrokSlot => HasEnv(env, "XAI_API_KEY") || HasEnv(env, "GROK_API_KEY")
    case OllamaSlot => true
  }

  /** `LLMFactory.create_all()`: each entry whose condition holds and whose constructor does
      not raise; a constructor that raises is only logged. */
  function CreateAll(env: Env, probe: Option<string>): (r: map<Slot, Provider>)
    ensures Gpt4Slot in r <==> HasEnv(env, "OPENAI_API_KEY")
    ensures Gpt35Slot in r <==> HasEnv(env, "OPENAI_API_KEY")
    ensures OpusSlot in r <==> HasEnv(env, "ANTHROPIC_API_KEY")
    ensures HaikuSlot in r <==> HasEnv(env, "ANTHROPIC_API_KEY")
    ensures DeepSeekSlot in r <==> HasEnv(env, "DEEPSEEK_API_KEY")
    ensures GrokSlot in r <==> HasEnv(env, "XAI_API_KEY") || HasEnv(env, "GROK_API_KEY")
    ensures OllamaSlot in r <==> probe.None?
  {
    map s: Slot | Tried(s, env) && Configured(SlotProvider(s).kind, env, probe) :: SlotProvider(s)
  }

  /** Every provider `create_all` holds is one the factory builds from its kind's name and
      model in the same environment. */
  lemma CreateAllAgreesWithFactory(env: Env, probe: Option<string>, s: Slot)
    requires s in CreateAll(env, probe)
    ensures var p := CreateAll(env, probe)[s];
            Create(Name(p.kind), Some(p.model), env, probe) == Success(p)
  {
    NameRoundTrip(SlotProvider(s).kind);
  }
}

=== FILE: report.dfy ===
/** `_consensus_report` of agent/coordinator.py: the passing and distinct counts, then one row
    per bucket, largest first with ties kept in first-seen order, then the selected winner. */
module Report {
  import opened Strings
  import opened Patches
  import opened Consensus

  /** One bucket as the report sees it: the key, the miner ids of its members in arrival
      order, and the position where the key is first seen. */
  datatype Entry = Entry(key: string, miners: seq<string>, first: nat)

  function Count(e: Entry): nat {
    |e.miners|
  }

  /** `e` is listed before `f`: more votes, or as many votes and seen earlier. Python's
      `sorted(..., reverse=True)` keeps equal elements in their original order, and the
      dict's items come in first-seen order. */
  predicate Before(e: Entry, f: Entry) {
    Count(e) > Count(f) || (Count(e) == Count(f) && e.first < f.first)
  }

  predicate Ranked(s: seq<Entry>) {
    forall i, j :: 0 <= i < j < |s| ==> Before(s[i], s[j])
  }

  /** Entries in strictly increasing first-seen position, as the dict yields them. */
  predicate FirstSeenSorted(s: seq<Entry>) {
    forall i, j :: 0 <= i < j < |s| ==> s[i].first < s[j].first
  }

  function MinerIds(cs: seq<Candidate>): (ids: seq<string>)
    ensures |ids| == |cs|
    ensures forall i :: 0 <= i < |cs| ==> ids[i] == cs[i].minerId
  {
    seq(|cs|, i requires 0 <= i < |cs| => cs[i].minerId)
  }

  /** The report's bucket dict, in insertion order. */
  function Entries(key: Candidate -> string, cs: seq<Candidate>): (es: seq<Entry>)
    ensures |es| == |Order(key, cs)|
    ensures forall i :: 0 <= i < |es| ==> es[i].key == Order(key, cs)[i]
    ensures forall i :: 0 <= i < |es| ==> Count(es[i]) == Votes(key, cs, es[i].key)
    ensures forall i :: 0 <= i < |es| ==> es[i].first == FirstIndex(key, cs, es[i].key)
    ensures forall i :: 0 <= i < |es| ==> es[i].miners == MinerIds(Members(key, cs, es[i].key))
    ensures FirstSeenSorted(es)
  {
    var o := Order(key, cs);
    seq(|o|, i requires 0 <= i < |o| =>
      Entry(o[i], MinerIds(Members(key, cs, o[i])), FirstIndex(key, cs, o[i])))
  }

  /** `t` lists the entries of `s`, each once, in some order. */
  ghost predicate Permutes(t: seq<Entry>, s: seq<Entry>) {
    |t| == |s| && (forall e :: e in t <==> e in s)
  }

  /** Insert `x`, seen after everything in `s`, behind every entry with at least its votes. */
  function Insert(x: Entry, s: seq<Entry>): (r: seq<Entry>)
    requires Ranked(s)
    requires forall i :: 0 <= i < |s| ==> s[i].first < x.first
    ensures |r| == |s| + 1
    ensures forall e :: e in r <==> e in s || e == x
    ensures Ranked(r)
  {
    if |s| == 0 then [x]
    else if Count(x) > Count(s[0]) then
      ConsRanked(x, s);
      [x] + s
    else
      var t := Insert(x, s[1..]);
      assert forall e :: e in s[1..] ==> e in s;
      ConsRanked(s[0], t);
      [s[0]] + t
  }

  lemma ConsRanked(h: Entry, t: seq<Entry>)
    requires Ranked(t) && forall e :: e in t ==> Before(h, e)
    ensures Ranked([h] + t)
  {
    forall i, j | 0 <= i < j < |t| + 1
      ensures Before(([h] + t)[i], ([h] + t)[j])
    {
      assert ([h] + t)[j] == t[j - 1];
      if i > 0 {
        assert ([h] + t)[i] == t[i - 1];
      }
    }
  }

  /** `sorted(entries, key=len, reverse=True)` */
  function Rank(es: seq<Entry>): (r: seq<Entry>)
    requires FirstSeenSorted(es)
    ensures Permutes(r, es)
    ensures Ranked(r)
  {
    if |es| == 0 then []
    else
      var init := es[..|es| - 1];
      var last := es[|es| - 1];
      var s := Rank(init);
      assert forall i :: 0 <= i < |s| ==> s[i] in init;
      assert es == init + [last];
      Insert(last, s)
  }

  /** `Before` never holds both ways, so there is one ranked order of any collection. */
  lemma {:induction false} RankedUnique(s: seq<Entry>, t: seq<Entry>)
    requires Ranked(s) && Ranked(t) && Permutes(s, t)
    ensures s == t
  {
    if |s| > 0 {
      HeadsAgree(s, t);
      TailsPermute(s, t);
      RankedUnique(s[1..], t[1..]);
      assert s == [s[0]] + s[1..] && t == [t[0]] + t[1..];
    }
  }

  lemma TailsPermute(s: seq<Entry>, t: seq<Entry>)
    requires Ranked(s) && Ranked(t) && Permutes(s, t) && |s| > 0 && s[0] == t[0]
    ensures Ranked(s[1..]) && Ranked(t[1..]) && Permutes(s[1..], t[1..])
  {
    forall e
      ensures e in s[1..] <==> e in t[1..]
    {
      OnlyHead(s, e);
      OnlyHead(t, e);
    }
  }

  /** In a ranked sequence the head occurs once, so the tail holds exactly the other entries. */
  lemma OnlyHead(s: seq<Entry>, e: Entry)
    requires Ranked(s) && |s| > 0
    ensures e in s[1..] <==> e in s && e != s[0]
  {
    assert s == [s[0]] + s[1..];
    if e in s[1..] {
      var j :| 0 <= j < |s[1..]| && s[1..][j] == e;
      assert Before(s[0], s[j + 1]);
    }
  }

  lemma HeadsAgree(s: seq<Entry>, t: seq<Entry>)
    requires Ranked(s) && Ranked(t) && Permutes(s, t) && |s| > 0
    ensures s[0] == t[0]
  {
    assert t[0] in s && s[0] in t;
    var i :| 0 <= i < |s| && s[i] == t[0];
    var j :| 0 <= j < |t| && t[j] == s[0];
    NotBothLater(s, t, i, j);
  }

  lemma NotBothLater(s: seq<Entry>, t: seq<Entry>, i: int, j: int)
    requires Ranked(s) && Ranked(t)
    requires 0 <= i < |s| && 0 <= j < |t| && s[i] == t[0] && t[j] == s[0]
    ensures i == 0 || j == 0
  {
  }

  /** The ranking is the stable descending sort: any ranked rearrangement of the entries is
      `Rank`'s result. */
  lemma RankIsStableSort(es: seq<Entry>, r: seq<Entry>)
    requires FirstSeenSorted(es)
    requires Permutes(r, es) && Ranked(r)
    ensures r == Rank(es)
  {
    RankedUnique(r, Rank(es));
  }

  /** The first line of a bucket's code, or "" for empty code. */
  function FirstLine(code: string): (l: string)
    ensures forall i :: 0 <= i < |l| ==> !IsLineBreak(l[i])
  {
    if code == "" then "" else SplitLines(code)[0]
  }

  /** The preview of a bucket: its first line, stripped, cut to 80 characters. */
  function Preview(code: string): (p: string)
    ensures |p| <= 80
    ensures |p| == if |Strip(FirstLine(code))| < 80 then |Strip(FirstLine(code))| else 80
    ensures code == "" ==> p == ""
    ensures StartsWith(Strip(FirstLine(code)), p)
    ensures forall i :: 0 <= i < |p| ==> !IsLineBreak(p[i])
  {
    var first := FirstLine(code);
    var p := Take(Strip(first), 80);
    PreviewInLine(first, p);
    p
  }

  lemma PreviewInLine(first: string, p: string)
    requires forall i :: 0 <= i < |first| ==> !IsLineBreak(first[i])
    requires |p| <= |Strip(first)| && p == Strip(first)[..|p|]
    ensures forall i :: 0 <= i < |p| ==> !IsLineBreak(p[i])
  {
    var a := SkipSpace(first, 0);
    forall i | 0 <= i < |p|
      ensures !IsLineBreak(p[i])
    {
      assert p[i] == Strip(first)[i] == first[a + i];
    }
  }

  /** One numbered line of the report. */
  datatype Row = Row(rank: nat, entry: Entry, preview: string)

  datatype ConsensusNote = ConsensusNote(passing: nat, unique: nat, rows: seq<Row>, selected: string)

  function RowsOf(ranked: seq<Entry>): (rows: seq<Row>)
    ensures |rows| == |ranked|
    ensures forall i :: 0 <= i < |rows| ==>
              rows[i] == Row(i + 1, ranked[i], Preview(ranked[i].key))
  {
    seq(|ranked|, i requires 0 <= i < |ranked| => Row(i + 1, ranked[i], Preview(ranked[i].key)))
  }

  function EntriesOf(rows: seq<Row>): (es: seq<Entry>)
    ensures |es| == |rows|
    ensures forall i :: 0 <= i < |rows| ==> es[i] == rows[i].entry
  {
    seq(|rows|, i requires 0 <= i < |rows| => rows[i].entry)
  }

  /** The report for any bucket key. */
  function ReportBy(key: Candidate -> string, passing: seq<Candidate>, winner: Candidate): (n: ConsensusNote)
    ensures n.passing == |passing|
    ensures n.unique == |Order(key, passing)| == |n.rows|
    ensures n.selected == winner.minerId
    ensures Permutes(EntriesOf(n.rows), Entries(key, passing))
    ensures Ranked(EntriesOf(n.rows))
    ensures forall i :: 0 <= i < |n.rows| ==> n.rows[i].rank == i + 1
    ensures forall i :: 0 <= i < |n.rows| ==> n.rows[i].preview == Preview(n.rows[i].entry.key)
  {
    var ranked := Rank(Entries(key, passing));
    var rows := RowsOf(ranked);
    assert EntriesOf(rows) == ranked;
    ConsensusNote(|passing|, |Order(key, passing)|, rows, winner.minerId)
  }

  /** `_consensus_report(passing, winner)` */
  function ConsensusReport(passing: seq<Candidate>, winner: Candidate): ConsensusNote {
    ReportBy(Key, passing, winner)
  }

  /** The top row is the winning bucket: the selection and the report agree. */
  lemma TopRowIsWinner(key: Candidate -> string, passing: seq<Candidate>, winner: Candidate, p: int)
    requires WinnerAt(key, passing, p)
    ensures |ReportBy(key, passing, winner).rows| > 0
    ensures ReportBy(key, passing, winner).rows[0].entry.key == key(passing[p])
  {
    var es := Entries(key, passing);
    var r := EntriesOf(ReportBy(key, passing, winner).rows);
    var b := WinnerEntry(key, passing, p, es);
    WinnerOnTop(key, passing, p, es, r, b);
  }

  /** The winner's key has an entry. */
  lemma WinnerEntry(key: Candidate -> string, cs: seq<Candidate>, p: int, es: seq<Entry>) returns (b: int)
    requires WinnerAt(key, cs, p) && es == Entries(key, cs)
    ensures 0 <= b < |es| && es[b].key == key(cs[p])
  {
    var kw := key(cs[p]);
    assert FirstIndex(key, cs, kw) <= p;
    b :| 0 <= b < |Order(key, cs)| && Order(key, cs)[b] == kw;
  }

  lemma WinnerOnTop(key: Candidate -> string, cs: seq<Candidate>, p: int, es: seq<Entry>,
                    r: seq<Entry>, b: int)
    requires WinnerAt(key, cs, p) && es == Entries(key, cs) && Ranked(r) && Permutes(r, es)
    requires 0 <= b < |es| && es[b].key == key(cs[p])
    ensures |r| > 0 && r[0] == es[b]
  {
    assert es[b] in r;
    var m :| 0 <= m < |r| && r[m] == es[b];
    assert r[0] in es;
    var a :| 0 <= a < |es| && es[a] == r[0];
    NoneAboveWinner(key, cs, p, es, r, a, b, m);
  }

  lemma NoneAboveWinner(key: Candidate -> string, cs: seq<Candidate>, p: int, es: seq<Entry>,
                        r: seq<Entry>, a: int, b: int, m: int)
    requires WinnerAt(key, cs, p) && es == Entries(key, cs) && Ranked(r)
    requires 0 <= a < |es| && 0 <= b < |es| && 0 <= m < |r|
    requires es[b].key == key(cs[p]) && r[m] == es[b] && es[a] == r[0]
    ensures m == 0
  {
    var k0 := es[a].key;
    var q := FirstIndex(key, cs, k0);
    assert q < |cs| && key(cs[q]) == k0;
    assert FirstIndex(key, cs, key(cs[p])) == p;
  }

  /** Every passing candidate is in exactly one bucket: the one of its own key. */
  lemma BucketsPartition(key: Candidate -> string, cs: seq<Candidate>,
                         buckets: map<string, seq<Candidate>>, order: seq<string>, c: Candidate)
    requires BucketsOf(key, cs, buckets, order) && c in cs
    ensures key(c) in buckets
    ensures forall k :: k in buckets ==> (c in buckets[k] <==> k == key(c))
  {
    var i :| 0 <= i < |cs| && cs[i] == c;
    assert FirstIndex(key, cs, key(c)) <= i;
  }

  /** The votes of the keys in `o`, summed. */
  function SumVotes(key: Candidate -> string, cs: seq<Candidate>, o: seq<string>): nat {
    if |o| == 0 then 0 else SumVotes(key, cs, o[..|o| - 1]) + Votes(key, cs, o[|o| - 1])
  }

  predicate Distinct(o: seq<string>) {
    forall i, j :: 0 <= i < j < |o| ==> o[i] != o[j]
  }

  /** The row votes add up to the passing count. */
  lemma {:induction false} VotesAddUp(key: Candidate -> string, cs: seq<Candidate>)
    ensures SumVotes(key, cs, Order(key, cs)) == |cs|
  {
    if |cs| > 0 {
      var init := cs[..|cs| - 1];
      var k := key(cs[|cs| - 1]);
      var o := Order(key, init);
      VotesAddUp(key, init);
      assert Distinct(o);
      SumStep(key, init, cs, o);
      if k !in o {
        assert FirstIndex(key, init, k) == |init|;
        NoMembers(key, init, k);
        assert Order(key, cs) == o + [k];
        assert (o + [k])[..|o|] == o;
      }
    }
  }

  /** Appending one candidate adds one vote to the sum, if its key is listed. */
  lemma {:induction false} SumStep(key: Candidate -> string, init: seq<Candidate>,
                                   cs: seq<Candidate>, o: seq<string>)
    requires |cs| == |init| + 1 && init == cs[..|init|] && Distinct(o)
    ensures SumVotes(key, cs, o) ==
              SumVotes(key, init, o) + (if key(cs[|init|]) in o then 1 else 0)
  {
    assert cs == init + [cs[|init|]];
    if |o| > 0 {
      var o' := o[..|o| - 1];
      SumStep(key, init, cs, o');
      assert o == o' + [o[|o| - 1]];
    }
  }
}

=== FILE: sandbox.dfy ===
/** `DockerSandbox.run_verification` of agent/sandbox.py as control flow over the outcomes of the
    Docker calls it makes. The Docker daemon is not modelled: each call's outcome is given, and
    the result records which calls were made, in order. */
module Sandbox {
  import opened Wrappers
  import opened Strings

  /** The keyword arguments of `containers.run`. */
  datatype ContainerConfig = ContainerConfig(
    image: string,
    command: string,
    detach: bool,
    networkMode: string,
    memLimit: string,
    pidsLimit: nat,
    readOnly: bool,
    securityOpt: seq<string>)

  const ImageTag := "raven-sandbox:latest"
  const DefaultTimeout := 30

  const Config := ContainerConfig(ImageTag, "python -m pytest -q test_suite.py", true, "none",
                                  "256m", 128, true, ["no-new-privileges:true"])

  /** A Docker call made on the way, in the order it is made. */
  datatype Call =
    | CreateContainer(config: ContainerConfig)
    | PutArchive(dir: string, fileName: string, content: string)
    | WaitFor(timeout: int)
    | Kill
    | ReadLogs
    | ForceRemove

  /** A Docker call either returns or raises an exception with the given text. */
  datatype Outcome = Returned | Raised(error: string)

  /** How `container.wait` ends: it raises (a timeout or any other error), or returns the
      wait result whose `StatusCode` entry may be missing. */
  datatype WaitOutcome = WaitRaised | Waited(statusCode: Option<int>)

  /** The outcome of every Docker call `run_verification` may make. */
  datatype Docker = Docker(
    create: Outcome,
    copySolution: Outcome,
    copyTests: Outcome,
    wait: WaitOutcome,
    kill: Outcome,
    logs: Result<string, string>,
    remove: Outcome)

  datatype Verdict = Verdict(success: bool, logs: string)

  /** What a run returned, and the Docker calls it made. */
  datatype Run = Run(verdict: Verdict, calls: seq<Call>)

  /** `StatusCode` with a missing entry read as 1. */
  function ExitStatus(statusCode: Option<int>): int {
    statusCode.GetOr(1)
  }

  function TimeoutMessage(timeout: int): string {
    "Sandbox timeout after " + IntToString(timeout) + "s"
  }

  /** The body of the `try` once the container exists: inject both files, wait, read the logs.
      Exceptions surface as `str(e)` in a failed verdict. */
  function RunCreated(d: Docker, timeout: int, code: string, tests: string): (r: Run)
    ensures |r.calls| > 0 && r.calls[0] == PutArchive("/app", "solution.py", code)
    ensures ForceRemove !in r.calls && CreateContainer(Config) !in r.calls
  {
    var inject := [PutArchive("/app", "solution.py", code)];
    if d.copySolution.Raised? then Run(Verdict(false, d.copySolution.error), inject)
    else
      var inject := inject + [PutArchive("/app", "test_suite.py", tests)];
      if d.copyTests.Raised? then Run(Verdict(false, d.copyTests.error), inject)
      else
        var waited := inject + [WaitFor(timeout)];
        match d.wait
        case WaitRaised =>
          // the kill's own failure is swallowed
          Run(Verdict(false, TimeoutMessage(timeout)), waited + [Kill])
        case Waited(statusCode) =>
          var read := waited + [ReadLogs];
          match d.logs
          case Failure(e) => Run(Verdict(false, e), read)
          case Success(logs) => Run(Verdict(ExitStatus(statusCode) == 0, logs), read)
  }

  /** `run_verification(code, tests)`. When creating the container fails there is nothing to
      remove; otherwise the `finally` clause force-removes it, and a failing removal is
      swallowed. */
  function RunVerification(d: Docker, timeout: int, code: string, tests: string): (r: Run)
    ensures |r.calls| > 0 && r.calls[0] == CreateContainer(Config)
    ensures d.create.Raised? ==> r == Run(Verdict(false, d.create.error), [CreateContainer(Config)])
    ensures d.create.Returned? ==> r.calls[|r.calls| - 1] == ForceRemove
    ensures forall i :: 0 <= i < |r.calls| - 1 ==> r.calls[i] != ForceRemove
  {
    if d.create.Raised? then Run(Verdict(false, d.create.error), [CreateContainer(Config)])
    else
      var inner := RunCreated(d, timeout, code, tests);
      var calls := [CreateContainer(Config)] + inner.calls + [ForceRemove];
      assert forall i :: 0 <= i < |calls| - 1 ==> calls[i] == CreateContainer(Config) || calls[i] in inner.calls;
      Run(inner.verdict, calls)
  }

  /** Success exactly when the container ran both files and exited with status 0. */
  lemma SuccessIffExitZero(d: Docker, timeout: int, code: string, tests: string)
    ensures RunVerification(d, timeout, code, tests).verdict.success <==>
              && d.create.Returned? && d.copySolution.Returned? && d.copyTests.Returned?
              && d.wait.Waited? && d.logs.Success? && d.wait.statusCode == Some(0)
  {
  }

  /** A wait that raises attempts a kill, whatever the kill's outcome, and reports the
      timeout. */
  lemma TimeoutKills(d: Docker, timeout: int, code: string, tests: string)
    requires d.create.Returned? && d.copySolution.Returned? && d.copyTests.Returned?
    requires d.wait.WaitRaised?
    ensures RunVerification(d, timeout, code, tests) ==
              Run(Verdict(false, TimeoutMessage(timeout)),
                  [CreateContainer(Config), PutArchive("/app", "solution.py", code),
                   PutArchive("/app", "test_suite.py", tests), WaitFor(timeout), Kill, ForceRemove])
  {
  }

  /** The solution is injected before the test suite, and nothing waits before both are in. */
  lemma SolutionBeforeTests(d: Docker, timeout: int, code: string, tests: string, i: int)
    requires 0 <= i < |RunVerification(d, timeout, code, tests).calls|
    requires RunVerification(d, timeout, code, tests).calls[i].WaitFor?
    ensures i == 3
    ensures RunVerification(d, timeout, code, tests).calls[..3] ==
              [CreateContainer(Config), PutArchive("/app", "solution.py", code),
               PutArchive("/app", "test_suite.py", tests)]
  {
  }
}

=== FILE: strings.dfy ===
/** The parts of Python's `str` that the modelled code relies on: whitespace as `str.isspace`
    defines it, `strip`/`lstrip`/`rstrip`, `splitlines`, `"\n".join`, `startswith`, `in`,
    ASCII `lower`, and decimal rendering of integers. */
module Strings {

  /** `str.isspace()` for a single code point. */
  predicate IsSpace(c: char) {
    var n := c as int;
    (9 <= n <= 13) || (28 <= n <= 32) || n == 0x85 || n == 0xA0 || n == 0x1680
    || (0x2000 <= n <= 0x200A) || n == 0x2028 || n == 0x2029 || n == 0x202F
    || n == 0x205F || n == 0x3000
  }

  /** The code points `str.splitlines()` treats as line boundaries. */
  predicate IsLineBreak(c: char) {
    var n := c as int;
    (10 <= n <= 13) || (28 <= n <= 30) || n == 0x85 || n == 0x2028 || n == 0x2029
  }

  /** Python's `\d` restricted to ASCII digits. */
  predicate IsDigit(c: char) {
    '0' <= c <= '9'
  }

  /** `not s.strip()`: empty or whitespace only. */
  predicate IsBlank(s: string) {
    forall i :: 0 <= i < |s| ==> IsSpace(s[i])
  }

  /** Neither end of `s` is whitespace: `s == s.strip()`. */
  predicate Stripped(s: string) {
    |s| == 0 || (!IsSpace(s[0]) && !IsSpace(s[|s| - 1]))
  }

  /** The first index at or after `i` that holds no whitespace, or `|s|`. */
  function SkipSpace(s: string, i: nat): (j: nat)
    requires i <= |s|
    ensures i <= j <= |s|
    ensures j < |s| ==> !IsSpace(s[j])
    ensures forall m :: i <= m < j ==> IsSpace(s[m])
    decreases |s| - i
  {
    if i < |s| && IsSpace(s[i]) then SkipSpace(s, i + 1) else i
  }

  /** The least index `k` in `lo..j` such that `s[k..j]` is all whitespace. */
  function TrimBack(s: string, lo: nat, j: nat): (k: nat)
    requires lo <= j <= |s|
    ensures lo <= k <= j
    ensures k > lo ==> !IsSpace(s[k - 1])
    ensures forall m :: k <= m < j ==> IsSpace(s[m])
  {
    if j > lo && IsSpace(s[j - 1]) then TrimBack(s, lo, j - 1) else j
  }

  /** `s.rstrip()` */
  function RStrip(s: string): (r: string)
    ensures |r| <= |s| && r == s[..|r|]
    ensures |r| > 0 ==> !IsSpace(r[|r| - 1])
    ensures forall i :: |r| <= i < |s| ==> IsSpace(s[i])
  {
    s[..TrimBack(s, 0, |s|)]
  }

  /** `s.strip()`: the slice of `s` left once whitespace is cut from both ends. */
  function Strip(s: string): (r: string)
    ensures Stripped(r)
    ensures |r| <= |s|
    ensures var a := SkipSpace(s, 0);
              && a + |r| <= |s| && r == s[a..a + |r|]
              && (forall i :: 0 <= i < a ==> IsSpace(s[i]))
              && (forall i :: a + |r| <= i < |s| ==> IsSpace(s[i]))
  {
    var a := SkipSpace(s, 0);
    s[a..TrimBack(s, a, |s|)]
  }

  lemma StripOfStripped(s: string)
    requires Stripped(s)
    ensures Strip(s) == s
  {
  }

  lemma StripIdempotent(s: string)
    ensures Strip(Strip(s)) == Strip(s)
  {
    StripOfStripped(Strip(s));
  }

  /** The whitespace-only strings are exactly those that strip to "". */
  lemma BlankIffStripsEmpty(s: string)
    ensures IsBlank(s) <==> Strip(s) == ""
  {
  }

  /** `s.startswith(p)` */
  predicate StartsWith(s: string, p: string) {
    |p| <= |s| && s[..|p|] == p
  }

  /** `sub` occurs in `s` starting at index `i`. */
  predicate OccursAt(s: string, sub: string, i: int) {
    0 <= i <= |s| - |sub| && s[i..i + |sub|] == sub
  }

  /** `sub in s` */
  predicate Contains(s: string, sub: string) {
    exists i :: 0 <= i <= |s| - |sub| && OccursAt(s, sub, i)
  }

  /** `s.lower()` restricted to ASCII letters; other code points are kept. */
  function Lower(s: string): (r: string)
    ensures |r| == |s|
    ensures forall i :: 0 <= i < |s| ==> ('A' <= s[i] <= 'Z' ==> r[i] as int == s[i] as int + 32)
    ensures forall i :: 0 <= i < |s| ==> (!('A' <= s[i] <= 'Z') ==> r[i] == s[i])
  {
    if |s| == 0 then ""
    else
      var c := s[0];
      var d := if 'A' <= c <= 'Z' then (c as int + 32) as char else c;
      [d] + Lower(s[1..])
  }

  /** `s[:n]` for a non-negative `n`. */
  function Take<T>(s: seq<T>, n: nat): (r: seq<T>)
    ensures |r| == if n < |s| then n else |s|
    ensures r == s[..|r|]
  {
    if n < |s| then s[..n] else s
  }

  /** `sep.join(parts)` */
  function Join(sep: string, parts: seq<string>): string {
    if |parts| == 0 then ""
    else if |parts| == 1 then parts[0]
    else parts[0] + sep + Join(sep, parts[1..])
  }

  // Sequence facts the bots' proofs use to take their item lists apart.

  lemma JoinEmpty<T>(a: seq<T>, b: seq<T>)
    requires |a| == 0
    ensures a + b == b
  {
  }

  lemma JoinTail<T>(a: seq<T>, b: seq<T>)
    requires |a| > 0
    ensures (a + b)[0] == a[0] && (a + b)[1..] == a[1..] + b
  {
  }

  lemma JoinAssoc<T>(x: seq<T>, y: seq<T>, z: seq<T>)
    ensures (x + y) + z == x + (y + z)
  {
  }

  lemma Snoc<T>(s: seq<T>, m: nat)
    requires m < |s|
    ensures s[..m + 1] == s[..m] + [s[m]]
  {
  }

  lemma Single<T>(r: seq<T>, v: T)
    requires |r| == 1 && r[0] == v
    ensures r == [v]
  {
  }

  /** Index of the first line boundary in `s`, or `|s|`. */
  function FirstBreak(s: string): (k: nat)
    ensures k <= |s|
    ensures k < |s| ==> IsLineBreak(s[k])
    ensures forall i :: 0 <= i < k ==> !IsLineBreak(s[i])
  {
    if |s| == 0 || IsLineBreak(s[0]) then 0 else 1 + FirstBreak(s[1..])
  }

  /** `s.splitlines()`: the lines between boundaries, where "\r\n" is one boundary and
      a boundary at the very end does not open an empty last line. */
  function SplitLines(s: string): (lines: seq<string>)
    ensures |s| > 0 <==> |lines| > 0
    ensures forall j :: 0 <= j < |lines| ==> forall i :: 0 <= i < |lines[j]| ==> !IsLineBreak(lines[j][i])
    decreases |s|
  {
    if |s| == 0 then []
    else
      var k := FirstBreak(s);
      if k == |s| then [s]
      else
        [s[..k]] + SplitLines(s[k + BreakWidth(s, k)..])
  }

  /** How many characters the boundary at `k` takes: two for "\r\n", one otherwise. */
  function BreakWidth(s: string, k: nat): (w: nat)
    requires k < |s|
    ensures k + w <= |s|
    ensures w == 2 <==> s[k] == '\r' && k + 1 < |s| && s[k + 1] == '\n'
    ensures w == 1 || w == 2
  {
    if s[k] == '\r' && k + 1 < |s| && s[k + 1] == '\n' then 2 else 1
  }

  function DigitChar(d: nat): char
    requires d < 10
  {
    ('0' as int + d) as char
  }

  /** Decimal rendering of a natural number, as `str(n)`. */
  function NatToString(n: nat): (r: string)
    ensures |r| > 0
    ensures forall i :: 0 <= i < |r| ==> IsDigit(r[i])
  {
    if n < 10 then [DigitChar(n)] else NatToString(n / 10) + [DigitChar(n % 10)]
  }

  /** Decimal rendering of an integer, as `str(n)`. */
  function IntToString(n: int): string {
    if n < 0 then "-" + NatToString(-n) else NatToString(n)
  }
}

=== FILE: telegram.dfy ===
/** The Telegram front end (bots/telegram_bot.py): a message with an issue link starts a run,
    events are throttled to one per 1.5 seconds, and everything is sent once the run's first
    "error" or "complete" has been pulled. */
module TelegramBot {
  import opened Wrappers
  import opened Coordinator
  import opened Chat

  /** The reply to `/start`. */
  const Help := "Send me a GitHub Issue URL and I’ll run Raven on it.\n"
                + "Example: https://github.com/cortensor/protocol/issues/101"

  /** The throttle, in milliseconds: an event goes out only 1.5 s after the last one sent. */
  const Interval := 1500

  /** When the last event picked before position `m` was sent, `last` if none was. */
  function SentBefore(picked: seq<nat>, m: nat, clock: nat -> int, last: int): int
    decreases |picked|
  {
    if |picked| == 0 || picked[0] >= m then last
    else SentBefore(picked[1..], m, clock, clock(picked[0]))
  }

  /** The positions `run_workflow` yields, reading the stream from `k` on with the last event
      sent at `last`; `clock(m)` is `time.time()` read when item `m` arrives. */
  function Pick(items: seq<Item>, clock: nat -> int, k: nat, last: int): (r: seq<nat>)
    requires k <= |items|
    ensures Increasing(r)
    ensures forall i :: 0 <= i < |r| ==> k <= r[i] <= StopAt(items, k) && r[i] < |items|
    ensures StopAt(items, k) < |items| ==> |r| > 0 && r[|r| - 1] == StopAt(items, k)
    decreases |items| - k
  {
    if k == |items| then []
    else if !items[k].Event? then [k]
    else if clock(k) - last >= Interval then [k] + Pick(items, clock, k + 1, clock(k))
    else Pick(items, clock, k + 1, last)
  }

  /** An event before the first "error" or "complete" is sent exactly when 1.5 s have passed
      since the last event sent before it. */
  lemma {:induction false} SentIffDue(items: seq<Item>, clock: nat -> int, k: nat, last: int, m: nat)
    requires k <= m && k <= |items| && m < StopAt(items, k)
    ensures var r := Pick(items, clock, k, last);
            m in r <==> clock(m) - SentBefore(r, m, clock, last) >= Interval
    decreases |items| - k
  {
    var r := Pick(items, clock, k, last);
    assert items[k].Event? && StopAt(items, k) == StopAt(items, k + 1);
    if clock(k) - last >= Interval {
      var rest := Pick(items, clock, k + 1, clock(k));
      assert r == [k] + rest;
      if k < m {
        SentIffDue(items, clock, k + 1, clock(k), m);
        assert r[0] < m && r[1..] == rest;
        assert SentBefore(r, m, clock, last) == SentBefore(rest, m, clock, clock(k));
        assert m in r <==> m in rest;
      } else {
        assert m in r;
        assert SentBefore(r, m, clock, last) == last;
      }
    } else {
      var rest := Pick(items, clock, k + 1, last);
      assert r == rest;
      if k < m {
        SentIffDue(items, clock, k + 1, last, m);
      } else {
        assert k !in rest;
        assert |rest| == 0 || rest[0] >= m;
        assert SentBefore(r, m, clock, last) == last;
      }
    }
  }

  /** The items `run_workflow` yields, in order. */
  function Forwarded(items: seq<Item>, clock: nat -> int): (r: seq<Item>)
    ensures var p := Pick(items, clock, 0, 0);
            |r| == |p| && forall i :: 0 <= i < |p| ==> r[i] == items[p[i]]
  {
    var p := Pick(items, clock, 0, 0);
    seq(|p|, i requires 0 <= i < |p| => items[p[i]])
  }

  /** `handle_message`: `message` is the update's message, `None` when it has none, with a
      missing text read as ""; `solve(url)` is the coordinator's stream for `url`. */
  function HandleMessage(message: Option<string>, solve: string -> seq<Item>, clock: nat -> int)
    : (t: seq<Action>)
    ensures message.None? ==> t == []
    ensures message.Some? && ExtractIssueUrl(message.value).None? ==> t == [Reply(InvalidLink)]
    ensures message.Some? && ExtractIssueUrl(message.value).Some? ==>
              && |t| > 0 && t[0] == Reply(StartText(ExtractIssueUrl(message.value).value))
              && PullsBeforeSends(t)
    ensures message.Some? && ExtractIssueUrl(message.value).Some? ==>
              var url := ExtractIssueUrl(message.value).value;
              t == [Reply(StartText(url))] + Pulls(Consumed(solve(url))) + Sends(Texts(Forwarded(solve(url), clock)))
  {
    match message
    case None => []
    case Some(text) =>
      match ExtractIssueUrl(text)
      case None => [Reply(InvalidLink)]
      case Some(url) =>
        var items := solve(url);
        PullsThenSends(Reply(StartText(url)), Consumed(items), Texts(Forwarded(items, clock)));
        [Reply(StartText(url))] + Pulls(Consumed(items)) + Sends(Texts(Forwarded(items, clock)))
  }

  /** Two events sent in a row are at least 1.5 s apart, and the first comes 1.5 s after
      `last`. */
  lemma {:induction false} EventsAreSpaced(items: seq<Item>, clock: nat -> int, k: nat, last: int)
    requires k <= |items|
    ensures var r := Pick(items, clock, k, last);
            && (|r| > 0 && items[r[0]].Event? ==> clock(r[0]) - last >= Interval)
            && forall i :: 0 < i < |r| && items[r[i]].Event? ==> clock(r[i]) - clock(r[i - 1]) >= Interval
    decreases |items| - k
  {
    var r := Pick(items, clock, k, last);
    if k < |items| && items[k].Event? {
      if clock(k) - last >= Interval {
        EventsAreSpaced(items, clock, k + 1, clock(k));
        var rest := Pick(items, clock, k + 1, clock(k));
        assert r == [k] + rest;
        forall i | 0 < i < |r| && items[r[i]].Event? ensures clock(r[i]) - clock(r[i - 1]) >= Interval {
          assert r[i] == rest[i - 1];
          if i > 1 {
            assert r[i - 1] == rest[i - 2];
          }
        }
      } else {
        EventsAreSpaced(items, clock, k + 1, last);
      }
    }
  }

  /** Nothing after the first "error" or "complete" is sent, and that item itself always is,
      whatever the clock says. */
  lemma StopsAtFirstError(items: seq<Item>, clock: nat -> int)
    ensures var f := Forwarded(items, clock);
            && (forall i :: 0 <= i < |f| - 1 ==> f[i].Event?)
            && (StopAt(items, 0) < |items| ==> |f| > 0 && f[|f| - 1] == items[StopAt(items, 0)])
            && (forall x :: x in f ==> x in Consumed(items))
  {
    var p := Pick(items, clock, 0, 0);
    var f := Forwarded(items, clock);
    forall i | 0 <= i < |f| - 1 ensures f[i].Event? {
      assert p[i] < p[|p| - 1] <= StopAt(items, 0);
    }
    forall x | x in f ensures x in Consumed(items) {
      var i :| 0 <= i < |f| && f[i] == x;
      assert Consumed(items)[p[i]] == x;
    }
  }
}

=== FILE: validation.dfy ===
/** The static patch gate of agent/validation.py: an ordered cascade of rejection rules over the
    patch text and the syntax tree Python's parser produced for it. The parser is not modelled;
    its outcome arrives as a `Parse`, with the tree flattened into the order `ast.walk` visits it. */
module Validation {
  import opened Wrappers
  import opened Strings

  /** What a call node calls: a bare name as in `eval(x)`, an attribute as in `builtins.eval(x)`,
      or any other expression. */
  datatype Callee = Name(id: string) | Attribute(base: string, attr: string) | OtherCallee

  /** One syntax-tree node; node kinds the gate never inspects are `OtherNode`. */
  datatype Node =
    | FunctionDef(name: string)
    | AsyncFunctionDef(name: string)
    | Import(names: seq<string>)
    | ImportFrom(moduleName: Option<string>)
    | Call(callee: Callee)
    | OtherNode

  /** The outcome of parsing: the nodes in walk order, or the SyntaxError's text. */
  datatype Parse = Parsed(walk: seq<Node>) | SyntaxError(message: string)

  /** Why a patch was accepted or refused; `ReasonText` gives the message the caller sees. */
  datatype Reason =
    | EmptyPatch
    | TooLarge(limit: int)
    | BadSyntax(message: string)
    | ForbiddenImport(moduleName: string)
    | ForbiddenCall(name: string)
    | MissingFunction(name: string)
    | Accepted

  datatype ValidationResult = ValidationResult(ok: bool, reason: Reason)

  function ReasonText(r: Reason): string {
    match r
    case EmptyPatch => "Empty patch"
    case TooLarge(limit) => "Patch too large (> " + IntToString(limit) + " chars)"
    case BadSyntax(message) => "Syntax error: " + message
    case ForbiddenImport(m) => "Forbidden import: " + m
    case ForbiddenCall(name) => "Forbidden call: " + name + "()"
    case MissingFunction(name) => "Missing required function: " + name + "()"
    case Accepted => "OK"
  }

  const DefaultForbiddenModules: set<string> := {
    "os", "subprocess", "socket", "ssl", "asyncio", "multiprocessing", "threading", "signal",
    "pathlib", "shutil", "glob", "tempfile", "importlib", "pickle", "marshal",
    "requests", "urllib", "http", "ftplib",
    "docker"
  }

  const DefaultForbiddenCalls: set<string> := {"eval", "exec", "compile", "__import__", "open"}

  /** The keyword arguments of `validate_patch_code`; `None` selects the default set. */
  datatype Options = Options(
    requireFunction: string,
    maxChars: int,
    forbiddenModules: Option<set<string>>,
    forbiddenCalls: Option<set<string>>)

  const Defaults := Options("fix_issue", 20000, None, None)

  /** The module set in force: a supplied set replaces the defaults. */
  function ModulesOf(o: Options): set<string> {
    o.forbiddenModules.GetOr(DefaultForbiddenModules)
  }

  function CallsOf(o: Options): set<string> {
    o.forbiddenCalls.GetOr(DefaultForbiddenCalls)
  }

  /** `name.split(".")[0]`: everything before the first dot. */
  function TopLevel(name: string): (r: string)
    ensures |r| <= |name| && r == name[..|r|]
    ensures forall i :: 0 <= i < |r| ==> r[i] != '.'
    ensures |r| < |name| ==> name[|r|] == '.'
  {
    if |name| == 0 || name[0] == '.' then "" else [name[0]] + TopLevel(name[1..])
  }

  /** The first alias of an `import a, b.c` whose top-level module is forbidden. */
  function FirstForbiddenAlias(names: seq<string>, modules: set<string>): (r: Option<string>)
    ensures r.Some? ==> r.value in modules
    ensures r.Some? ==> exists i :: 0 <= i < |names| && TopLevel(names[i]) == r.value
                                    && forall j :: 0 <= j < i ==> TopLevel(names[j]) !in modules
    ensures r.None? ==> forall i :: 0 <= i < |names| ==> TopLevel(names[i]) !in modules
  {
    if |names| == 0 then None
    else if TopLevel(names[0]) in modules then Some(TopLevel(names[0]))
    else
      var rest := FirstForbiddenAlias(names[1..], modules);
      assert forall i :: 1 <= i < |names| ==> names[i] == names[1..][i - 1];
      if rest.Some? then
        ghost var i :| 0 <= i < |names[1..]| && TopLevel(names[1..][i]) == rest.value
                       && forall j :: 0 <= j < i ==> TopLevel(names[1..][j]) !in modules;
        assert TopLevel(names[i + 1]) == rest.value;
        rest
      else rest
  }

  /** The rejection one node triggers on its own, if any: a forbidden import (judged on the first
      dotted component, with a relative `from . import x` reading as "") or a forbidden bare-name call. */
  function Violation(n: Node, modules: set<string>, calls: set<string>): Option<Reason> {
    match n
    case Import(names) =>
      (match FirstForbiddenAlias(names, modules)
       case Some(m) => Some(ForbiddenImport(m))
       case None => None)
    case ImportFrom(m) =>
      var top := TopLevel(m.GetOr(""));
      if top in modules then Some(ForbiddenImport(top)) else None
    case Call(Name(id)) => if id in calls then Some(ForbiddenCall(id)) else None
    case _ => None
  }

  /** No node of `walk[lo..hi]` triggers a rejection. */
  ghost predicate CleanBetween(walk: seq<Node>, lo: int, hi: int, modules: set<string>, calls: set<string>) {
    forall i :: lo <= i < hi && 0 <= i < |walk| ==> Violation(walk[i], modules, calls).None?
  }

  /** Some `FunctionDef` of `walk[lo..]` carries exactly the required name. */
  ghost predicate DefinesFrom(walk: seq<Node>, lo: int, required: string) {
    exists i :: lo <= i < |walk| && 0 <= i && walk[i] == FunctionDef(required)
  }

  /** The tree walk from node `k` on, `found` recording whether the required function was seen
      before `k`: each node first records a matching definition, then may reject. */
  function WalkFrom(walk: seq<Node>, k: nat, required: string, modules: set<string>,
                    calls: set<string>, found: bool): (v: ValidationResult)
    requires k <= |walk|
    ensures v.ok <==> v.reason == Accepted
    ensures v.reason.ForbiddenImport? || v.reason.ForbiddenCall? ==>
              exists i :: k <= i < |walk| && Violation(walk[i], modules, calls) == Some(v.reason)
                          && CleanBetween(walk, k, i, modules, calls)
    ensures !CleanBetween(walk, k, |walk|, modules, calls) ==>
              v.reason.ForbiddenImport? || v.reason.ForbiddenCall?
    ensures CleanBetween(walk, k, |walk|, modules, calls) ==>
              if found || DefinesFrom(walk, k, required) then v == ValidationResult(true, Accepted)
              else v == ValidationResult(false, MissingFunction(required))
    decreases |walk| - k
  {
    if k == |walk| then
      if found then ValidationResult(true, Accepted)
      else ValidationResult(false, MissingFunction(required))
    else
      var found' := found || walk[k] == FunctionDef(required);
      match Violation(walk[k], modules, calls)
      case Some(r) => ValidationResult(false, r)
      case None =>
        var v := WalkFrom(walk, k + 1, required, modules, calls, found');
        assert DefinesFrom(walk, k, required) <==> walk[k] == FunctionDef(required) || DefinesFrom(walk, k + 1, required);
        v
  }

  /** `validate_patch_code(code, ...)`, with the parser's outcome for `code` supplied as `parse`. */
  function ValidatePatchCode(code: string, parse: Parse, o: Options): (v: ValidationResult)
    ensures v.ok <==> v.reason == Accepted
    // blank text is refused before anything else is looked at
    ensures IsBlank(code) ==> v == ValidationResult(false, EmptyPatch)
    // the size ceiling is strict, and is checked before parsing
    ensures !IsBlank(code) && |code| > o.maxChars ==> v == ValidationResult(false, TooLarge(o.maxChars))
    // a parse failure is reported before any tree inspection
    ensures !IsBlank(code) && |code| <= o.maxChars && parse.SyntaxError? ==>
              v == ValidationResult(false, BadSyntax(parse.message))
    // forbidden imports and calls: the first offending node in walk order decides, import or call alike
    ensures v.reason.ForbiddenImport? || v.reason.ForbiddenCall? ==>
              && !IsBlank(code) && |code| <= o.maxChars && parse.Parsed?
              && exists i :: 0 <= i < |parse.walk|
                             && Violation(parse.walk[i], ModulesOf(o), CallsOf(o)) == Some(v.reason)
                             && CleanBetween(parse.walk, 0, i, ModulesOf(o), CallsOf(o))
    ensures !IsBlank(code) && |code| <= o.maxChars && parse.Parsed?
            && !CleanBetween(parse.walk, 0, |parse.walk|, ModulesOf(o), CallsOf(o)) ==>
              v.reason.ForbiddenImport? || v.reason.ForbiddenCall?
    // a missing function is reported only for a tree with no offending node at all
    ensures v.reason.MissingFunction? ==>
              && v.reason.name == o.requireFunction && parse.Parsed?
              && CleanBetween(parse.walk, 0, |parse.walk|, ModulesOf(o), CallsOf(o))
              && !DefinesFrom(parse.walk, 0, o.requireFunction)
    // acceptance: no check refuses the patch and the required function is defined somewhere in the tree
    ensures v.ok <==> && !IsBlank(code) && |code| <= o.maxChars && parse.Parsed?
                      && CleanBetween(parse.walk, 0, |parse.walk|, ModulesOf(o), CallsOf(o))
                      && DefinesFrom(parse.walk, 0, o.requireFunction)
  {
    if IsBlank(code) then ValidationResult(false, EmptyPatch)
    else if |code| > o.maxChars then ValidationResult(false, TooLarge(o.maxChars))
    else
      match parse
      case SyntaxError(message) => ValidationResult(false, BadSyntax(message))
      case Parsed(walk) => WalkFrom(walk, 0, o.requireFunction, ModulesOf(o), CallsOf(o), false)
  }

  /** A node that neither rejects nor defines the required function leaves the walk's verdict
      as it would be without it. */
  predicate Neutral(n: Node, required: string, modules: set<string>, calls: set<string>) {
    Violation(n, modules, calls).None? && n != FunctionDef(required)
  }

  /** The walk from `k` depends only on the nodes from `k` on. */
  lemma {:induction false} WalkSuffix(w1: seq<Node>, k1: nat, w2: seq<Node>, k2: nat, required: string,
                                      modules: set<string>, calls: set<string>, found: bool)
    requires k1 <= |w1| && k2 <= |w2| && w1[k1..] == w2[k2..]
    ensures WalkFrom(w1, k1, required, modules, calls, found) == WalkFrom(w2, k2, required, modules, calls, found)
    decreases |w1| - k1
  {
    if k1 < |w1| {
      assert w1[k1] == w1[k1..][0] == w2[k2..][0] == w2[k2];
      assert w1[k1 + 1..] == w1[k1..][1..] == w2[k2..][1..] == w2[k2 + 1..];
      WalkSuffix(w1, k1 + 1, w2, k2 + 1, required, modules, calls, found || w1[k1] == FunctionDef(required));
    }
  }

  /** Inserting a neutral node after position `k` of the walk changes nothing from `k` on. */
  lemma {:induction false} WalkIgnoresNeutral(a: seq<Node>, x: Node, b: seq<Node>, k: nat, required: string,
                                              modules: set<string>, calls: set<string>, found: bool)
    requires k <= |a| && Neutral(x, required, modules, calls)
    ensures WalkFrom(a + [x] + b, k, required, modules, calls, found)
            == WalkFrom(a + b, k, required, modules, calls, found)
    decreases |a| - k
  {
    var w1, w2 := a + [x] + b, a + b;
    if k == |a| {
      assert w1[k] == x && w1[k + 1..] == b == w2[k..];
      WalkStep(w1, k, required, modules, calls, found);
      WalkSuffix(w1, k + 1, w2, k, required, modules, calls, found);
    } else {
      assert w1[k] == a[k] == w2[k];
      WalkStep(w1, k, required, modules, calls, found);
      WalkStep(w2, k, required, modules, calls, found);
      if Violation(a[k], modules, calls).None? {
        WalkIgnoresNeutral(a, x, b, k + 1, required, modules, calls, found || a[k] == FunctionDef(required));
      }
    }
  }

  /** One step of the walk: a rejecting node ends it, any other node passes it on. */
  lemma WalkStep(w: seq<Node>, k: nat, required: string, modules: set<string>, calls: set<string>, found: bool)
    requires k < |w|
    ensures Violation(w[k], modules, calls).Some? ==>
              WalkFrom(w, k, required, modules, calls, found)
              == ValidationResult(false, Violation(w[k], modules, calls).value)
    ensures Violation(w[k], modules, calls).None? ==>
              WalkFrom(w, k, required, modules, calls, found)
              == WalkFrom(w, k + 1, required, modules, calls, found || w[k] == FunctionDef(required))
  {
  }

  /** A neutral node may be inserted anywhere in the walk without changing the verdict. */
  lemma NeutralInsertion(code: string, a: seq<Node>, x: Node, b: seq<Node>, o: Options)
    requires Neutral(x, o.requireFunction, ModulesOf(o), CallsOf(o))
    ensures ValidatePatchCode(code, Parsed(a + [x] + b), o) == ValidatePatchCode(code, Parsed(a + b), o)
  {
    WalkIgnoresNeutral(a, x, b, 0, o.requireFunction, ModulesOf(o), CallsOf(o), false);
  }

  /** A call through an attribute, such as `builtins.eval(...)`, is never refused by the call
      rule, whatever the attribute is named: inserting one anywhere leaves the verdict as it was. */
  lemma AttributeCallsPass(code: string, a: seq<Node>, b: seq<Node>, base: string, attr: string, o: Options)
    ensures ValidatePatchCode(code, Parsed(a + [Call(Attribute(base, attr))] + b), o)
            == ValidatePatchCode(code, Parsed(a + b), o)
  {
    NeutralInsertion(code, a, Call(Attribute(base, attr)), b, o);
  }

  /** `from . import x` has no module name; it reads as "" and is forbidden only by a module set
      that holds "", which the default set does not: under any other set, inserting it anywhere
      leaves the verdict as it was. */
  lemma RelativeImportPasses(code: string, a: seq<Node>, b: seq<Node>, o: Options)
    ensures "" !in DefaultForbiddenModules
    ensures "" !in ModulesOf(o) ==>
              ValidatePatchCode(code, Parsed(a + [ImportFrom(None)] + b), o)
              == ValidatePatchCode(code, Parsed(a + b), o)
    ensures "" in ModulesOf(o) ==>
              Violation(ImportFrom(None), ModulesOf(o), CallsOf(o)) == Some(ForbiddenImport(""))
  {
    if "" !in ModulesOf(o) {
      NeutralInsertion(code, a, ImportFrom(None), b, o);
    }
  }

  /** Imports are judged on their first dotted component: `import os.path` is refused as `os`,
      while `import osx` (a different top-level name) is not. */
  lemma ImportJudgedByTopLevel()
    ensures Violation(Import(["os.path"]), DefaultForbiddenModules, DefaultForbiddenCalls)
            == Some(ForbiddenImport("os"))
    ensures Violation(Import(["osx"]), DefaultForbiddenModules, DefaultForbiddenCalls).None?
  {
    assert TopLevel("os.path") == "os" by {
      assert "os.path"[2] == '.';
      assert TopLevel("os.path"[2..]) == "";
    }
    assert TopLevel("osx") == "osx" by {
      assert TopLevel("x") == "x";
    }
  }

  /** A supplied module set replaces the defaults: with a custom set that leaves out `os`,
      `import os` is accepted. */
  lemma CustomModulesReplaceDefaults(code: string, custom: set<string>)
    requires !IsBlank(code) && |code| <= 20000
    requires "os" !in custom
    ensures ValidatePatchCode(code, Parsed([Import(["os"]), FunctionDef("fix_issue")]),
                              Options("fix_issue", 20000, Some(custom), None)).ok
  {
    var walk := [Import(["os"]), FunctionDef("fix_issue")];
    assert TopLevel("os") == "os" by { assert TopLevel("s") == "s"; }
    assert DefinesFrom(walk, 0, "fix_issue") by { assert walk[1] == FunctionDef("fix_issue"); }
  }

  /** The first offending node in walk order decides: a forbidden call outranks any forbidden
      import after it (and a forbidden import any call after it), and either outranks a missing
      function. */
  lemma FirstOffenceWins(code: string, w: seq<Node>, i: nat, o: Options)
    requires !IsBlank(code) && |code| <= o.maxChars
    requires i < |w| && Violation(w[i], ModulesOf(o), CallsOf(o)).Some?
    requires CleanBetween(w, 0, i, ModulesOf(o), CallsOf(o))
    ensures ValidatePatchCode(code, Parsed(w), o)
            == ValidationResult(false, Violation(w[i], ModulesOf(o), CallsOf(o)).value)
  {
    var v := ValidatePatchCode(code, Parsed(w), o);
    var m, c := ModulesOf(o), CallsOf(o);
    assert !CleanBetween(w, 0, |w|, m, c);
    var j :| 0 <= j < |w| && Violation(w[j], m, c) == Some(v.reason) && CleanBetween(w, 0, j, m, c);
    if j != i {
      assert false;
    }
  }
}

=== FILE: wrappers.dfy ===
/** Failure-carrying values: an optional value, and a value-or-error standing in for a Python
    call that either returns or raises. */
module Wrappers {

  datatype Option<+T> = None | Some(value: T) {

    /** The carried value, or `default` when there is none (Python's `x or default` on a maybe-None). */
    function GetOr(default: T): T {
      match this
      case Some(v) => v
      case None => default
    }
  }

  /** `Failure(e)` is a raised exception whose `str(e)` is `e`. */
  datatype Result<+R, +E> = Success(value: R) | Failure(error: E) {

    predicate IsFailure() {
      Failure?
    }

    function PropagateFailure<U>(): Result<U, E>
      requires Failure?
    {
      Failure(error)
    }

    function Extract(): R
      requires Success?
    {
      value
    }
  }
}

=== FILE: x402.dfy ===
/** The payment lock of agent/x402.py: a store of invoices, each holding locked content behind
    an unpaid/paid status. The uuid generator, the clock and the HTTP gateway are not modelled;
    their results arrive as parameters. */
module X402 {
  import opened Wrappers
  import opened Strings
  import opened Json

  datatype Status = Unpaid | Paid

  /** One stored invoice; `price` is the text `str(price_usdc)` renders, "5.0" by default. */
  datatype Invoice = Invoice(content: string, status: Status, price: string)

  datatype Merchant = Merchant(invoices: map<string, Invoice>, gatewayUrl: string, mode: string)

  /** What `create_locked_content` hands back. */
  datatype Lock = Lock(invoiceId: string, paymentLink: string, status: string)

  /** The gateway's answer to a status query: a decoded JSON body, or any failure on the way
      (unreachable, non-2xx status, undecodable body). */
  datatype GatewayReply = GatewayFailed | GatewayJson(body: Json)

  const DefaultGateway := "https://x402.pay/invoice"
  const DefaultPrice := "5.0"
  const PaymentRequired := "402 Payment Required"
  const LockedMessage := "402 Payment Required: Content is locked."

  /** The constructor: an empty store, the gateway from `X402_GATEWAY_URL` and the lower-cased
      mode from `X402_MODE`, defaulting to "demo". */
  function NewMerchant(gatewayEnv: Option<string>, modeEnv: Option<string>): (m: Merchant)
    ensures m.invoices == map[]
    ensures m.gatewayUrl == gatewayEnv.GetOr(DefaultGateway)
    ensures modeEnv.None? ==> m.mode == "demo"
    ensures modeEnv.Some? ==> m.mode == Lower(modeEnv.value)
  {
    Merchant(map[], gatewayEnv.GetOr(DefaultGateway), Lower(modeEnv.GetOr("demo")))
  }

  /** The invoice id drawn from the fresh uuid text `uuid`: all of it in production, its first
      eight characters in any other mode. */
  function InvoiceId(mode: string, uuid: string): (id: string)
    ensures mode == "production" ==> id == uuid
    ensures mode != "production" ==> |id| == (if |uuid| < 8 then |uuid| else 8) && StartsWith(uuid, id)
  {
    if mode == "production" then uuid else Take(uuid, 8)
  }

  /** `create_locked_content(content, price)`. An id that is already in the store is
      overwritten: nothing checks for a collision. */
  function CreateLockedContent(m: Merchant, content: string, price: string, uuid: string): (r: (Merchant, Lock))
    ensures var id := InvoiceId(m.mode, uuid);
            && r.0.gatewayUrl == m.gatewayUrl && r.0.mode == m.mode
            && r.0.invoices.Keys == m.invoices.Keys + {id}
            && r.0.invoices[id] == Invoice(content, Unpaid, price)
            && (forall other :: other in m.invoices && other != id ==> r.0.invoices[other] == m.invoices[other])
    ensures var id := InvoiceId(m.mode, uuid);
            && r.1.invoiceId == id && r.1.status == PaymentRequired
            && StartsWith(r.1.paymentLink, m.gatewayUrl + "/" + id + "?amount=")
            && r.1.paymentLink[|m.gatewayUrl + "/" + id + "?amount="|..] == price
  {
    var id := InvoiceId(m.mode, uuid);
    (m.(invoices := m.invoices[id := Invoice(content, Unpaid, price)]),
     Lock(id, m.gatewayUrl + "/" + id + "?amount=" + price, PaymentRequired))
  }

  /** The gateway's verdict: a truthy `paid` field, or a `status` field whose text is "paid" in
      any letter case. A body that is not an object makes `data.get` raise, which reads as not
      paid. */
  predicate GatewaySaysPaid(reply: GatewayReply) {
    && reply.GatewayJson?
    && reply.body.JObject?
    && (Truthy(Get(reply.body.fields, "paid"))
        || Lower(PyStr(GetOr(reply.body.fields, "status", JString("")))) == "paid")
  }

  /** `verify_payment(id)`: `None` for an unknown id; in demo mode the invoice is marked paid
      without asking anyone; in any other mode the gateway's `reply` decides. */
  function VerifyPayment(m: Merchant, id: string, reply: GatewayReply): (r: (Merchant, Option<bool>))
    ensures id !in m.invoices ==> r == (m, None)
    ensures id in m.invoices && m.mode == "demo" ==>
              r == (m.(invoices := m.invoices[id := m.invoices[id].(status := Paid)]), Some(true))
    ensures id in m.invoices && m.mode != "demo" ==>
              && r.1 == Some(GatewaySaysPaid(reply))
              && r.0 == if GatewaySaysPaid(reply)
                        then m.(invoices := m.invoices[id := m.invoices[id].(status := Paid)])
                        else m
  {
    if id !in m.invoices then (m, None)
    else if m.mode == "demo" then
      (m.(invoices := m.invoices[id := m.invoices[id].(status := Paid)]), Some(true))
    else if GatewaySaysPaid(reply) then
      (m.(invoices := m.invoices[id := m.invoices[id].(status := Paid)]), Some(true))
    else (m, Some(false))
  }

  /** `retrieve_content(id)`: the content when the invoice exists and is paid, otherwise the
      `PermissionError`. */
  function RetrieveContent(m: Merchant, id: string): (r: Result<string, string>)
    ensures r.Success? <==> id in m.invoices && m.invoices[id].status == Paid
    ensures r.Success? ==> r.value == m.invoices[id].content
    ensures r.Failure? ==> r.error == LockedMessage
  {
    if id in m.invoices && m.invoices[id].status == Paid then Success(m.invoices[id].content)
    else Failure(LockedMessage)
  }

  /** `m1` keeps every invoice of `m0` with its content and price, and every paid one paid. */
  ghost predicate Keeps(m0: Merchant, m1: Merchant) {
    && m1.gatewayUrl == m0.gatewayUrl && m1.mode == m0.mode
    && (forall id :: id in m0.invoices ==> id in m1.invoices)
    && (forall id :: id in m0.invoices ==>
          m1.invoices[id].content == m0.invoices[id].content
          && m1.invoices[id].price == m0.invoices[id].price
          && (m0.invoices[id].status == Paid ==> m1.invoices[id].status == Paid))
    && (forall id :: id in m1.invoices ==> id in m0.invoices)
  }

  /** Verification never unpays, never drops an invoice, and touches no other invoice. */
  lemma VerifyIsMonotone(m: Merchant, id: string, reply: GatewayReply)
    ensures Keeps(m, VerifyPayment(m, id, reply).0)
    ensures forall other :: other in m.invoices && other != id ==>
              VerifyPayment(m, id, reply).0.invoices[other] == m.invoices[other]
  {
  }

  /** Unlocking content: after any successful verification, retrieval hands out exactly the
      content that was locked. */
  lemma VerifiedUnlocks(m: Merchant, content: string, price: string, uuid: string, reply: GatewayReply)
    ensures var (m1, lock) := CreateLockedContent(m, content, price, uuid);
            var (m2, paid) := VerifyPayment(m1, lock.invoiceId, reply);
            && paid.Some?
            && (paid.value <==> RetrieveContent(m2, lock.invoiceId).Success?)
            && (paid.value ==> RetrieveContent(m2, lock.invoiceId) == Success(content))
  {
  }

  /** A fresh lock is locked: before any verification, retrieval refuses. */
  lemma FreshLockIsLocked(m: Merchant, content: string, price: string, uuid: string)
    ensures var (m1, lock) := CreateLockedContent(m, content, price, uuid);
            RetrieveContent(m1, lock.invoiceId) == Failure(LockedMessage)
  {
  }

  /** Demo mode approves every known invoice, whatever the gateway would say. */
  lemma DemoApprovesAll(m: Merchant, id: string, reply: GatewayReply)
    requires m.mode == "demo" && id in m.invoices
    ensures VerifyPayment(m, id, reply).1 == Some(true)
    ensures RetrieveContent(VerifyPayment(m, id, reply).0, id) == Success(m.invoices[id].content)
  {
  }

  /** Creating a lock whose short id matches a paid invoice replaces it by an unpaid one with the
      new content: the earlier buyer loses access. */
  lemma CollisionRelocks(m: Merchant, content: string, price: string, uuid: string)
    requires m.mode != "production" && InvoiceId(m.mode, uuid) in m.invoices
    ensures var id := InvoiceId(m.mode, uuid);
            RetrieveContent(CreateLockedContent(m, content, price, uuid).0, id).Failure?
  {
  }
}
